=== FILE: README.md ===
# Day Dream core, modelled in Dafny

Day Dream is a learning platform built around a Socratic dialogue guide. This
project models the guide's core and the small rule sets around it:

- **ConversationMemory** (`backend/src/ai/conversation_memory.rs`): per-session
  dialogue turns kept in a bounded least-recently-used cache. The durable store
  behind it is an oracle, and the shipped stub store is one instance of it.
  Per-turn metadata (word count and depth level) is modelled too.
- **Prompts** (`backend/src/ai/prompts/mod.rs`): the choice of questioning
  strategy from the learner's input, the history section and the prompt text.
- **PromptExamples**: the source's strategy-selection tests, and the input
  "now i see", worked out on concrete strings.
- **SocraticEngine** (`backend/src/ai/socratic_engine.rs`): the `respond`
  sequence with its error propagation, and reply post-processing.
- **Knowledge** (`backend/src/handlers/knowledge.rs`): sliding-window chunking
  of text by words.
- **Railway**, **WeighStation**, **WeighStationUi**
  (`backend/src/domain/railway.rs`, `backend/src/services/weigh_station.rs`,
  `frontend/src/components/weigh_station.rs`): train cars that carry weighted
  words up to a capacity, the length-based weighing rules and the crate colours.
- **Fence** (`backend/src/handlers/weigh_station.rs`): stripping a Markdown code
  fence from a model's JSON answer.
- **ModelManager** (`backend/src/services/model_manager.rs`): the model
  catalogue, the downloaded-model record, scenario complexity and the model
  recommendation.
- **GemmaServer** (`backend/src/ai/llm/gemma_server.rs`): context-length
  rounding, the prompt-length check and token loop of generation, and the
  packing of retrieved sources into the synthesis context.
- **GameLogic** (`backend/src/domain/game_logic.rs`): the quest-step
  transition driven by player commands.
- **PersonaLogic** (`backend/src/domain/persona_logic.rs`): archetype scoring
  of a persona quiz. The database tables are sequences of rows.
- **NodeCanvas** (`frontend/src/components/authoring/node_canvas.rs`): the
  edits the story-graph authoring canvas makes to its nodes and connections.
- **TutorialOverlay** (`frontend/src/components/tutorial_overlay.rs`): the
  tutorial's step counter and buttons.

Shared helpers have no source file of their own:

- **Wrappers** holds `Option`, `Result` and `Outcome`.
- **Seqs** holds the last-n slice, filter and distinctness.
- **Text** holds whitespace splitting, trimming, ASCII lowercasing, substring
  search and UTF-8 length.
- **LruCache** models the `lru` crate's cache as the memory uses it.

Generation by a language model, UUIDs, clocks, the file system and the
databases are parameters. The tokenizer is a counting function and the
forward pass is a next-token function.

## Model

| member | source | states |
|---|---|---|
| ConversationMemory.DepthLevel | backend/src/ai/conversation_memory.rs:45-51 | the depth level of any word count lies between 1 and 5 |
| ConversationMemory.DepthLevelMonotone | backend/src/ai/conversation_memory.rs:45-51 | more words never give a shallower depth level |
| ConversationMemory.FromContent | backend/src/ai/conversation_memory.rs:41-65 | the word count is the number of whitespace-separated words; the depth follows it and lies in 1..5; sentiment is 0 and there are no virtue signals |
| ConversationMemory.New | backend/src/ai/conversation_memory.rs:76-81 | a new memory is empty, with the given cache capacity or 100 when it is zero |
| ConversationMemory.CacheBounded | backend/src/ai/conversation_memory.rs:76-81 | the cache never holds more sessions than its capacity |
| ConversationMemory.PrepareTurn | backend/src/ai/conversation_memory.rs:112-121 | a nil id is replaced by the fresh id and any other id is kept; metadata is computed from the content exactly when the word count is 0; the other fields are untouched |
| ConversationMemory.AddTurn | backend/src/ai/conversation_memory.rs:112-134 | the session's list becomes its old list (empty if uncached) plus the prepared turn; no other session's list changes; at most the least recently used session is evicted; the session becomes most recent; the outcome is the store's write result, and a failed write keeps the append |
| ConversationMemory.GetRecent | backend/src/ai/conversation_memory.rs:84-109 | a cache hit returns the last `limit` turns in order, changes no list and makes the session most recent; a miss returns the store's answer, changing nothing when it is an error; otherwise the answer is installed as the most recent session, every other cached session keeps its list, and only the least recently used one can be evicted, when the cache was full |
| ConversationMemory.AddThenGetRecent | backend/src/ai/conversation_memory.rs:84-134 | reading right after a write is a cache hit that ends with the turn just written |
| ConversationMemory.AddTurnsAppends | backend/src/ai/conversation_memory.rs:112-134 | after N writes, each drawing its own UUID for a nil id, the session's list is its old list followed by the N prepared turns, in order |
| ConversationMemory.AddTurnsRecent | backend/src/ai/conversation_memory.rs:124-128 | after one or more writes the session is cached and is the most recently used |
| ConversationMemory.RecentAfterWrites | backend/src/ai/conversation_memory.rs:84-134 | for a session new to the cache, reading k turns after N writes (each with its own UUID) gives the last min(k, N) prepared turns, oldest first |
| LruCache.Get | backend/src/ai/conversation_memory.rs:88-92 | a lookup finds exactly the cached keys, changes no entry and makes a found key most recent |
| LruCache.Put | backend/src/ai/conversation_memory.rs:103-106 | the key is bound to the value and becomes most recent; other bindings are kept, except that the least recently used key is evicted when a new key meets a full cache |
| LruCache.GetOrInsert | backend/src/ai/conversation_memory.rs:126-127 | the key becomes most recent, bound to its old value or to the default when absent, evicting as `Put` does |
| LruCache.SizeBound | backend/src/ai/conversation_memory.rs:76-81 | a well-formed cache holds at most `capacity` keys |
| Prompts.SelectWith | backend/src/ai/prompts/mod.rs:17-41 | a phrase in the lowercased input gives Affirming; otherwise fewer than 5 words give Scaffolding, 5 to 9 give Deepening and 10 or more give Mirroring, each case an if-and-only-if; Challenging is never chosen |
| Prompts.SelectStrategyAsWritten | backend/src/ai/prompts/mod.rs:17-41 | with the source's phrase list, Affirming is chosen exactly when one of its phrases occurs in the lowercased input |
| Prompts.SelectStrategy | backend/src/ai/prompts/mod.rs:17-41 | with "now i see" lowercased, Affirming is chosen exactly when a breakthrough phrase occurs in the lowercased input, and Challenging is never chosen |
| Prompts.SelectAsWrittenDiffers | backend/src/ai/prompts/mod.rs:21-27 | the selection as written and the corrected one disagree exactly when the lowercased input holds "now i see" and none of the other four phrases, and the corrected one then answers Affirming |
| Prompts.NowISeeNeverMatches | backend/src/ai/prompts/mod.rs:21-24 | lowercased text never contains "now I see" |
| Prompts.AffirmingStable | backend/src/ai/prompts/mod.rs:21-27 | the breakthrough check wins over the length rules: text appended after a breakthrough keeps the answer Affirming |
| Prompts.SelectIgnoresHistory | backend/src/ai/prompts/mod.rs:17-41 | the strategy does not depend on the history |
| Prompts.SelectMonotoneInLength | backend/src/ai/prompts/mod.rs:30-40 | without a breakthrough phrase, more words never choose a strategy meant for a shorter answer |
| Prompts.InstructionsDistinct | backend/src/ai/prompts/mod.rs:102-120 | the five strategies' guidance texts are pairwise different |
| Prompts.FormatHistory | backend/src/ai/prompts/mod.rs:80-100 | an empty history, and only that, gives "No previous conversation."; otherwise the text is the header followed by the last min(3, n) turns, oldest first, each as "Label: content", joined by line breaks, so it ends with the latest turn's line |
| Prompts.FormatHistoryWindow | backend/src/ai/prompts/mod.rs:80-100 | only the last three turns matter |
| Prompts.BuildPrompt | backend/src/ai/prompts/mod.rs:44-63 | the prompt is, in order, the system text, the focus line (default "General reflection"), the archetype line (default "Unknown"), the formatted history, the quoted input and the strategy's guidance, with the labels of the source's format string between them |
| Prompts.BuildPromptDeterminesStrategy | backend/src/ai/prompts/mod.rs:44-63 | for the same input, history and context, different strategies give different prompts |
| Prompts.BuildPromptDefaults | backend/src/ai/prompts/mod.rs:57-58 | a missing focus reads as "General reflection" and a missing archetype reads as "Unknown" |
| Prompts.SameContextSamePrompt | backend/src/ai/prompts/mod.rs:44-63 | the prompt depends on the context only through its focus and archetype as shown |
| PromptExamples.ShortInputScaffolds | backend/src/ai/prompts/mod.rs:127-131 | "I don't know" gives Scaffolding, by the selection as written and the corrected one |
| PromptExamples.BreakthroughAffirms | backend/src/ai/prompts/mod.rs:133-137 | "I finally understand what you mean!" gives Affirming, by the selection as written and the corrected one |
| PromptExamples.ModerateInputMirrors | backend/src/ai/prompts/mod.rs:139-146 | the ten-word reflection without a breakthrough phrase gives Mirroring, by the selection as written and the corrected one |
| PromptExamples.NowISeeAsWrittenMissed | backend/src/ai/prompts/mod.rs:21-24 | with the source's list, the input "now i see" gives Scaffolding, not Affirming |
| PromptExamples.NowISeeCorrectedFound | backend/src/ai/prompts/mod.rs:21-27 | with the phrase lowercased, the same input gives Affirming |
| SocraticEngine.New | backend/src/ai/socratic_engine.rs:31-36 | a new engine has no model loaded and keeps the memory it is given |
| SocraticEngine.PostProcess | backend/src/ai/socratic_engine.rs:125-139 | the result is empty exactly when the input is all whitespace; a non-empty result ends with '?'; it is the trimmed input, possibly plus one '?', and exactly the trimmed input when that already ends with '?' |
| SocraticEngine.PostProcessKeepsQuestion | backend/src/ai/socratic_engine.rs:125-139 | a trimmed question is returned unchanged |
| SocraticEngine.PostProcessIdempotent | backend/src/ai/socratic_engine.rs:125-139 | post-processing twice equals post-processing once |
| SocraticEngine.Respond | backend/src/ai/socratic_engine.rs:47-122 | the memory stays well formed and the model flag is kept; once the learner's write passes, the session's list grows by the stored learner turn and then the stored guide turn |
| SocraticEngine.Answer | backend/src/ai/socratic_engine.rs:67-121 | after the learner's turn, a cached session's list grows by exactly the stored guide turn, whatever the guide's write returns |
| SocraticEngine.AnswerOutcome | backend/src/ai/socratic_engine.rs:67-121 | for a cached session the history read cannot fail; the exchange succeeds exactly when the guide's write passes, and answers the post-processed fixed reply with the strategy `select_strategy` as written chooses from the input |
| SocraticEngine.RespondLearnerWriteFails | backend/src/ai/socratic_engine.rs:57-65 | a failed learner write ends the exchange with that error; the learner turn stays cached and nothing else is added |
| SocraticEngine.RespondAnswers | backend/src/ai/socratic_engine.rs:47-122 | once the learner's write passes, the result is Ok exactly when the guide's write passes, and the reply is the post-processed fixed text with the strategy `select_strategy` as written gives the input, so "now i see" is answered with Scaffolding |
| SocraticEngine.RawReplyBecomesQuestion | backend/src/ai/socratic_engine.rs:83-106 | both fixed replies come out of post-processing as non-empty questions |
| SocraticEngine.ReplyIsQuestion | backend/src/ai/socratic_engine.rs:47-139 | every successful reply ends with '?' |
| SocraticEngine.StubExchangeSucceeds | backend/src/ai/conversation_memory.rs:183-218 | with the shipped stub store every exchange succeeds and adds exactly two turns to the session |
| Knowledge.Step | backend/src/handlers/knowledge.rs:96-101 | the step is at most the chunk size, is zero only for a zero chunk size, and leaves `overlap` shared words when the size exceeds the overlap |
| Knowledge.WindowSlice | backend/src/handlers/knowledge.rs:92-93 | a window holds `size` words from its start, or the words left when fewer remain, in text order |
| Knowledge.StartAt | backend/src/handlers/knowledge.rs:90-101 | the k-th value the loop index takes is k steps past the first |
| Knowledge.ChunkText | backend/src/handlers/knowledge.rs:82-105 | the loop's output is the chunk list of the text's words, so no words give no chunks |
| Knowledge.ChunksShape | backend/src/handlers/knowledge.rs:90-104 | chunk k is the window at word k times step joined by spaces; there are chunks exactly when there are words, and enough of them for the starts to pass the last word |
| Knowledge.ChunksCoverEveryWord | backend/src/handlers/knowledge.rs:90-104 | every word lies in some chunk's window |
| Knowledge.LastChunkEndsAtLastWord | backend/src/handlers/knowledge.rs:90-104 | the last chunk's window ends at the last word |
| Knowledge.ChunkWords | backend/src/handlers/knowledge.rs:90-94 | each chunk splits back into its window, which holds between 1 and `chunkSize` words |
| Knowledge.ConsecutiveChunksOverlap | backend/src/handlers/knowledge.rs:96-101 | two full windows a step apart share exactly `overlap` words |
| Knowledge.LoopAsWritten | backend/src/handlers/knowledge.rs:90-102 | the loop as written pushes at most one chunk per iteration |
| Knowledge.ChunkSizeZeroNeverEnds | backend/src/handlers/knowledge.rs:90-102 | with chunk size 0 and some words the index never moves, so after any number of iterations the loop still runs, having pushed one empty chunk per iteration |
| Knowledge.SampleTextWords | backend/src/handlers/knowledge.rs:113 | the test sentence splits into its ten words |
| Knowledge.SampleChunks | backend/src/handlers/knowledge.rs:111-119 | windows of 3 moving by 2 over the sample give five chunks, beginning "This is a" and "a test sentence" |
| Railway.WrappingAdd | backend/src/domain/railway.rs:53 | u8 addition is the true sum below 256 and the sum minus 256 above |
| Railway.New | backend/src/domain/railway.rs:40-50 | a new car is empty and keeps the car invariant, with the given capacity and a mastery threshold of 0.8 |
| Railway.AddCargoAsWritten | backend/src/domain/railway.rs:52-62 | the cargo is refused exactly when the wrapped u8 sum exceeds the capacity, and the car is then unchanged with the overload message; otherwise the load becomes the wrapped sum and the word goes at the end of the cargo |
| Railway.AddCargo | backend/src/domain/railway.rs:52-62 | cargo is refused exactly when load plus weight exceeds the capacity, leaving the car unchanged; otherwise the load grows by the weight, the word goes at the end and nothing else changes |
| Railway.AddCargoValid | backend/src/domain/railway.rs:52-62 | adding cargo preserves load within capacity and load equal to the summed weights |
| Railway.AddCargoAgreesBelowWrap | backend/src/domain/railway.rs:53 | without u8 wrap-around the code as written and the corrected rule agree |
| Railway.OverflowAcceptsOverload | backend/src/domain/railway.rs:53 | as written, a car at 200 of 250 accepts weight 100 and reports load 44 while carrying 300 |
| Railway.CapacityExample | backend/src/domain/railway.rs:70-94 | a capacity-10 car takes a weight-5 word, refuses a weight-50 word and keeps load 5, with `add_cargo` as written and corrected |
| WeighStation.WeighCargo | backend/src/services/weigh_station.rs:8-22 | 0-4 bytes is Tier 1, 5-8 bytes Tier 2 and longer Tier 3, each an if-and-only-if; the word is kept and the embedding is empty |
| WeighStation.WeightFollowsTier | backend/src/services/weigh_station.rs:10-14 | the weight is fixed by the tier: 5, 20 or 50 |
| WeighStation.WeightMonotone | backend/src/services/weigh_station.rs:10-14 | longer words never weigh less, and nothing weighs more than 50 |
| WeighStation.WeighExamples | backend/src/services/weigh_station.rs:40-53 | "Cat", "Planet" and "Photosynthesis" weigh 5, 20 and 50, in tiers 1, 2 and 3 |
| WeighStation.ValidateCar | backend/src/services/weigh_station.rs:25-33 | a car is refused, with its load and capacity in the message, exactly when it is overloaded, and otherwise validates to true |
| WeighStation.LoadedCarsDepart | backend/src/services/weigh_station.rs:25-33 | every car built by `new` and the corrected `add_cargo` keeps its invariant and validates |
| WeighStation.OverloadedCarDeparts | backend/src/services/weigh_station.rs:25-33 | as written, the car that wrapped to load 44 passes the departure check while its cargo weighs more than its capacity |
| WeighStationUi.CrateWeight | frontend/src/components/weigh_station.rs:25-29 | 0-4 bytes weighs 10, 5-8 bytes 50 and longer words 90, each an if-and-only-if |
| WeighStationUi.WeighWord | frontend/src/components/weigh_station.rs:18-38 | an empty input changes nothing; otherwise exactly one crate, with the word and its weight, is appended and the input is cleared |
| WeighStationUi.WeighTwiceOnce | frontend/src/components/weigh_station.rs:18-38 | weighing twice in a row adds one crate |
| WeighStationUi.ColourOf | frontend/src/components/weigh_station.rs:67-71 | weights up to 30 are green and those above 70 red, each an if-and-only-if |
| WeighStationUi.ColourMonotone | frontend/src/components/weigh_station.rs:67-71 | heavier crates never get a lighter colour |
| WeighStationUi.ColourMatchesTier | frontend/src/components/weigh_station.rs:25-71 | 10, 50 and 90 are green, yellow and red, so a crate's colour matches the tier the backend gives the same word |
| Fence.CleanJson | backend/src/handlers/weigh_station.rs:65-70 | the cleaned text has no leading or trailing whitespace |
| Fence.CleanUnfenced | backend/src/handlers/weigh_station.rs:65-70 | trimmed text with no fence at either end is returned unchanged |
| Fence.CleanFencedBlock | backend/src/handlers/weigh_station.rs:64-70 | a "```json" block around any trimmed body cleans to exactly that body |
| ModelManager.ListAvailableModels | backend/src/services/model_manager.rs:69-100 | the catalogue has three models |
| ModelManager.New | backend/src/services/model_manager.rs:39-47 | a new manager has downloaded nothing |
| ModelManager.RecordDownload | backend/src/services/model_manager.rs:124-137 | a finished download files the model under its alias with its path; other aliases are kept as they were |
| ModelManager.GetModelPath | backend/src/services/model_manager.rs:150-154 | an unrecorded alias gives no path; a recorded alias gives exactly its recorded path, which may be none |
| ModelManager.HasModel | backend/src/services/model_manager.rs:141-147 | a model is present exactly when it has a path and the file exists there |
| ModelManager.PathOnlyAfterDownload | backend/src/services/model_manager.rs:124-154 | starting from a new manager, an alias has a path exactly when some download carried it, and the path is that of the latest such download |
| ModelManager.AnalyzeComplexity | backend/src/services/model_manager.rs:166-188 | a score of 0-1 is Simple, 2-3 Medium and 4 or more Complex, each an if-and-only-if |
| ModelManager.ComplexityMonotone | backend/src/services/model_manager.rs:166-188 | adding a framework, node types or assessments never lowers the complexity |
| ModelManager.NodeTypesDominate | backend/src/services/model_manager.rs:166-188 | one custom node type makes a scenario at least Medium, and two make it Complex |
| ModelManager.DisabledTestScenarios | backend/src/services/model_manager.rs:228-264 | the disabled test's simple and complex scenarios come out Simple and Complex, but its framework-only scenario scores 1, which is Simple, not the Medium the test expects |
| ModelManager.RecommendModel | backend/src/services/model_manager.rs:157-163 | every recommendation is the alias of a catalogue model |
| ModelManager.RecommendationsResolve | backend/src/services/model_manager.rs:69-163 | catalogue aliases are pairwise different; different complexities get different models; a more complex scenario gets a larger model |
| GemmaServer.RoundContextLength | backend/src/ai/llm/gemma_server.rs:28-32 | the result is one of 8192, 32768 and 131072; it is at least any request up to 131072; it equals the request exactly when that is supported |
| GemmaServer.RoundingStable | backend/src/ai/llm/gemma_server.rs:28-32 | rounding is idempotent and monotone |
| GemmaServer.WithContextLength | backend/src/ai/llm/gemma_server.rs:26-63 | the server stores the rounded length, which is always supported |
| GemmaServer.New | backend/src/ai/llm/gemma_server.rs:20-22 | a new server has the 8K window |
| GemmaServer.Generation | backend/src/ai/llm/gemma_server.rs:155-188 | at most `max_tokens` tokens, each the model's pick after the prompt and the tokens before it; no end-of-sequence token before the last; stopping early means the last token is 1 or 107 |
| GemmaServer.GenerateTokens | backend/src/ai/llm/gemma_server.rs:155-188 | the imperative loop generates exactly `Generation` |
| GemmaServer.GenerateWithConfig | backend/src/ai/llm/gemma_server.rs:146-188 | a prompt is refused, with the source's message, exactly when it exceeds the window minus the headroom; otherwise at most `max_tokens` tokens are generated, each the model's pick after the prompt and the tokens before it, with no end-of-sequence token before the last and one at the end when it stops early; prompt and output fit the window |
| GemmaServer.PackFrom | backend/src/ai/llm/gemma_server.rs:217-235 | the packed parts are consecutive sources numbered from their position; the total counts their tokens; the total stays within budget; the first unpacked source would exceed it |
| GemmaServer.PackSources | backend/src/ai/llm/gemma_server.rs:207-235 | the parts are the first sources, labelled 1, 2, ..., never more than `max_sources`; the total is query tokens plus 200 plus theirs; it stays within the window minus 1000 when the query fits |
| GemmaServer.PackingIsLongestFittingPrefix | backend/src/ai/llm/gemma_server.rs:207-235 | the packed sources are the longest prefix of the considered sources that fits the budget |
| GameLogic.Normalise | backend/src/domain/game_logic.rs:29 | the normalised input holds no capital letter and is as long as the trimmed input |
| GameLogic.FirstEligible | backend/src/domain/game_logic.rs:30-33 | it finds the first choice whose command matches and whose archetype is open to the player, and finds none exactly when there is no such choice |
| GameLogic.SetArchetypeOf | backend/src/domain/game_logic.rs:18-22 | archetype and stats take the new values and every other field is kept |
| GameLogic.Advance | backend/src/domain/game_logic.rs:24-41 | for an already normalised command, only the step id and description can change; a change happens only from a known step to a known step of the same quest, taking that step's description |
| GameLogic.ProcessInput | backend/src/domain/game_logic.rs:23-43 | the same holds for the typed input: only the step id and description can change, and only between known steps of the same quest |
| GameLogic.AdvanceOnFirstEligible | backend/src/domain/game_logic.rs:30-38 | when the first choice eligible for the normalised command leads to an existing step, the player moves there with its description |
| GameLogic.NoEligibleChoiceNoChange | backend/src/domain/game_logic.rs:30-33 | without a choice eligible for the normalised command the player is unchanged |
| GameLogic.InputKeepsKnownStep | backend/src/domain/game_logic.rs:23-43 | a player on a known step stays on one |
| GameLogic.CommandMatching | backend/src/domain/game_logic.rs:29-31 | a trimmed lowercase command is matched by the command typed with any surrounding whitespace; a command with a capital letter never matches |
| GameLogic.ArchetypeGatesChoices | backend/src/domain/game_logic.rs:18-32 | after `SetArchetype`, a reserved choice is eligible exactly when it is reserved for that archetype |
| GameLogic.ProcessCommand | backend/src/domain/game_logic.rs:10-50 | every player gets the command; the reply is the last updated player, and there is none exactly when there are no players |
| GameLogic.ProcessCommandKeepsWorld | backend/src/domain/game_logic.rs:16-45 | commands keep players on known steps with quest, inventory, flags and fate points unchanged; input commands keep archetype and stats |
| PersonaLogic.AnsweredRows | backend/src/domain/persona_logic.rs:14-20 | exactly the rows of the chosen answers are scored |
| PersonaLogic.Tally | backend/src/domain/persona_logic.rs:24-29 | every archetype with a row, and only those, has a score, which is its points summed; there are no scores exactly when there are no rows |
| PersonaLogic.ScoreAppend | backend/src/domain/persona_logic.rs:24-29 | scores add up over concatenated rows |
| PersonaLogic.BestRowExists | backend/src/domain/persona_logic.rs:31-34 | non-empty rows have an archetype of maximal score |
| PersonaLogic.StatsOf | backend/src/domain/persona_logic.rs:59-66 | the stats are keyed exactly by the names in the buff rows |
| PersonaLogic.StatsOfLast | backend/src/domain/persona_logic.rs:59-66 | a stat takes the value of the last row carrying its name |
| PersonaLogic.BuffsOf | backend/src/domain/persona_logic.rs:49-57 | exactly the chosen archetype's buff rows are read |
| PersonaLogic.FindArchetype | backend/src/domain/persona_logic.rs:37-41 | the archetype row with the id is found exactly when one exists |
| PersonaLogic.Conclude | backend/src/domain/persona_logic.rs:37-71 | a missing archetype row is an error; otherwise the result is that archetype with the stats of its buff rows |
| PersonaLogic.CalculateArchetype | backend/src/domain/persona_logic.rs:10-72 | no answered points gives "No archetype points found for submission", and only then; otherwise the chosen archetype is a maximum of the tally, comes from the archetype table and gets its buffs as stats; the row-not-found error happens only when some maximum of the tally has no archetype row, and never when all have one |
| PersonaLogic.ConcludeTopRow | backend/src/domain/persona_logic.rs:31-41 | fetching the archetype of a highest-scoring row gives a maximum of the tally, or the row-not-found error only when that archetype has no row |
| NodeCanvas.Load | frontend/src/components/authoring/node_canvas.rs:21-33 | loading replaces nodes, connections, id and title and keeps the interaction state |
| NodeCanvas.AddNode | frontend/src/components/authoring/node_canvas.rs:138-146 | exactly one node, "New Node" with "Write something..." and the fresh id, is appended; everything else is kept |
| NodeCanvas.PortMouseDown | frontend/src/components/authoring/node_canvas.rs:96-100 | an output port becomes the pending source, and any other port changes nothing |
| NodeCanvas.PortMouseUp | frontend/src/components/authoring/node_canvas.rs:102-116 | the canvas changes exactly when a source is pending, the port is an input and the node differs; then one connection from source to node is appended and the source is cleared |
| NodeCanvas.MouseUp | frontend/src/components/authoring/node_canvas.rs:79-82 | mouse up or leave clears the drag and the pending source, and nothing else |
| NodeCanvas.StartDrag | frontend/src/components/authoring/node_canvas.rs:85-93 | pressing a node drags and selects it, and nothing else changes |
| NodeCanvas.CloseEditor | frontend/src/components/authoring/node_canvas.rs:253 | closing the editor clears the selection only |
| NodeCanvas.DeleteNode | frontend/src/components/authoring/node_canvas.rs:254-258 | the surviving nodes are exactly those with another id and the surviving connections exactly those not touching it; the selection is cleared and every other field is kept |
| NodeCanvas.DeleteKeepsOrder | frontend/src/components/authoring/node_canvas.rs:254-258 | deletion distributes over concatenation of the node list and of the connection list, so survivors keep their relative order |
| NodeCanvas.DeleteAbsentKeeps | frontend/src/components/authoring/node_canvas.rs:254-258 | deleting an id that no node has and no connection touches leaves both lists exactly as they were and only clears the selection |
| NodeCanvas.ToSave | frontend/src/components/authoring/node_canvas.rs:38-54 | an empty id becomes "demo_graph" and an empty title "New Story"; other values, nodes and connections go as they are |
| NodeCanvas.SaveAfterLoad | frontend/src/components/authoring/node_canvas.rs:21-54 | saving a loaded graph with an id and a title gives it back unchanged |
| NodeCanvas.AddNodeKeepsWellFormed | frontend/src/components/authoring/node_canvas.rs:138-146 | adding a node with a fresh id keeps node ids distinct and the graph well formed |
| NodeCanvas.PortUpKeepsWellFormed | frontend/src/components/authoring/node_canvas.rs:102-116 | a new connection is never a self-loop and keeps the graph well formed |
| NodeCanvas.DeleteKeepsWellFormed | frontend/src/components/authoring/node_canvas.rs:254-258 | the delete cascade leaves no connection to a missing node |
| NodeCanvas.StepKeepsWellFormed | frontend/src/components/authoring/node_canvas.rs:79-258 | every admissible event keeps the graph well formed, except deleting the pending connection source |
| NodeCanvas.DuplicateConnectionsAllowed | frontend/src/components/authoring/node_canvas.rs:104-112 | the same pair of nodes can be connected twice |
| TutorialOverlay.LastIndex | frontend/src/components/tutorial_overlay.rs:105 | `total_steps - 1` is the last index when there are steps and wraps to the largest 32-bit `usize` when there are none |
| TutorialOverlay.GoNext | frontend/src/components/tutorial_overlay.rs:21-28 | Next moves on exactly when a further step exists; otherwise it asks to close and stays |
| TutorialOverlay.GoPrev | frontend/src/components/tutorial_overlay.rs:30-34 | Back moves back one step and never goes below the first |
| TutorialOverlay.ShowBack | frontend/src/components/tutorial_overlay.rs:36 | the Back button shows exactly past the first step |
| TutorialOverlay.NextButtonLabel | frontend/src/components/tutorial_overlay.rs:105-109 | the label is "Get Started" or "Next" |
| TutorialOverlay.HeadingReadsBack | frontend/src/components/tutorial_overlay.rs:55 | the progress heading shows exactly the step counted from one and the number of steps, and no other pair of numbers |
| TutorialOverlay.StartedHeadingInRange | frontend/src/components/tutorial_overlay.rs:18-55 | from the first step, after any presses, the heading shows a step k of n with 1 <= k <= n |
| TutorialOverlay.StepText | frontend/src/components/tutorial_overlay.rs:69 | the current step's text, empty past the end |
| TutorialOverlay.DotOf | frontend/src/components/tutorial_overlay.rs:76-87 | a dot is current, done or upcoming exactly as its index is equal to, below or above the current step |
| TutorialOverlay.LabelMatchesClosing | frontend/src/components/tutorial_overlay.rs:21-28 | with steps, the label reads "Get Started" exactly on the last step, where Next closes; with none, the wrapped index keeps it "Next" while Next closes |
| TutorialOverlay.RunStaysInRange | frontend/src/components/tutorial_overlay.rs:18-34 | any run of presses from a valid step stays on a valid step |
| TutorialOverlay.StartedTutorialStaysInRange | frontend/src/components/tutorial_overlay.rs:18-69 | from the first step, the text shown is always one of the steps |
| TutorialOverlay.NextThenBack | frontend/src/components/tutorial_overlay.rs:21-34 | Back undoes a Next that moved on |

## Left out

- Model inference: the tokenizer, the forward pass and decoding are parameters. Temperature scaling, the KV-cache index, `load_model` and model loading are not modelled.
- The `spawn_blocking` join error in `respond` is not modelled. The closure always returns the placeholder, so no generation error can occur.
- The prompt built in `respond` is not computed there. It only feeds the generation step, and that step returns fixed text. `Prompts.BuildPrompt` models the prompt itself.
- UUIDs and timestamps are parameters. Ids are naturals, and 0 is the nil UUID.
- The SQL of the durable store is commented out or stubbed in the source. The store is an abstract pair of functions, and `ConversationMemory.StubStore` is the shipped stub.
- Integer overflow at these sites is modelled as a release build computes it, wrapping, and a debug build panics instead: on the `u8` sum at backend/src/domain/railway.rs:53 and :59, and on `total_steps - 1` at frontend/src/components/tutorial_overlay.rs:105. The `usize` subtraction at backend/src/ai/llm/gemma_server.rs:146 is excluded by a requires instead (see `GemmaServer.GenerateWithConfig`).
- PersonaLogic.Tally: sums the `i32` points of backend/src/domain/persona_logic.rs:28 as unbounded integers, so a score sum past the `i32` range neither wraps nor panics in the model.
- Tokio locks and concurrency are not modelled: the memory has one sequential caller.
- Lowercasing is ASCII only. Unicode case mapping is not modelled.
- The persona quiz's queries are sequences of rows. Database errors other than a missing archetype row are not modelled.
- Hash-map iteration order is not modelled. `PersonaLogic.CalculateArchetype` may pick any archetype of maximal score, so which one wins a tie is not fixed.
- The downloads of the model manager (hf_hub, the cache directory, logging) are not modelled. A finished download is an event carrying its path, and file existence is a parameter.
- Floating point is not modelled: node coordinates, the drag offset, the connection curves and the two-decimal score rendering of the synthesis context.
- The text of the final synthesis prompt in `synthesize_from_rag`, and the model call on it, are not modelled. Only the source packing is.
- The Bevy ECS query and the channel in `process_command` are not modelled. The world is a list of players and the reply an optional player.
- UI rendering and logging are not modelled, apart from the tutorial's progress heading (`TutorialOverlay.Heading`).
- Knowledge.ChunkText: a zero chunk size returns no chunks instead of looping forever (see Findings). `Knowledge.LoopAsWritten` models the loop as written, with an iteration bound `fuel`, since it does not terminate.
- Knowledge.LoopAsWritten: its contract only bounds the chunks pushed per iteration. Its behaviour is stated by `Knowledge.ChunkSizeZeroNeverEnds`.
- GemmaServer.GenerateWithConfig: requires `maxTokens <= maxContextLength`. The source subtracts these in `usize`, which underflows otherwise.
- TutorialOverlay.NextButtonLabel: states only which two labels can appear. The link to the last step is stated by `TutorialOverlay.LabelMatchesClosing`.
- ModelManager.ListAvailableModels: states only the catalogue size. Aliases and sizes are stated by `ModelManager.RecommendationsResolve`.
- The engine follows the code as written: `SocraticEngine.Answer` selects with `Prompts.SelectStrategyAsWritten`, so it inherits the "now i see" finding below. `Prompts.SelectStrategy` is the corrected selector, and `Prompts.SelectAsWrittenDiffers` states where the two disagree.
- The source and its design notes disagree in two places, and the model follows the code. `get_recent` propagates a store-load error with `?`. `respond` propagates a failed write of the guide's turn.

## Findings

| source | as written | input that shows it | evidently intended | confidence | as-written member | corrected member |
|---|---|---|---|---|---|---|
| backend/src/domain/railway.rs:53 | `current_load + word.weight` is a `u8` sum, which a release build wraps modulo 256 | load 200, capacity 250, weight 100: the sum wraps to 44, the word is accepted, and the load becomes 44 while 300 units are carried | refuse cargo whenever the true sum exceeds the capacity | not executed | Railway.OverflowAcceptsOverload | Railway.AddCargoValid |
| backend/src/ai/prompts/mod.rs:21-24 | the phrase "now I see" holds a capital I but is searched for in lowercased input | "now i see" is answered with Scaffolding, not Affirming | the phrase written in lowercase, so that it can match | not executed | PromptExamples.NowISeeAsWrittenMissed | PromptExamples.NowISeeCorrectedFound |
| backend/src/handlers/knowledge.rs:90-101 | with `chunk_size` 0 the index advances by 0 | any non-empty text with chunk size 0: the loop never ends and pushes empty chunks without bound | a zero chunk size refused or given no chunks | not executed | Knowledge.ChunkSizeZeroNeverEnds | Knowledge.ChunkText |

=== FILE: conversation_memory.dfy ===
/** Conversation memory: per-session lists of dialogue turns in a bounded
    least-recently-used cache, in front of a durable store.

    The durable store is an oracle: `load` and `persist` give the answers the
    store would give (the shipped store is a stub that loads nothing and
    accepts every write, `StubStore`). UUIDs are naturals with 0 as the nil
    UUID; newId UUIDs and timestamps are parameters. */
module ConversationMemory {
  import opened Wrappers
  import Text
  import Seqs
  import LruCache

  type Uuid = nat
  const NilUuid: Uuid := 0

  datatype Speaker = User | AI

  /** `sentiment` and `virtueSignals` are placeholders the source never
      fills in; `depthLevel` is a 1-5 scale once computed. */
  datatype TurnMetadata = TurnMetadata(
    wordCount: nat,
    sentiment: real,
    depthLevel: nat,
    virtueSignals: seq<string>)

  datatype Turn = Turn(
    id: Uuid,
    timestamp: nat,
    speaker: Speaker,
    content: string,
    metadata: TurnMetadata)

  /** `TurnMetadata::default()`. */
  const DefaultMetadata := TurnMetadata(0, 0.0, 0, [])

  /** Longer answers count as deeper reflection: 0-10 words is level 1,
      11-30 level 2, 31-60 level 3, 61-100 level 4, more is level 5. */
  function DepthLevel(wordCount: nat): (d: nat)
    ensures 1 <= d <= 5
  {
    if wordCount <= 10 then 1
    else if wordCount <= 30 then 2
    else if wordCount <= 60 then 3
    else if wordCount <= 100 then 4
    else 5
  }

  /** More words never mean a shallower level. */
  lemma DepthLevelMonotone(a: nat, b: nat)
    requires a <= b
    ensures DepthLevel(a) <= DepthLevel(b)
  {
  }

  /** `TurnMetadata::from_content`. */
  function FromContent(content: string): (m: TurnMetadata)
    ensures m.wordCount == |Text.Words(content)|
    ensures 1 <= m.depthLevel <= 5
    ensures m.depthLevel == DepthLevel(m.wordCount)
    ensures m.sentiment == 0.0 && m.virtueSignals == []
  {
    var n := Text.WordCount(content);
    TurnMetadata(n, 0.0, DepthLevel(n), [])
  }

  /** The durable store's answers: `load(session, limit)` and
      `persist(session, turn)`. */
  datatype Store = Store(
    load: (Uuid, nat) -> Result<seq<Turn>>,
    persist: (Uuid, Turn) -> Outcome)

  /** The store as shipped: loading yields no turns and every write passes. */
  const StubStore := Store((session, limit) => Ok([]), (session, turn) => Pass)

  datatype Memory = Memory(cache: LruCache.Cache<Uuid, seq<Turn>>)

  ghost predicate Valid(m: Memory) {
    LruCache.Valid(m.cache)
  }

  /** `ConversationMemory::new`: a zero capacity falls back to 100. */
  function New(cacheSize: nat): (m: Memory)
    ensures Valid(m)
    ensures m.cache.capacity == if cacheSize == 0 then 100 else cacheSize
    ensures m.cache.entries == map[]
  {
    Memory(LruCache.Empty(if cacheSize == 0 then 100 else cacheSize))
  }

  /** The cache never holds more sessions than its capacity. */
  lemma CacheBounded(m: Memory)
    requires Valid(m)
    ensures |m.cache.entries| <= m.cache.capacity
  {
    LruCache.SizeBound(m.cache);
  }

  /** The turns cached for a session; none when it is not cached. */
  function Cached(m: Memory, session: Uuid): seq<Turn> {
    if session in m.cache.entries then m.cache.entries[session] else []
  }

  /** The turn `add_turn` stores: a nil id is replaced by `newId`, and the
      metadata is computed from the content only when its word count is 0. */
  function PrepareTurn(turn: Turn, newId: Uuid): (t: Turn)
    requires newId != NilUuid
    ensures t.id != NilUuid
    ensures turn.id != NilUuid ==> t.id == turn.id
    ensures turn.id == NilUuid ==> t.id == newId
    ensures turn.metadata.wordCount != 0 ==> t.metadata == turn.metadata
    ensures turn.metadata.wordCount == 0 ==> t.metadata == FromContent(turn.content)
    ensures t.timestamp == turn.timestamp && t.speaker == turn.speaker && t.content == turn.content
  {
    var withId := if turn.id == NilUuid then turn.(id := newId) else turn;
    if withId.metadata.wordCount == 0 then withId.(metadata := FromContent(withId.content))
    else withId
  }

  /** `add_turn`: append the prepared turn to the session's cached list (an
      empty list when the session is not cached), then persist it. A failed
      write is returned, but the cache append stays. */
  function AddTurn(m: Memory, store: Store, session: Uuid, turn: Turn, newId: Uuid): (r: (Memory, Outcome))
    requires Valid(m)
    requires newId != NilUuid
    ensures Valid(r.0)
    ensures r.0.cache.capacity == m.cache.capacity
    ensures session in r.0.cache.entries
    ensures r.0.cache.entries[session] == Cached(m, session) + [PrepareTurn(turn, newId)]
    ensures r.0.cache.order[|r.0.cache.order| - 1] == session
    ensures r.1 == store.persist(session, PrepareTurn(turn, newId))
    ensures forall s :: s in r.0.cache.entries && s != session ==>
              s in m.cache.entries && r.0.cache.entries[s] == m.cache.entries[s]
    ensures forall s :: s in m.cache.entries && s !in r.0.cache.entries ==>
              session !in m.cache.entries && s == m.cache.order[0]
  {
    var t := PrepareTurn(turn, newId);
    var c1 := LruCache.GetOrInsert(m.cache, session, []);
    var c2 := LruCache.Update(c1, session, c1.entries[session] + [t]);
    (Memory(c2), store.persist(session, t))
  }

  /** `get_recent`: on a cache hit, the last `limit` cached turns in order
      (the session becomes most recent); on a miss, the store's answer,
      which is installed in the cache when it is not an error. */
  function GetRecent(m: Memory, store: Store, session: Uuid, limit: nat): (r: (Memory, Result<seq<Turn>>))
    requires Valid(m)
    ensures Valid(r.0)
    ensures r.0.cache.capacity == m.cache.capacity
    ensures session in m.cache.entries ==>
              && r.1 == Ok(Seqs.LastN(m.cache.entries[session], limit))
              && r.0.cache.entries == m.cache.entries
              && r.0.cache.order[|r.0.cache.order| - 1] == session
    ensures session !in m.cache.entries && store.load(session, limit).Err? ==>
              r.1 == store.load(session, limit) && r.0 == m
    ensures session !in m.cache.entries && store.load(session, limit).Ok? ==>
              && r.1 == store.load(session, limit)
              && session in r.0.cache.entries
              && r.0.cache.entries[session] == store.load(session, limit).value
              && r.0.cache.order[|r.0.cache.order| - 1] == session
              && (forall s :: s in r.0.cache.entries && s != session ==>
                    s in m.cache.entries && r.0.cache.entries[s] == m.cache.entries[s])
              && (forall s :: s in m.cache.entries && s !in r.0.cache.entries ==>
                    |m.cache.order| == m.cache.capacity && s == m.cache.order[0])
  {
    var (c1, hit) := LruCache.Get(m.cache, session);
    if hit then
      (Memory(c1), Ok(Seqs.LastN(m.cache.entries[session], limit)))
    else
      match store.load(session, limit)
      case Err(e) => (m, Err(e))
      case Ok(turns) => (Memory(LruCache.Put(m.cache, session, turns)), Ok(turns))
  }

  /** Reading right after writing is a cache hit: the store is not
      consulted, and the history ends with the turn just written. */
  lemma AddThenGetRecent(m: Memory, store: Store, session: Uuid, turn: Turn, newId: Uuid, limit: nat)
    requires Valid(m)
    requires newId != NilUuid
    ensures var (m1, _) := AddTurn(m, store, session, turn, newId);
      GetRecent(m1, store, session, limit).1
        == Ok(Seqs.LastN(Cached(m, session) + [PrepareTurn(turn, newId)], limit))
  {
  }

  /** One UUID per write, none of them nil: what `Uuid::new_v4` draws for
      each `add_turn` whose turn has the nil id. */
  predicate IdsFor(ids: seq<Uuid>, n: nat) {
    |ids| == n && forall i :: 0 <= i < |ids| ==> ids[i] != NilUuid
  }

  /** The ids left for the remaining writes after the first. */
  lemma IdsForTail(ids: seq<Uuid>, n: nat)
    requires IdsFor(ids, n) && n > 0
    ensures IdsFor(ids[1..], n - 1) && ids[0] != NilUuid
  {
    assert forall i :: 0 <= i < |ids[1..]| ==> ids[1..][i] == ids[i + 1];
  }

  /** The prepared form of each turn, in order, the i-th one drawing the
      i-th UUID. */
  function PrepareAll(turns: seq<Turn>, ids: seq<Uuid>): (r: seq<Turn>)
    requires IdsFor(ids, |turns|)
    ensures |r| == |turns|
    ensures forall i :: 0 <= i < |r| ==> r[i] == PrepareTurn(turns[i], ids[i])
  {
    if turns == [] then [] else [PrepareTurn(turns[0], ids[0])] + PrepareAll(turns[1..], ids[1..])
  }

  /** `add_turn` called once per turn, for one session, whatever each
      write's outcome (a failed write does not undo the cache append); the
      i-th call draws the i-th UUID. */
  function AddTurns(m: Memory, store: Store, session: Uuid, turns: seq<Turn>, ids: seq<Uuid>): (r: Memory)
    requires Valid(m)
    requires IdsFor(ids, |turns|)
    ensures Valid(r)
    decreases |turns|
  {
    if turns == [] then m
    else AddTurns(AddTurn(m, store, session, turns[0], ids[0]).0, store, session, turns[1..], ids[1..])
  }

  /** One step of the fold: the first turn is added, then the rest. */
  lemma AddTurnsStep(m: Memory, store: Store, session: Uuid, turns: seq<Turn>, ids: seq<Uuid>)
    requires Valid(m)
    requires IdsFor(ids, |turns|)
    requires turns != []
    ensures AddTurns(m, store, session, turns, ids)
              == AddTurns(AddTurn(m, store, session, turns[0], ids[0]).0, store, session, turns[1..], ids[1..])
  {
  }

  /** After N writes to a session, its cached list is the previous list
      followed by the N prepared turns in order. */
  lemma {:induction false} AddTurnsAppends(m: Memory, store: Store, session: Uuid, turns: seq<Turn>, ids: seq<Uuid>)
    requires Valid(m)
    requires IdsFor(ids, |turns|)
    ensures Cached(AddTurns(m, store, session, turns, ids), session)
              == Cached(m, session) + PrepareAll(turns, ids)
    decreases |turns|
  {
    if turns != [] {
      IdsForTail(ids, |turns|);
      var m1 := AddTurn(m, store, session, turns[0], ids[0]).0;
      AddTurnsStep(m, store, session, turns, ids);
      AddTurnsAppends(m1, store, session, turns[1..], ids[1..]);
      var before, t0, rest := Cached(m, session), PrepareTurn(turns[0], ids[0]), PrepareAll(turns[1..], ids[1..]);
      assert Cached(m1, session) == before + [t0];
      assert PrepareAll(turns, ids) == [t0] + rest;
      Seqs.AppendAssoc(before, [t0], rest);
    }
  }

  /** The session is cached and is the most recently used one. */
  predicate MostRecent(m: Memory, session: Uuid) {
    && session in m.cache.entries
    && |m.cache.order| > 0
    && m.cache.order[|m.cache.order| - 1] == session
  }

  /** One write leaves the session cached and most recent. */
  lemma AddTurnMostRecent(m: Memory, store: Store, session: Uuid, turn: Turn, newId: Uuid)
    requires Valid(m)
    requires newId != NilUuid
    ensures MostRecent(AddTurn(m, store, session, turn, newId).0, session)
  {
  }

  /** After at least one write the session is cached and most recent. */
  lemma {:induction false} AddTurnsRecent(m: Memory, store: Store, session: Uuid, turns: seq<Turn>, ids: seq<Uuid>)
    requires Valid(m)
    requires IdsFor(ids, |turns|)
    requires turns != []
    ensures MostRecent(AddTurns(m, store, session, turns, ids), session)
    decreases |turns|
  {
    IdsForTail(ids, |turns|);
    var m1 := AddTurn(m, store, session, turns[0], ids[0]).0;
    AddTurnMostRecent(m, store, session, turns[0], ids[0]);
    AddTurnsStep(m, store, session, turns, ids);
    if |turns| > 1 {
      AddTurnsRecent(m1, store, session, turns[1..], ids[1..]);
    } else {
      assert AddTurns(m1, store, session, turns[1..], ids[1..]) == m1;
    }
  }

  /** For a session new to the cache, reading `k` turns after N writes
      yields the last min(k, N) of them, oldest first. */
  lemma RecentAfterWrites(m: Memory, store: Store, session: Uuid, turns: seq<Turn>, ids: seq<Uuid>, k: nat)
    requires Valid(m)
    requires IdsFor(ids, |turns|)
    requires turns != []
    requires session !in m.cache.entries
    ensures var r := GetRecent(AddTurns(m, store, session, turns, ids), store, session, k).1;
      && r.Ok?
      && |r.value| == (if k < |turns| then k else |turns|)
      && r.value == PrepareAll(turns, ids)[|turns| - |r.value|..]
  {
    var r := AddTurns(m, store, session, turns, ids);
    var all := PrepareAll(turns, ids);
    AddTurnsAppends(m, store, session, turns, ids);
    AddTurnsRecent(m, store, session, turns, ids);
    assert Cached(m, session) == [];
    assert r.cache.entries[session] == all by {
      assert Cached(r, session) == [] + all;
    }
    assert GetRecent(r, store, session, k).1 == Ok(Seqs.LastN(all, k));
  }
}

=== FILE: fence.dfy ===
/** Cleaning a language model's JSON answer before parsing it: the answer
    may come wrapped in a Markdown code fence, which is cut away. */
module Fence {
  import Text

  const JsonFence: string := "```json"
  const PlainFence: string := "```"

  /** The cleaning in `process_word`: trim, drop every leading "```json",
      then every leading "```", then every trailing "```", and trim again. */
  function CleanJson(response: string): (r: string)
    ensures Text.IsTrimmed(r)
  {
    var t := Text.Trim(response);
    var a := Text.TrimStartMatches(t, JsonFence);
    var b := Text.TrimStartMatches(a, PlainFence);
    var c := Text.TrimEndMatches(b, PlainFence);
    Text.Trim(c)
  }

  /** Text that begins with "```json" begins with "```". */
  lemma JsonFenceIsFence(s: string)
    requires Text.StartsWith(s, JsonFence)
    ensures Text.StartsWith(s, PlainFence)
  {
    assert s[..3] == s[..7][..3];
  }

  /** Trimmed text with no fence at either end passes through unchanged. */
  lemma CleanUnfenced(s: string)
    requires Text.IsTrimmed(s)
    requires !Text.StartsWith(s, PlainFence) && !Text.EndsWith(s, PlainFence)
    ensures CleanJson(s) == s
  {
    Text.TrimTrimmed(s);
    if Text.StartsWith(s, JsonFence) {
      JsonFenceIsFence(s);
    }
  }

  /** The body between its two line breaks. */
  function Opened(body: string): string {
    "\n" + body + "\n"
  }

  function Fenced(body: string): string {
    JsonFence + Opened(body) + PlainFence
  }

  lemma FencedIsTrimmed(body: string)
    ensures Text.Trim(Fenced(body)) == Fenced(body)
  {
    var s := Fenced(body);
    assert s[0] == '`' && s[|s| - 1] == '`';
    Text.TrimTrimmed(s);
  }

  lemma StripOpening(body: string)
    ensures Text.TrimStartMatches(Text.TrimStartMatches(Fenced(body), JsonFence), PlainFence)
         == Opened(body) + PlainFence
  {
    var inner := Opened(body) + PlainFence;
    assert Fenced(body) == JsonFence + inner;
    assert Fenced(body)[|JsonFence|..] == inner;
    assert Text.StartsWith(Fenced(body), JsonFence);
    assert inner[0] == '\n';
    assert !Text.StartsWith(inner, JsonFence) by {
      assert JsonFence[0] == '`';
    }
    assert !Text.StartsWith(inner, PlainFence) by {
      assert PlainFence[0] == '`';
    }
  }

  lemma StripClosing(body: string)
    ensures Text.TrimEndMatches(Opened(body) + PlainFence, PlainFence) == Opened(body)
  {
    var inner := Opened(body) + PlainFence;
    assert inner[..|inner| - 3] == Opened(body);
    assert Opened(body)[|Opened(body)| - 1] == '\n';
  }

  /** A fenced JSON block, "```json", a line break, the body, a line break
      and "```", cleans to the body, for any trimmed body. */
  lemma CleanFencedBlock(body: string)
    requires Text.IsTrimmed(body)
    ensures CleanJson(JsonFence + "\n" + body + "\n" + PlainFence) == body
  {
    Regroup(JsonFence, "\n", body, "\n", PlainFence);
    assert Opened(body) == "\n" + body + "\n";
    CleanFenced(body);
  }

  /** The block read piece by piece is the fence around the opened body. */
  lemma Regroup(a: string, b: string, c: string, d: string, e: string)
    ensures a + b + c + d + e == a + (b + c + d) + e
  {
  }

  lemma CleanFenced(body: string)
    requires Text.IsTrimmed(body)
    ensures CleanJson(Fenced(body)) == body
  {
    FencedIsTrimmed(body);
    StripOpening(body);
    StripClosing(body);
    assert Text.AllSpace("\n");
    Text.TrimPadded("\n", body, "\n");
  }
}

=== FILE: game_logic.dfy ===
/** The quest-step transition of the game world: a command either sets a
    player's archetype and stats, or moves the player along the current
    quest when the typed input matches an eligible choice of the current
    step. The command channel and the entity query become a list of
    players and a reply. */
module GameLogic {
  import opened Wrappers
  import Text

  /** `Choice`: a command the player may type, where it leads, and the
      archetype it is reserved for, if any. */
  datatype Choice = Choice(text: string, command: string, nextStep: string, requiredArchetypeId: Option<int>)

  /** `QuestStep`, with the fields the transition reads. */
  datatype QuestStep = QuestStep(description: string, choices: seq<Choice>)

  /** `Quest`, with its title and steps by id. */
  datatype Quest = Quest(title: string, steps: map<string, QuestStep>)

  /** The game data: quests by id. */
  datatype GameData = GameData(quests: map<string, Quest>)

  /** `PlayerCharacter`, with the fields the game state consists of. */
  datatype Player = Player(
    id: string,
    name: string,
    inventory: seq<string>,
    questFlags: map<string, bool>,
    currentLocation: string,
    currentQuestId: Option<string>,
    currentStepId: Option<string>,
    currentQuestTitle: string,
    currentStepDescription: string,
    fatePoints: int,
    primaryArchetypeId: Option<int>,
    stats: map<string, int>)

  /** `Command`. */
  datatype Command =
    | SetArchetype(archetypeId: int, newStats: map<string, int>)
    | ProcessPlayerInput(input: string)

  /** The typed input as it is compared with a choice's command. */
  function Normalise(input: string): (r: string)
    ensures Text.NoUpper(r)
    ensures |r| == |Text.Trim(input)|
  {
    Text.ToLowerNoUpper(Text.Trim(input));
    Text.ToLower(Text.Trim(input))
  }

  /** A choice answers the command when their texts match and the choice is
      open to everyone or to the player's archetype. */
  predicate Eligible(c: Choice, command: string, archetype: Option<int>) {
    c.command == command && (c.requiredArchetypeId.None? || c.requiredArchetypeId == archetype)
  }

  /** The position of the first eligible choice, as `iter().find` gives it. */
  function FirstEligible(choices: seq<Choice>, command: string, archetype: Option<int>): (r: Option<nat>)
    ensures r.Some? ==> r.value < |choices| && Eligible(choices[r.value], command, archetype)
    ensures r.Some? ==> forall j :: 0 <= j < r.value ==> !Eligible(choices[j], command, archetype)
    ensures r.None? <==> forall j :: 0 <= j < |choices| ==> !Eligible(choices[j], command, archetype)
  {
    if choices == [] then None
    else if Eligible(choices[0], command, archetype) then Some(0)
    else
      match FirstEligible(choices[1..], command, archetype)
      case None => None
      case Some(k) => Some(k + 1)
  }

  /** The player stands on a step that exists in the game data. */
  predicate OnKnownStep(data: GameData, p: Player) {
    && p.currentQuestId.Some? && p.currentStepId.Some?
    && p.currentQuestId.value in data.quests
    && p.currentStepId.value in data.quests[p.currentQuestId.value].steps
  }

  /** Everything but the step id and its description is as in `p`. */
  predicate SamePlayerElsewhere(p: Player, r: Player) {
    r.(currentStepId := p.currentStepId, currentStepDescription := p.currentStepDescription) == p
  }

  /** `SetArchetype`: the archetype and the stats are replaced. */
  function SetArchetypeOf(p: Player, archetypeId: int, newStats: map<string, int>): (r: Player)
    ensures r.primaryArchetypeId == Some(archetypeId) && r.stats == newStats
    ensures r.(primaryArchetypeId := p.primaryArchetypeId, stats := p.stats) == p
  {
    p.(primaryArchetypeId := Some(archetypeId), stats := newStats)
  }

  /** The move a normalised command makes: on a known step, the first
      choice eligible for the command leads to its next step, provided that
      step exists in the quest; in every other case nothing changes. */
  function Advance(data: GameData, p: Player, command: string): (r: Player)
    ensures SamePlayerElsewhere(p, r)
    ensures r != p ==> OnKnownStep(data, p) && OnKnownStep(data, r)
    ensures r != p ==> r.currentStepDescription
                       == data.quests[p.currentQuestId.value].steps[r.currentStepId.value].description
  {
    if !OnKnownStep(data, p) then p
    else
      var quest := data.quests[p.currentQuestId.value];
      var step := quest.steps[p.currentStepId.value];
      match FirstEligible(step.choices, command, p.primaryArchetypeId)
      case None => p
      case Some(i) =>
        var next := step.choices[i].nextStep;
        if next in quest.steps then
          p.(currentStepId := Some(next), currentStepDescription := quest.steps[next].description)
        else p
  }

  /** `ProcessPlayerInput`: the typed input, trimmed and lowercased, moves
      the player as `Advance` says. Only the step id and its description can
      change, and only from one known step of the quest to another. */
  function ProcessInput(data: GameData, p: Player, input: string): (r: Player)
    ensures SamePlayerElsewhere(p, r)
    ensures r != p ==> OnKnownStep(data, p) && OnKnownStep(data, r)
    ensures r != p ==> r.currentStepDescription
                       == data.quests[p.currentQuestId.value].steps[r.currentStepId.value].description
  {
    Advance(data, p, Normalise(input))
  }

  /** The choices of the player's current step. */
  function CurrentChoices(data: GameData, p: Player): seq<Choice>
    requires OnKnownStep(data, p)
  {
    data.quests[p.currentQuestId.value].steps[p.currentStepId.value].choices
  }

  /** When the first choice eligible for the command leads to an existing
      step, the player moves there and takes its description. */
  lemma AdvanceOnFirstEligible(data: GameData, p: Player, command: string, i: nat)
    requires OnKnownStep(data, p)
    requires i < |CurrentChoices(data, p)|
    requires Eligible(CurrentChoices(data, p)[i], command, p.primaryArchetypeId)
    requires forall j :: 0 <= j < i ==> !Eligible(CurrentChoices(data, p)[j], command, p.primaryArchetypeId)
    requires CurrentChoices(data, p)[i].nextStep in data.quests[p.currentQuestId.value].steps
    ensures var r := Advance(data, p, command);
      && r.currentStepId == Some(CurrentChoices(data, p)[i].nextStep)
      && r.currentStepDescription
         == data.quests[p.currentQuestId.value].steps[CurrentChoices(data, p)[i].nextStep].description
  {
    var r := FirstEligible(CurrentChoices(data, p), command, p.primaryArchetypeId);
    assert r.Some?;
    assert r.value == i by {
      if r.value < i {
      } else if r.value > i {
      }
    }
  }

  /** Without an eligible choice the player stays where they are. */
  lemma NoEligibleChoiceNoChange(data: GameData, p: Player, command: string)
    requires OnKnownStep(data, p)
    requires forall j :: 0 <= j < |CurrentChoices(data, p)| ==>
               !Eligible(CurrentChoices(data, p)[j], command, p.primaryArchetypeId)
    ensures Advance(data, p, command) == p
  {
    var found := FirstEligible(CurrentChoices(data, p), command, p.primaryArchetypeId);
    assert found.None?;
  }

  /** Whatever the player types, a player on a known step stays on one. */
  lemma InputKeepsKnownStep(data: GameData, p: Player, input: string)
    requires OnKnownStep(data, p)
    ensures OnKnownStep(data, ProcessInput(data, p, input))
  {
  }

  /** Typing a choice's command, in any surrounding whitespace, selects it
      when the command is trimmed lowercase text; a command holding a
      capital letter never matches any input. */
  lemma CommandMatching(c: Choice, before: string, after: string, input: string)
    requires Text.AllSpace(before) && Text.AllSpace(after)
    ensures Text.IsTrimmed(c.command) && Text.NoUpper(c.command) ==>
              Normalise(before + c.command + after) == c.command
    ensures !Text.NoUpper(c.command) ==> Normalise(input) != c.command
  {
    if Text.IsTrimmed(c.command) && Text.NoUpper(c.command) {
      Text.TrimPadded(before, c.command, after);
      Text.ToLowerNoUpper(c.command);
    }
  }

  /** The archetype set by `SetArchetype` opens the choices reserved for it
      and closes those reserved for another archetype. */
  lemma ArchetypeGatesChoices(p: Player, archetypeId: int, newStats: map<string, int>, c: Choice, command: string)
    requires c.command == command && c.requiredArchetypeId.Some?
    ensures var r := SetArchetypeOf(p, archetypeId, newStats);
      Eligible(c, command, r.primaryArchetypeId) <==> c.requiredArchetypeId.value == archetypeId
  {
  }

  /** One command applied to one player. */
  function Apply(data: GameData, p: Player, c: Command): Player {
    match c
    case SetArchetype(a, stats) => SetArchetypeOf(p, a, stats)
    case ProcessPlayerInput(input) => ProcessInput(data, p, input)
  }

  /** `process_command` for one received command: every player of the world
      is updated, and the reply is the last updated player, if any. */
  function ProcessCommand(data: GameData, world: seq<Player>, c: Command): (r: (seq<Player>, Option<Player>))
    ensures |r.0| == |world|
    ensures forall i :: 0 <= i < |world| ==> r.0[i] == Apply(data, world[i], c)
    ensures r.1.None? <==> world == []
    ensures r.1.Some? ==> r.1.value == r.0[|world| - 1]
  {
    var updated := seq(|world|, i requires 0 <= i < |world| => Apply(data, world[i], c));
    (updated, if world == [] then None else Some(updated[|world| - 1]))
  }

  /** Commands never move a player off a known step, and only
      `SetArchetype` touches archetype and stats: a world whose players all
      stand on known steps keeps them there, with quest, inventory, flags
      and fate points unchanged. */
  lemma ProcessCommandKeepsWorld(data: GameData, world: seq<Player>, c: Command)
    requires forall i :: 0 <= i < |world| ==> OnKnownStep(data, world[i])
    ensures var w := ProcessCommand(data, world, c).0;
      forall i :: 0 <= i < |world| ==>
        && OnKnownStep(data, w[i])
        && w[i].currentQuestId == world[i].currentQuestId
        && w[i].inventory == world[i].inventory
        && w[i].questFlags == world[i].questFlags
        && w[i].fatePoints == world[i].fatePoints
        && (c.ProcessPlayerInput? ==> w[i].primaryArchetypeId == world[i].primaryArchetypeId
                                      && w[i].stats == world[i].stats)
  {
    var w := ProcessCommand(data, world, c).0;
    forall i | 0 <= i < |world|
      ensures OnKnownStep(data, w[i])
    {
      if c.ProcessPlayerInput? {
        InputKeepsKnownStep(data, world[i], c.input);
      }
    }
  }
}

=== FILE: gemma_server.dfy ===
/** The server-side large-model engine, without the model: the supported
    context lengths, the context-window check and the token loop of
    generation, and the packing of retrieved sources into a synthesis
    prompt.

    The tokenizer and the forward pass are parameters: `count` gives the
    number of tokens of a text, and `next` gives the token the model picks
    after a sequence of tokens. Loading the model, sampling temperature and
    decoding are not modelled. */
module GemmaServer {
  import opened Wrappers
  import Text
  import Seqs

  /** The three context lengths the server supports. */
  predicate Supported(n: nat) {
    n == 8192 || n == 32768 || n == 131072
  }

  /** The validated length of `with_context_length`: up to 8192 becomes
      8192, up to 32768 becomes 32768, anything larger 131072. */
  function RoundContextLength(n: nat): (v: nat)
    ensures Supported(v)
    ensures n <= 131072 ==> n <= v
    ensures v == n <==> Supported(n)
    ensures n <= 8192 <==> v == 8192
    ensures 131072 < n ==> v == 131072
  {
    if n <= 8192 then 8192 else if n <= 32768 then 32768 else 131072
  }

  /** Rounding a supported length keeps it, so rounding twice is rounding
      once; and a larger request never gets a smaller window. */
  lemma RoundingStable(n: nat, m: nat)
    ensures RoundContextLength(RoundContextLength(n)) == RoundContextLength(n)
    ensures n <= m ==> RoundContextLength(n) <= RoundContextLength(m)
  {
  }

  /** `Gemma27BServer` without its model, tokenizer, device and path. */
  datatype Server = Server(maxContextLength: nat)

  predicate Valid(s: Server) {
    Supported(s.maxContextLength)
  }

  /** `with_context_length`. */
  function WithContextLength(n: nat): (s: Server)
    ensures Valid(s)
    ensures s.maxContextLength == RoundContextLength(n)
  {
    Server(RoundContextLength(n))
  }

  /** `new`: the default 8K window. */
  function New(): (s: Server)
    ensures Valid(s) && s.maxContextLength == 8192
  {
    WithContextLength(8192)
  }

  /** Gemma's end-of-sequence tokens. */
  predicate IsEos(t: nat) {
    t == 1 || t == 107
  }

  /** The tokens generated after `context` with at most `budget` steps: each
      step appends the model's next token, and an end-of-sequence token ends
      the loop after being appended. */
  function Generation(context: seq<nat>, budget: nat, next: seq<nat> -> nat): (g: seq<nat>)
    ensures |g| <= budget
    ensures forall k :: 0 <= k < |g| ==> g[k] == next(context + g[..k])
    ensures forall k :: 0 <= k < |g| - 1 ==> !IsEos(g[k])
    ensures |g| < budget ==> g != [] && IsEos(g[|g| - 1])
    decreases budget
  {
    if budget == 0 then []
    else
      var t := next(context);
      if IsEos(t) then
        assert context + [t][..0] == context;
        [t]
      else
        var rest := Generation(context + [t], budget - 1, next);
        var g := [t] + rest;
        assert context + g[..0] == context;
        forall k | 1 <= k < |g|
          ensures g[k] == next(context + g[..k])
        {
          assert context + g[..k] == (context + [t]) + rest[..k - 1];
        }
        assert forall k :: 1 <= k < |g| ==> g[k] == rest[k - 1];
        assert |g| < budget ==> g[|g| - 1] == rest[|rest| - 1];
        g
  }

  /** One turn of the generation loop keeps the tokens generated so far,
      followed by what the rest of the loop generates, equal to the whole
      generation; an end-of-sequence token completes it. */
  lemma GenerationStep(prompt: seq<nat>, maxTokens: nat, next: seq<nat> -> nat,
                       generated: seq<nat>, all: seq<nat>, n: nat)
    requires n < maxTokens
    requires generated + Generation(all, maxTokens - n, next) == Generation(prompt, maxTokens, next)
    ensures IsEos(next(all)) ==> generated + [next(all)] == Generation(prompt, maxTokens, next)
    ensures !IsEos(next(all)) ==>
              (generated + [next(all)]) + Generation(all + [next(all)], maxTokens - (n + 1), next)
              == Generation(prompt, maxTokens, next)
  {
    var t := next(all);
    if !IsEos(t) {
      var rest := Generation(all + [t], maxTokens - (n + 1), next);
      assert Generation(all, maxTokens - n, next) == [t] + rest;
      Seqs.AppendAssoc(generated, [t], rest);
    }
  }

  /** The generation loop of `generate_with_config`, token by token. */
  method GenerateTokens(prompt: seq<nat>, maxTokens: nat, next: seq<nat> -> nat)
    returns (generated: seq<nat>)
    ensures generated == Generation(prompt, maxTokens, next)
  {
    var all := prompt;
    generated := [];
    var n := 0;
    while n < maxTokens
      invariant n <= maxTokens
      invariant generated + Generation(all, maxTokens - n, next) == Generation(prompt, maxTokens, next)
    {
      var t := next(all);
      GenerationStep(prompt, maxTokens, next, generated, all, n);
      all := all + [t];
      generated := generated + [t];
      n := n + 1;
      if IsEos(t) {
        break;
      }
    }
  }

  /** The error for a prompt that leaves too little room. */
  function PromptTooLong(tokens: nat, room: nat, maxTokens: nat): string {
    "Prompt too long: " + Text.NatToString(tokens) + " tokens (max: " + Text.NatToString(room)
    + " with " + Text.NatToString(maxTokens) + " generation headroom)"
  }

  /** `generate_with_config` on the encoded prompt, returning the generated
      tokens: a prompt longer than the window minus the generation headroom
      is refused. The source subtracts the headroom from the window in
      `usize`, so it demands `maxTokens <= maxContextLength`. */
  function GenerateWithConfig(s: Server, prompt: seq<nat>, maxTokens: nat, next: seq<nat> -> nat)
    : (r: Result<seq<nat>>)
    requires maxTokens <= s.maxContextLength
    ensures r.Err? <==> |prompt| > s.maxContextLength - maxTokens
    ensures r.Err? ==> r.error == PromptTooLong(|prompt|, s.maxContextLength - maxTokens, maxTokens)
    ensures r.Ok? ==> |r.value| <= maxTokens && |prompt| + |r.value| <= s.maxContextLength
    ensures r.Ok? ==> forall k :: 0 <= k < |r.value| ==> r.value[k] == next(prompt + r.value[..k])
    ensures r.Ok? ==> forall k :: 0 <= k < |r.value| - 1 ==> !IsEos(r.value[k])
    ensures r.Ok? && |r.value| < maxTokens ==> r.value != [] && IsEos(r.value[|r.value| - 1])
  {
    var room := s.maxContextLength - maxTokens;
    if |prompt| > room then Err(PromptTooLong(|prompt|, room, maxTokens))
    else Ok(Generation(prompt, maxTokens, next))
  }

  /** A retrieved source: its text and relevance score. */
  datatype Source = Source(text: string, score: real)

  /** One entry of the synthesis context, `[Source number] (relevance: …)`
      followed by the text. The two-decimal rendering of the score is not
      modelled. */
  datatype Part = Part(number: nat, text: string, score: real)

  /** The context parts and the running token total. */
  datatype Packing = Packing(parts: seq<Part>, total: nat)

  /** Tokens of the sources' texts. */
  function SumTokens(count: string -> nat, sources: seq<Source>): nat {
    if sources == [] then 0 else count(sources[0].text) + SumTokens(count, sources[1..])
  }

  lemma {:induction false} SumAppend(count: string -> nat, a: seq<Source>, b: seq<Source>)
    ensures SumTokens(count, a + b) == SumTokens(count, a) + SumTokens(count, b)
  {
    if a == [] {
      assert a + b == b;
    } else {
      assert (a + b)[1..] == a[1..] + b;
      SumAppend(count, a[1..], b);
    }
  }

  /** A longer prefix of the sources has at least as many tokens. */
  lemma SumPrefixMonotone(count: string -> nat, sources: seq<Source>, n: nat, m: nat)
    requires n <= m <= |sources|
    ensures SumTokens(count, sources[..n]) <= SumTokens(count, sources[..m])
  {
    assert sources[..m] == sources[..n] + sources[n..m];
    SumAppend(count, sources[..n], sources[n..m]);
  }

  /** The packing loop from source `i` on, with `total` tokens so far: a
      source is added, labelled with its position counted from one, while
      it fits within `budget`; the first that does not fit ends the loop. */
  function PackFrom(sources: seq<Source>, limit: nat, count: string -> nat, budget: nat, i: nat, total: nat)
    : (p: Packing)
    requires i <= limit <= |sources|
    ensures i + |p.parts| <= limit
    ensures forall k :: 0 <= k < |p.parts| ==>
              p.parts[k] == Part(i + k + 1, sources[i + k].text, sources[i + k].score)
    ensures p.total == total + SumTokens(count, sources[i..i + |p.parts|])
    ensures total <= budget ==> p.total <= budget
    ensures i + |p.parts| < limit ==> p.total + count(sources[i + |p.parts|].text) > budget
    decreases limit - i
  {
    if i == limit then Packing([], total)
    else
      var t := count(sources[i].text);
      if total + t > budget then Packing([], total)
      else
        var rest := PackFrom(sources, limit, count, budget, i + 1, total + t);
        var n := |rest.parts| + 1;
        assert sources[i..i + n][1..] == sources[i + 1..i + 1 + |rest.parts|];
        Packing([Part(i + 1, sources[i].text, sources[i].score)] + rest.parts, rest.total)
  }

  /** The source-packing of `synthesize_from_rag`: the running total starts
      at the query's tokens plus 200 for the system prompt, the budget keeps
      1000 tokens for the answer, and only the first `maxSources` sources
      are considered. */
  function PackSources(s: Server, queryTokens: nat, sources: seq<Source>, maxSources: nat, count: string -> nat)
    : (p: Packing)
    requires Valid(s)
    ensures |p.parts| <= maxSources && |p.parts| <= |sources|
    ensures forall k :: 0 <= k < |p.parts| ==>
              p.parts[k] == Part(k + 1, sources[k].text, sources[k].score)
    ensures p.total == queryTokens + 200 + SumTokens(count, sources[..|p.parts|])
    ensures queryTokens + 200 <= s.maxContextLength - 1000 ==> p.total <= s.maxContextLength - 1000
  {
    var limit := if maxSources < |sources| then maxSources else |sources|;
    PackFrom(sources, limit, count, s.maxContextLength - 1000, 0, queryTokens + 200)
  }

  /** The packed sources are the longest prefix of the considered sources
      whose tokens, with the query's, fit the budget: when the query alone
      fits, every prefix up to the packed one fits and every longer one
      does not. */
  lemma PackingIsLongestFittingPrefix(s: Server, queryTokens: nat, sources: seq<Source>, maxSources: nat,
                                      count: string -> nat, n: nat)
    requires Valid(s)
    requires n <= maxSources && n <= |sources|
    ensures var p := PackSources(s, queryTokens, sources, maxSources, count);
      var start := queryTokens + 200;
      var budget := s.maxContextLength - 1000;
      && (start <= budget && n <= |p.parts| ==> start + SumTokens(count, sources[..n]) <= budget)
      && (n > |p.parts| ==> start + SumTokens(count, sources[..n]) > budget)
  {
    var p := PackSources(s, queryTokens, sources, maxSources, count);
    var m := |p.parts|;
    if n <= m {
      SumPrefixMonotone(count, sources, n, m);
    } else {
      SumPrefixMonotone(count, sources, m + 1, n);
      assert sources[..m + 1] == sources[..m] + [sources[m]];
      SumAppend(count, sources[..m], [sources[m]]);
      assert SumTokens(count, [sources[m]]) == count(sources[m].text) by {
        assert [sources[m]][1..] == [];
      }
    }
  }
}

=== FILE: knowledge.dfy ===
/** Sliding-window text chunking for the knowledge base: the text is split
    into whitespace-separated words, and windows of `chunkSize` words are cut
    every `Step` words, so that consecutive windows share `overlap` words. */
module Knowledge {
  import Text
  import Seqs

  /** How far the window moves: `chunkSize - overlap` when that is positive,
      otherwise a whole window. */
  function Step(chunkSize: nat, overlap: nat): (s: nat)
    ensures s <= chunkSize
    ensures s == 0 <==> chunkSize == 0
    ensures chunkSize > overlap ==> s + overlap == chunkSize
  {
    if chunkSize > overlap then chunkSize - overlap else chunkSize
  }

  /** The words `[start, min(start + size, |ws|))`. */
  function Window(ws: seq<string>, start: nat, size: nat): seq<string>
    requires start <= |ws|
  {
    if start + size <= |ws| then ws[start..start + size] else ws[start..]
  }

  /** A window holds `size` words from its start, or the words left when
      fewer remain, in the order of the text. */
  lemma WindowSlice(ws: seq<string>, start: nat, size: nat)
    requires start <= |ws|
    ensures var w := Window(ws, start, size);
      && |w| == (if start + size <= |ws| then size else |ws| - start)
      && forall i :: 0 <= i < |w| ==> w[i] == ws[start + i]
  {
  }

  /** One chunk: the window from word `start`, joined by single spaces. */
  function Chunk(ws: seq<string>, start: nat, size: nat): string
    requires start <= |ws|
  {
    Text.Join(Window(ws, start, size), " ")
  }

  /** The window starts `start, start + step, ...` below `n`: the values
      the loop index takes while it is below the word count. */
  function StartsFrom(n: nat, start: nat, step: nat): (st: seq<nat>)
    requires step > 0
    ensures forall i :: 0 <= i < |st| ==> st[i] < n
    decreases n - start
  {
    if start >= n then [] else [start] + StartsFrom(n, start + step, step)
  }

  /** The chunks cut from word `start` on, one per window start. */
  function ChunksFrom(ws: seq<string>, start: nat, size: nat, step: nat): seq<string>
    requires step > 0
  {
    var st := StartsFrom(|ws|, start, step);
    seq(|st|, i requires 0 <= i < |st| => Chunk(ws, st[i], size))
  }

  /** The chunks of a word list. A window of no words cannot hold a word, so
      a zero chunk size gives no chunks. */
  function Chunks(ws: seq<string>, chunkSize: nat, overlap: nat): seq<string> {
    if chunkSize == 0 then [] else ChunksFrom(ws, 0, chunkSize, Step(chunkSize, overlap))
  }

  lemma MulSucc(k: nat, step: nat)
    ensures (k + 1) * step == k * step + step
  {
  }

  /** The start of window `k`, `k * step`, as a natural number. */
  function StartOf(k: nat, step: nat): (start: nat)
    ensures start == k * step
  {
    k * step
  }

  lemma MulMonotone(a: nat, b: nat, c: nat)
    requires a <= b
    ensures a * c <= b * c
  {
  }

  /** The first chunk from `start`, then the chunks one step further. */
  lemma ChunksFromStep(ws: seq<string>, start: nat, size: nat, step: nat)
    requires step > 0
    requires start < |ws|
    ensures ChunksFrom(ws, start, size, step) == [Chunk(ws, start, size)] + ChunksFrom(ws, start + step, size, step)
  {
    var st, rest := StartsFrom(|ws|, start, step), StartsFrom(|ws|, start + step, step);
    assert st == [start] + rest;
    var a, b := ChunksFrom(ws, start, size, step), ChunksFrom(ws, start + step, size, step);
    forall i | 0 < i < |a|
      ensures a[i] == b[i - 1]
    {
      assert st[i] == rest[i - 1];
    }
  }

  /** Chunk `k` is the one whose window starts at word `start + k * step`. */
  lemma ChunksFromAt(ws: seq<string>, start: nat, size: nat, step: nat, k: nat)
    requires step > 0
    requires k < |ChunksFrom(ws, start, size, step)|
    ensures start + k * step < |ws|
    ensures ChunksFrom(ws, start, size, step)[k] == Chunk(ws, start + StartOf(k, step), size)
  {
    OffsetIsProduct(k, step);
    StartAt(|ws|, start, step, k);
  }

  /** `k` steps of `step` words, counted by repeated addition. */
  function Offset(k: nat, step: nat): nat {
    if k == 0 then 0 else Offset(k - 1, step) + step
  }

  lemma {:induction false} OffsetIsProduct(k: nat, step: nat)
    ensures Offset(k, step) == k * step
  {
    if k > 0 {
      OffsetIsProduct(k - 1, step);
      MulSucc(k - 1, step);
    }
  }

  /** Window start `k` is `k` steps past the first. */
  lemma {:induction false} StartAt(n: nat, start: nat, step: nat, k: nat)
    requires step > 0
    requires k < |StartsFrom(n, start, step)|
    ensures StartsFrom(n, start, step)[k] == start + Offset(k, step)
    decreases k
  {
    if k > 0 {
      StartAt(n, start + step, step, k - 1);
    }
  }

  /** There are just enough chunks for the window starts to pass the last
      word. */
  lemma ChunksFromCount(ws: seq<string>, start: nat, size: nat, step: nat)
    requires step > 0
    ensures |ws| <= start + |ChunksFrom(ws, start, size, step)| * step
  {
    StartsCount(|ws|, start, step);
  }

  /** There are just enough window starts to pass `n`. */
  lemma {:induction false} StartsCount(n: nat, start: nat, step: nat)
    requires step > 0
    ensures n <= start + |StartsFrom(n, start, step)| * step
    decreases n - start
  {
    if start < n {
      var rest := StartsFrom(n, start + step, step);
      StartsCount(n, start + step, step);
      MulSucc(|rest|, step);
    }
  }

  /** The closed form of the chunk list: chunk `k` holds the words
      `[k * step, min(k * step + chunkSize, n))` joined by single spaces, and
      the number of chunks is the least `c` with `c * step >= n`. */
  lemma ChunksShape(ws: seq<string>, chunkSize: nat, overlap: nat)
    requires chunkSize > 0
    ensures var cs, step := Chunks(ws, chunkSize, overlap), Step(chunkSize, overlap);
      && (ws == [] <==> cs == [])
      && (forall k :: 0 <= k < |cs| ==> k * step < |ws| && cs[k] == Chunk(ws, StartOf(k, step), chunkSize))
      && |ws| <= |cs| * step
  {
    var cs, step := Chunks(ws, chunkSize, overlap), Step(chunkSize, overlap);
    forall k | 0 <= k < |cs|
      ensures k * step < |ws| && cs[k] == Chunk(ws, StartOf(k, step), chunkSize)
    {
      ChunksFromAt(ws, 0, chunkSize, step, k);
    }
    ChunksFromCount(ws, 0, chunkSize, step);
  }

  /** The window start at or just below `j`: `j / step`, which is below `c`
      when `c` steps reach past `j`. */
  lemma CoveringStart(c: nat, step: nat, j: nat) returns (k: nat)
    requires step > 0
    requires j < c * step
    ensures k < c && k * step <= j < k * step + step
  {
    k := j / step;
    assert k * step + j % step == j;
    if k >= c {
      MulMonotone(c, k, step);
      assert false;
    }
  }

  /** The window starts cover every word: word `j` lies in chunk
      `j / step`, since a window is at least a step long. */
  lemma ChunksCoverEveryWord(ws: seq<string>, chunkSize: nat, overlap: nat, j: nat)
    requires chunkSize > 0
    requires j < |ws|
    ensures var cs, step := Chunks(ws, chunkSize, overlap), Step(chunkSize, overlap);
      exists k :: 0 <= k < |cs| && k * step <= j < |ws|
                  && j < k * step + |Window(ws, StartOf(k, step), chunkSize)|
  {
    var cs, step := Chunks(ws, chunkSize, overlap), Step(chunkSize, overlap);
    ChunksFromCount(ws, 0, chunkSize, step);
    var k := CoveringStart(|cs|, step, j);
    var start := StartOf(k, step);
    assert start <= j < start + |Window(ws, start, chunkSize)|;
  }

  /** The last chunk's window ends at the last word. */
  lemma LastChunkEndsAtLastWord(ws: seq<string>, chunkSize: nat, overlap: nat)
    requires chunkSize > 0
    requires ws != []
    ensures var cs, step := Chunks(ws, chunkSize, overlap), Step(chunkSize, overlap);
      && |cs| > 0
      && (|cs| - 1) * step < |ws|
      && (|cs| - 1) * step + |Window(ws, StartOf(|cs| - 1, step), chunkSize)| == |ws|
  {
    var cs, step := Chunks(ws, chunkSize, overlap), Step(chunkSize, overlap);
    ChunksFromCount(ws, 0, chunkSize, step);
    ChunksFromAt(ws, 0, chunkSize, step, |cs| - 1);
    MulSucc(|cs| - 1, step);
  }

  /** A chunk splits back into its window, which holds between 1 and
      `size` words. */
  lemma WindowWords(ws: seq<string>, start: nat, size: nat)
    requires size > 0 && start < |ws|
    requires forall i :: 0 <= i < |ws| ==> Text.IsWord(ws[i])
    ensures 1 <= |Window(ws, start, size)| <= size
    ensures Text.Words(Chunk(ws, start, size)) == Window(ws, start, size)
  {
    var w := Window(ws, start, size);
    forall i | 0 <= i < |w|
      ensures Text.IsWord(w[i])
    {
      assert w[i] == ws[start + i];
    }
    Text.WordsOfJoin(w);
  }

  /** Every chunk splits back into its window, which holds between 1 and
      `chunkSize` words. */
  lemma ChunkWords(ws: seq<string>, chunkSize: nat, overlap: nat, k: nat)
    requires chunkSize > 0
    requires forall i :: 0 <= i < |ws| ==> Text.IsWord(ws[i])
    requires k < |Chunks(ws, chunkSize, overlap)|
    ensures k * Step(chunkSize, overlap) < |ws|
    ensures var w := Window(ws, StartOf(k, Step(chunkSize, overlap)), chunkSize);
      && 1 <= |w| <= chunkSize
      && Text.Words(Chunks(ws, chunkSize, overlap)[k]) == w
  {
    var step := Step(chunkSize, overlap);
    var start := StartOf(k, step);
    var cs := Chunks(ws, chunkSize, overlap);
    assert cs == ChunksFrom(ws, 0, chunkSize, step);
    ChunksFromAt(ws, 0, chunkSize, step, k);
    var chunk := cs[k];
    assert chunk == Chunk(ws, start, chunkSize);
    WindowWords(ws, start, chunkSize);
  }

  /** With a positive step, two full windows a step apart share exactly
      `overlap` words: the tail of one is the head of the next. Consecutive
      chunks start a step apart (`ChunksFromAt`). */
  lemma ConsecutiveChunksOverlap(ws: seq<string>, chunkSize: nat, overlap: nat, start: nat)
    requires chunkSize > overlap
    requires start + Step(chunkSize, overlap) + chunkSize <= |ws|
    ensures var step := Step(chunkSize, overlap);
      var a, b := Window(ws, start, chunkSize), Window(ws, start + step, chunkSize);
      && |a[step..]| == overlap
      && a[step..] == b[..overlap]
  {
    var step := Step(chunkSize, overlap);
    var a, b := Window(ws, start, chunkSize), Window(ws, start + step, chunkSize);
    assert a[step..] == ws[start + step..start + chunkSize];
    assert b[..overlap] == ws[start + step..start + step + overlap];
  }

  /** One iteration of the loop keeps its invariant. */
  lemma ChunkTextStep(ws: seq<string>, size: nat, step: nat, chunks: seq<string>, i: nat, chunk: string,
                       chunks': seq<string>, i': nat)
    requires step > 0
    requires i < |ws|
    requires chunk == Chunk(ws, i, size)
    requires chunks + ChunksFrom(ws, i, size, step) == ChunksFrom(ws, 0, size, step)
    requires chunks' == chunks + [chunk] && i' == i + step
    ensures chunks' + ChunksFrom(ws, i', size, step) == ChunksFrom(ws, 0, size, step)
  {
    ChunksFromNext(ws, i, size, step, chunk, i');
    Seqs.AppendStep(chunks, chunk, ChunksFrom(ws, i, size, step), ChunksFrom(ws, i', size, step),
                    ChunksFrom(ws, 0, size, step), chunks');
  }

  /** `ChunksFromStep` with the first chunk and the next start named. */
  lemma ChunksFromNext(ws: seq<string>, start: nat, size: nat, step: nat, chunk: string, next: nat)
    requires step > 0
    requires start < |ws|
    requires chunk == Chunk(ws, start, size) && next == start + step
    ensures ChunksFrom(ws, start, size, step) == [chunk] + ChunksFrom(ws, next, size, step)
  {
    ChunksFromStep(ws, start, size, step);
  }

  /** The words from `i` to `end`, joined, are the chunk at `i`. */
  lemma JoinedSliceIsChunk(ws: seq<string>, i: nat, end: nat, size: nat, chunk: string)
    requires i < |ws|
    requires end == if i + size <= |ws| then i + size else |ws|
    requires chunk == Text.Join(ws[i..end], " ")
    ensures chunk == Chunk(ws, i, size)
  {
    assert ws[i..end] == Window(ws, i, size);
  }

  /** `chunk_text`, with the zero chunk size sent to the no-chunk answer
      instead of a loop that never advances. */
  method ChunkText(text: string, chunkSize: nat, overlap: nat) returns (chunks: seq<string>)
    ensures chunks == Chunks(Text.Words(text), chunkSize, overlap)
  {
    var words := Text.Words(text);
    chunks := [];
    if words == [] || chunkSize == 0 {
      return;
    }
    assert chunks + ChunksFrom(words, 0, chunkSize, Step(chunkSize, overlap))
           == ChunksFrom(words, 0, chunkSize, Step(chunkSize, overlap));
    var step := Step(chunkSize, overlap);
    var i: nat := 0;
    while i < |words|
      invariant chunks + ChunksFrom(words, i, chunkSize, step) == ChunksFrom(words, 0, chunkSize, step)
      decreases |words| - i
    {
      var end := if i + chunkSize <= |words| then i + chunkSize else |words|;
      var chunk := Text.Join(words[i..end], " ");
      JoinedSliceIsChunk(words, i, end, chunkSize, chunk);
      ghost var before, at := chunks, i;
      chunks := chunks + [chunk];
      i := i + step;
      ChunkTextStep(words, chunkSize, step, before, at, chunk, chunks, i);
    }
    ChunkTextDone(words, chunkSize, overlap, chunks, i);
  }

  /** When the loop has passed the last word, the chunks pushed are the
      chunks of the words. */
  lemma ChunkTextDone(ws: seq<string>, chunkSize: nat, overlap: nat, chunks: seq<string>, i: nat)
    requires chunkSize > 0 && ws != [] && i >= |ws|
    requires chunks + ChunksFrom(ws, i, chunkSize, Step(chunkSize, overlap))
             == ChunksFrom(ws, 0, chunkSize, Step(chunkSize, overlap))
    ensures chunks == Chunks(ws, chunkSize, overlap)
  {
    assert chunks + [] == chunks;
  }

  /** The loop exactly as written, run for at most `fuel` iterations: the
      chunks pushed and the index reached. */
  function LoopAsWritten(ws: seq<string>, i: nat, chunkSize: nat, overlap: nat, fuel: nat)
    : (r: (seq<string>, nat))
    ensures |r.0| <= fuel
    decreases fuel
  {
    if fuel == 0 || i >= |ws| then ([], i)
    else
      var next := LoopAsWritten(ws, i + Step(chunkSize, overlap), chunkSize, overlap, fuel - 1);
      ([Chunk(ws, i, chunkSize)] + next.0, next.1)
  }

  /** With a zero chunk size the index never moves: after any number of
      iterations the loop condition still holds, and every iteration has
      pushed one more empty chunk. */
  lemma {:induction false} ChunkSizeZeroNeverEnds(ws: seq<string>, overlap: nat, fuel: nat)
    requires ws != []
    ensures var r := LoopAsWritten(ws, 0, 0, overlap, fuel);
      && r.1 == 0 < |ws|
      && |r.0| == fuel
      && forall k :: 0 <= k < fuel ==> r.0[k] == ""
    decreases fuel
  {
    if fuel > 0 {
      ChunkSizeZeroNeverEnds(ws, overlap, fuel - 1);
      var r := LoopAsWritten(ws, 0, 0, overlap, fuel);
      var next := LoopAsWritten(ws, 0, 0, overlap, fuel - 1);
      assert Window(ws, 0, 0) == [];
      assert r.0 == [""] + next.0;
    }
  }

  /** The words of the sentence the source's unit test chunks. */
  const SampleWords: seq<string> :=
    ["This", "is", "a", "test", "sentence", "with", "multiple", "words", "for", "chunking."]

  lemma SampleAreWords()
    ensures forall i :: 0 <= i < |SampleWords| ==> Text.IsWord(SampleWords[i])
  {
  }

  /** The sample sentence splits back into the sample words. */
  lemma SampleTextWords()
    ensures Text.Words(Text.Join(SampleWords, " ")) == SampleWords
  {
    SampleAreWords();
    Text.WordsOfJoin(SampleWords);
  }

  lemma SampleFirstChunks()
    ensures Chunk(SampleWords, 0, 3) == "This is a"
    ensures Chunk(SampleWords, 2, 3) == "a test sentence"
  {
    SampleChunkAt0();
    SampleChunkAt2();
  }

  lemma SampleChunkAt0()
    ensures Chunk(SampleWords, 0, 3) == "This is a"
  {
    assert Window(SampleWords, 0, 3) == ["This", "is", "a"];
  }

  lemma SampleChunkAt2()
    ensures Chunk(SampleWords, 2, 3) == "a test sentence"
  {
    assert Window(SampleWords, 2, 3) == ["a", "test", "sentence"];
  }

  lemma SampleChunkCount()
    ensures |Chunks(SampleWords, 3, 1)| == 5
  {
    var cs := Chunks(SampleWords, 3, 1);
    ChunksFromCount(SampleWords, 0, 3, 2);
    ChunksFromAt(SampleWords, 0, 3, 2, |cs| - 1);
  }

  /** Windows of 3 words moving by 2 over the ten sample words (the words
      of the sample sentence, by `SampleTextWords`): five chunks, the first
      two being "This is a" and "a test sentence". */
  lemma SampleChunks()
    ensures var cs := Chunks(SampleWords, 3, 1);
      && |cs| == 5
      && cs[0] == "This is a"
      && cs[1] == "a test sentence"
  {
    SampleChunkCount();
    ChunksFromAt(SampleWords, 0, 3, 2, 0);
    ChunksFromAt(SampleWords, 0, 3, 2, 1);
    SampleFirstChunks();
  }
}

=== FILE: lru_cache.dfy ===
/** The least-recently-used map the conversation memory is built on (the
    `lru` crate's `LruCache`): a bounded map plus a recency order. Reading or
    writing a key makes it the most recently used; inserting a new key into a
    full cache first evicts the least recently used one. */
module LruCache {
  import Seqs

  /** `order` lists the keys from least to most recently used. */
  datatype Cache<K, V> = Cache(capacity: nat, order: seq<K>, entries: map<K, V>)

  ghost predicate Valid<K(!new), V>(c: Cache<K, V>) {
    && c.capacity >= 1
    && |c.order| <= c.capacity
    && Seqs.Distinct(c.order)
    && (forall k :: k in c.order <==> k in c.entries)
  }

  /** `LruCache::new(cap)` with a non-zero capacity. */
  function Empty<K(!new), V>(capacity: nat): (c: Cache<K, V>)
    requires capacity >= 1
    ensures Valid(c)
    ensures c.entries == map[]
  {
    Cache(capacity, [], map[])
  }

  /** The recency order after using `k`: `k` moves to the back. */
  function Touch<K(==,!new)>(order: seq<K>, k: K): (r: seq<K>)
    ensures forall x :: x in r <==> x in order || x == k
    ensures |r| > 0 && r[|r| - 1] == k
  {
    Seqs.Filter(x => x != k, order) + [k]
  }

  lemma TouchValid<K(!new), V>(c: Cache<K, V>, k: K)
    requires Valid(c)
    requires k in c.entries
    ensures Valid(c.(order := Touch(c.order, k)))
  {
    var f := Seqs.Filter(x => x != k, c.order);
    Seqs.FilterOutDistinct(c.order, k);
    assert k !in f;
    var r := f + [k];
    forall i, j | 0 <= i < j < |r| ensures r[i] != r[j] {
      if j == |r| - 1 {
        assert r[i] in f;
      }
    }
  }

  /** The number of cached keys never exceeds the capacity. */
  lemma SizeBound<K(!new), V>(c: Cache<K, V>)
    requires Valid(c)
    ensures |c.entries| <= c.capacity
  {
    Seqs.DistinctCardinality(c.order);
    assert c.entries.Keys == set x | x in c.order;
  }

  /** `LruCache::get`: the value, if cached, and `k` becomes most recent. */
  function Get<K(==,!new), V>(c: Cache<K, V>, k: K): (r: (Cache<K, V>, bool))
    requires Valid(c)
    ensures Valid(r.0)
    ensures r.1 <==> k in c.entries
    ensures r.0.entries == c.entries && r.0.capacity == c.capacity
    ensures k in c.entries ==> r.0.order[|r.0.order| - 1] == k
  {
    if k in c.entries then
      TouchValid(c, k);
      (c.(order := Touch(c.order, k)), true)
    else (c, false)
  }

  /** `LruCache::put`: bind `k` to `v` as the most recent key, evicting the
      least recently used key when a new key meets a full cache. */
  function Put<K(==,!new), V>(c: Cache<K, V>, k: K, v: V): (r: Cache<K, V>)
    requires Valid(c)
    ensures Valid(r)
    ensures r.capacity == c.capacity
    ensures k in r.entries && r.entries[k] == v
    ensures r.order[|r.order| - 1] == k
    ensures forall x :: x in r.entries && x != k ==> x in c.entries && r.entries[x] == c.entries[x]
    ensures forall x :: x in c.entries && x !in r.entries ==>
              k !in c.entries && |c.order| == c.capacity && x == c.order[0]
  {
    if k in c.entries then
      TouchValid(c, k);
      Cache(c.capacity, Touch(c.order, k), c.entries[k := v])
    else if |c.order| == c.capacity then
      EvictValid(c, k);
      Cache(c.capacity, c.order[1..] + [k], (c.entries - {c.order[0]})[k := v])
    else
      InsertValid(c, k);
      Cache(c.capacity, c.order + [k], c.entries[k := v])
  }

  lemma EvictValid<K(!new), V>(c: Cache<K, V>, k: K)
    requires Valid(c)
    requires k !in c.entries && |c.order| == c.capacity
    ensures var o := c.order[1..] + [k];
      Seqs.Distinct(o) && forall x :: x in o <==> x in c.order[1..] || x == k
    ensures forall x :: x in c.order[1..] <==> x in c.entries && x != c.order[0]
  {
    var o := c.order[1..] + [k];
    forall i, j | 0 <= i < j < |o| ensures o[i] != o[j] {
      if j == |o| - 1 {
        assert o[i] in c.order;
      } else {
        assert o[i] == c.order[i + 1] && o[j] == c.order[j + 1];
      }
    }
    forall x ensures x in c.order[1..] <==> x in c.entries && x != c.order[0] {
      if x in c.order[1..] {
        var i :| 0 <= i < |c.order[1..]| && c.order[1..][i] == x;
        assert c.order[i + 1] == x;
      }
      if x in c.entries && x != c.order[0] {
        var i :| 0 <= i < |c.order| && c.order[i] == x;
        assert c.order[1..][i - 1] == x;
      }
    }
  }

  lemma InsertValid<K(!new), V>(c: Cache<K, V>, k: K)
    requires Valid(c)
    requires k !in c.entries
    ensures Seqs.Distinct(c.order + [k])
  {
    var o := c.order + [k];
    forall i, j | 0 <= i < j < |o| ensures o[i] != o[j] {
      if j == |o| - 1 {
        assert o[i] in c.order;
      }
    }
  }

  /** `LruCache::get_or_insert_mut(k, default)`: `k` becomes the most recent
      key, bound to its current value or, when absent, to `default` (which
      may evict the least recently used key, as `Put` does). */
  function GetOrInsert<K(==,!new), V>(c: Cache<K, V>, k: K, default: V): (r: Cache<K, V>)
    requires Valid(c)
    ensures Valid(r)
    ensures r.capacity == c.capacity
    ensures k in r.entries
    ensures r.entries[k] == if k in c.entries then c.entries[k] else default
    ensures r.order[|r.order| - 1] == k
    ensures forall x :: x in r.entries && x != k ==> x in c.entries && r.entries[x] == c.entries[x]
    ensures forall x :: x in c.entries && x !in r.entries ==>
              k !in c.entries && |c.order| == c.capacity && x == c.order[0]
  {
    if k in c.entries then Get(c, k).0 else Put(c, k, default)
  }

  /** Replace the value of a cached key without touching the recency order
      (a write through the reference `get_or_insert_mut` hands out). */
  function Update<K(==,!new), V>(c: Cache<K, V>, k: K, v: V): (r: Cache<K, V>)
    requires Valid(c)
    requires k in c.entries
    ensures Valid(r)
    ensures r.order == c.order && r.capacity == c.capacity
    ensures r.entries == c.entries[k := v]
  {
    c.(entries := c.entries[k := v])
  }
}

=== FILE: model_manager.dfy ===
/** The model manager: the catalogue of downloadable language models, the
    record of models downloaded so far, and the recommendation of a model
    from how complex a scenario is. Downloading itself (the model hub, the
    file system) is not modelled: a finished download is an event carrying
    the path it produced. */
module ModelManager {
  import opened Wrappers

  datatype PluginComplexity = Simple | Medium | Complex

  /** `ModelDefinition`: an entry of the catalogue. */
  datatype ModelDefinition = ModelDefinition(
    id: string,
    filename: string,
    alias: string,
    sizeMb: nat,
    description: string,
    required: bool,
    recommendedFor: seq<string>)

  /** `ModelInfo`: what is remembered about a downloaded model. */
  datatype ModelInfo = ModelInfo(
    id: string,
    alias: string,
    sizeMb: nat,
    path: Option<string>,
    description: string,
    recommendedFor: seq<string>)

  /** `ModelManager` without its cache directory: downloaded models by alias. */
  datatype Manager = Manager(downloadedModels: map<string, ModelInfo>)

  /** `ScenarioConfig`. */
  datatype ScenarioConfig = ScenarioConfig(
    framework: Option<string>,
    assessments: seq<string>,
    customNodeTypes: seq<string>)

  const Pete := ModelDefinition(
    "bartowski/gemma-2-2b-it-GGUF", "gemma-2-2b-it-Q4_K_M.gguf", "pete", 1500,
    "Lightweight model for Pete teacher assistant (Gemma 2 2B)", true, ["authoring", "assistance"])
  const Narrator := ModelDefinition(
    "bartowski/gemma-2-9b-it-GGUF", "gemma-2-9b-it-Q4_K_M.gguf", "narrator", 6000,
    "Balanced model for student AI narrator (Gemma 2 9B)", false, ["playing", "narration"])
  const Advanced := ModelDefinition(
    "bartowski/gemma-2-27b-it-GGUF", "gemma-2-27b-it-Q4_K_M.gguf", "advanced", 18000,
    "Powerful model for complex simulations (Gemma 2 27B)", false, ["simulation", "physics"])

  /** `list_available_models`. */
  function ListAvailableModels(): (ms: seq<ModelDefinition>)
    ensures |ms| == 3
  {
    [Pete, Narrator, Advanced]
  }

  /** `new`, apart from creating the cache directory: nothing downloaded. */
  function New(): (m: Manager)
    ensures m.downloadedModels == map[]
  {
    Manager(map[])
  }

  /** The bookkeeping at the end of a successful `download_model`: the
      model's information, with the downloaded path, filed under its alias
      (replacing an earlier entry for that alias). */
  function RecordDownload(m: Manager, def: ModelDefinition, path: string): (r: Manager)
    ensures def.alias in r.downloadedModels
    ensures r.downloadedModels[def.alias].path == Some(path)
    ensures r.downloadedModels[def.alias].id == def.id
    ensures forall a :: a in r.downloadedModels && a != def.alias ==>
              a in m.downloadedModels && r.downloadedModels[a] == m.downloadedModels[a]
    ensures forall a :: a in m.downloadedModels ==> a in r.downloadedModels
  {
    var info := ModelInfo(def.id, def.alias, def.sizeMb, Some(path), def.description, def.recommendedFor);
    Manager(m.downloadedModels[def.alias := info])
  }

  /** `get_model_path`: the stored path of a downloaded model. */
  function GetModelPath(m: Manager, alias: string): (p: Option<string>)
    ensures p.Some? ==> alias in m.downloadedModels && m.downloadedModels[alias].path == p
    ensures alias !in m.downloadedModels ==> p == None
    ensures alias in m.downloadedModels ==> p == m.downloadedModels[alias].path
  {
    if alias in m.downloadedModels then m.downloadedModels[alias].path else None
  }

  /** `has_model`: the model has a path and the file is there; `fileExists`
      answers for the file system. */
  function HasModel(m: Manager, alias: string, fileExists: string -> bool): (b: bool)
    ensures b <==> GetModelPath(m, alias).Some? && fileExists(GetModelPath(m, alias).value)
  {
    match GetModelPath(m, alias)
    case None => false
    case Some(p) => fileExists(p)
  }

  /** A manager after the given downloads, in order. */
  function AfterDownloads(downloads: seq<(ModelDefinition, string)>): Manager
    decreases |downloads|
  {
    if downloads == [] then New()
    else
      var last := downloads[|downloads| - 1];
      RecordDownload(AfterDownloads(downloads[..|downloads| - 1]), last.0, last.1)
  }

  /** Starting from a new manager, an alias has a path exactly when some
      download carried that alias, and the path is that of the latest such
      download. */
  lemma {:induction false} PathOnlyAfterDownload(downloads: seq<(ModelDefinition, string)>, alias: string)
    ensures GetModelPath(AfterDownloads(downloads), alias).Some?
            <==> exists i :: 0 <= i < |downloads| && downloads[i].0.alias == alias
    ensures forall i :: 0 <= i < |downloads| && downloads[i].0.alias == alias
              && (forall j :: i < j < |downloads| ==> downloads[j].0.alias != alias)
              ==> GetModelPath(AfterDownloads(downloads), alias) == Some(downloads[i].1)
    decreases |downloads|
  {
    if downloads != [] {
      var n := |downloads| - 1;
      var prefix := downloads[..n];
      PathOnlyAfterDownload(prefix, alias);
      forall i | 0 <= i < n
        ensures downloads[i] == prefix[i]
      {
      }
    }
  }

  /** One point for a narrative framework, two per custom node type, and one
      more for more than two assessments. */
  function ComplexityScore(s: ScenarioConfig): nat {
    (if s.framework.Some? then 1 else 0)
    + |s.customNodeTypes| * 2
    + (if |s.assessments| > 2 then 1 else 0)
  }

  /** `analyze_complexity`: a score of 0-1 is Simple, 2-3 Medium, more is
      Complex. */
  function AnalyzeComplexity(s: ScenarioConfig): (c: PluginComplexity)
    ensures c == Simple <==> ComplexityScore(s) <= 1
    ensures c == Medium <==> 2 <= ComplexityScore(s) <= 3
    ensures c == Complex <==> 4 <= ComplexityScore(s)
  {
    var score := ComplexityScore(s);
    if score <= 1 then Simple else if score <= 3 then Medium else Complex
  }

  function Rank(c: PluginComplexity): nat {
    match c
    case Simple => 0
    case Medium => 1
    case Complex => 2
  }

  /** Adding a framework, node types or assessments never lowers the
      complexity. */
  lemma ComplexityMonotone(a: ScenarioConfig, b: ScenarioConfig)
    requires a.framework.Some? ==> b.framework.Some?
    requires |a.customNodeTypes| <= |b.customNodeTypes|
    requires |a.assessments| <= |b.assessments|
    ensures Rank(AnalyzeComplexity(a)) <= Rank(AnalyzeComplexity(b))
  {
  }

  /** One custom node type makes a scenario at least Medium, two make it
      Complex, whatever else it has. */
  lemma NodeTypesDominate(s: ScenarioConfig)
    ensures |s.customNodeTypes| >= 1 ==> AnalyzeComplexity(s) != Simple
    ensures |s.customNodeTypes| >= 2 ==> AnalyzeComplexity(s) == Complex
  {
  }

  /** The scenarios of the source's disabled test: a lone assessment is
      Simple, and a framework with two node types is Complex; but a
      framework with one assessment scores 1, which is Simple, not the
      Medium that test expects. */
  lemma DisabledTestScenarios()
    ensures AnalyzeComplexity(ScenarioConfig(None, ["vaam"], [])) == Simple
    ensures AnalyzeComplexity(ScenarioConfig(Some("heros_journey"), ["vaam", "physics"], ["physics_sim", "ar_node"])) == Complex
    ensures ComplexityScore(ScenarioConfig(Some("heros_journey"), ["vaam"], [])) == 1
    ensures AnalyzeComplexity(ScenarioConfig(Some("heros_journey"), ["vaam"], [])) != Medium
  {
  }

  /** `recommend_model`. */
  function RecommendModel(c: PluginComplexity): (alias: string)
    ensures exists i :: 0 <= i < |ListAvailableModels()| && ListAvailableModels()[i].alias == alias
  {
    match c
    case Simple => assert ListAvailableModels()[0].alias == "pete"; "pete"
    case Medium => assert ListAvailableModels()[1].alias == "narrator"; "narrator"
    case Complex => assert ListAvailableModels()[2].alias == "advanced"; "advanced"
  }

  /** The catalogue's aliases are pairwise different, so each recommendation
      names exactly one catalogue entry; more complex scenarios get larger
      models. */
  lemma RecommendationsResolve(c: PluginComplexity, d: PluginComplexity)
    ensures var ms := ListAvailableModels();
      forall i, j :: 0 <= i < j < |ms| ==> ms[i].alias != ms[j].alias
    ensures c != d ==> RecommendModel(c) != RecommendModel(d)
    ensures var ms := ListAvailableModels();
      forall i, j ::
        (0 <= i < |ms| && 0 <= j < |ms| && ms[i].alias == RecommendModel(c) && ms[j].alias == RecommendModel(d)
         && Rank(c) < Rank(d)) ==> ms[i].sizeMb < ms[j].sizeMb
  {
    var ms := ListAvailableModels();
    assert ms[0].alias == "pete" && ms[1].alias == "narrator" && ms[2].alias == "advanced";
    assert "pete"[0] == 'p' && "narrator"[0] == 'n' && "advanced"[0] == 'a';
  }
}

=== FILE: node_canvas.dfy ===
/** The story-graph authoring canvas: nodes, the connections between them,
    the node being dragged, the selected node and the pending connection
    source, with the edits the canvas's buttons and mouse events make.
    Node positions and the mouse offset are not modelled; fresh ids are
    parameters. */
module NodeCanvas {
  import opened Wrappers
  import Seqs

  /** `StoryNode` without its coordinates. */
  datatype StoryNode = StoryNode(id: string, title: string, content: string)

  /** `Connection`: an arrow from one node to another. */
  datatype Connection = Connection(id: string, fromNode: string, toNode: string)

  /** `StoryGraph`, as loaded and saved. */
  datatype StoryGraph = StoryGraph(id: string, title: string, nodes: seq<StoryNode>, connections: seq<Connection>)

  /** The canvas's signals. */
  datatype Canvas = Canvas(
    nodes: seq<StoryNode>,
    connections: seq<Connection>,
    graphId: string,
    graphTitle: string,
    draggingId: Option<string>,
    selectedNodeId: Option<string>,
    connectingSource: Option<string>)

  /** The canvas before the graph arrives. */
  const Empty := Canvas([], [], "", "", None, None, None)

  /** Loading a graph replaces nodes, connections, id and title. */
  function Load(c: Canvas, g: StoryGraph): (r: Canvas)
    ensures r.nodes == g.nodes && r.connections == g.connections
    ensures r.graphId == g.id && r.graphTitle == g.title
    ensures r.draggingId == c.draggingId && r.selectedNodeId == c.selectedNodeId
    ensures r.connectingSource == c.connectingSource
  {
    c.(nodes := g.nodes, connections := g.connections, graphId := g.id, graphTitle := g.title)
  }

  /** The node the "Add Node" button creates. */
  function NewNode(id: string): StoryNode {
    StoryNode(id, "New Node", "Write something...")
  }

  /** "Add Node": one new node at the end. */
  function AddNode(c: Canvas, freshId: string): (r: Canvas)
    ensures |r.nodes| == |c.nodes| + 1 && r.nodes[..|c.nodes|] == c.nodes
    ensures r.nodes[|c.nodes|] == StoryNode(freshId, "New Node", "Write something...")
    ensures r.(nodes := c.nodes) == c
  {
    c.(nodes := c.nodes + [NewNode(freshId)])
  }

  /** Pressing a port: an output port becomes the pending source; any other
      port changes nothing. */
  function PortMouseDown(c: Canvas, nodeId: string, portType: string): (r: Canvas)
    ensures portType == "output" ==> r == c.(connectingSource := Some(nodeId))
    ensures portType != "output" ==> r == c
  {
    if portType == "output" then c.(connectingSource := Some(nodeId)) else c
  }

  /** Releasing on a port: with a pending source, an input port of another
      node gets a new connection from the source, and the source is
      cleared. Otherwise nothing changes, and the source stays pending. */
  function PortMouseUp(c: Canvas, nodeId: string, portType: string, freshId: string): (r: Canvas)
    ensures r.nodes == c.nodes && r.draggingId == c.draggingId && r.selectedNodeId == c.selectedNodeId
    ensures r != c <==> c.connectingSource.Some? && portType == "input" && c.connectingSource.value != nodeId
    ensures r != c ==>
              && r.connections == c.connections + [Connection(freshId, c.connectingSource.value, nodeId)]
              && r.connectingSource == None
  {
    match c.connectingSource
    case Some(source) =>
      if portType == "input" && source != nodeId then
        var r := c.(connections := c.connections + [Connection(freshId, source, nodeId)], connectingSource := None);
        assert |r.connections| != |c.connections|;
        r
      else c
    case None => c
  }

  /** Mouse up or leaving the canvas ends any drag and any pending
      connection. */
  function MouseUp(c: Canvas): (r: Canvas)
    ensures r.draggingId == None && r.connectingSource == None
    ensures r.(draggingId := c.draggingId, connectingSource := c.connectingSource) == c
  {
    c.(draggingId := None, connectingSource := None)
  }

  /** Pressing on a node starts dragging it and selects it. */
  function StartDrag(c: Canvas, nodeId: string): (r: Canvas)
    ensures r.draggingId == Some(nodeId) && r.selectedNodeId == Some(nodeId)
    ensures r.(draggingId := c.draggingId, selectedNodeId := c.selectedNodeId) == c
  {
    c.(draggingId := Some(nodeId), selectedNodeId := Some(nodeId))
  }

  /** The property editor's close button clears the selection. */
  function CloseEditor(c: Canvas): (r: Canvas)
    ensures r.selectedNodeId == None
    ensures r.(selectedNodeId := c.selectedNodeId) == c
  {
    c.(selectedNodeId := None)
  }

  /** The nodes that survive deleting `id`. */
  function NodeKept(id: string): StoryNode -> bool {
    (n: StoryNode) => n.id != id
  }

  /** The connections that survive deleting `id`: those not touching it. */
  function ConnectionKept(id: string): Connection -> bool {
    (x: Connection) => x.fromNode != id && x.toNode != id
  }

  /** The property editor's delete button: the node goes, and so does every
      connection into or out of it; the selection is cleared. */
  function DeleteNode(c: Canvas, id: string): (r: Canvas)
    ensures forall n :: n in r.nodes <==> n in c.nodes && n.id != id
    ensures forall x :: x in r.connections <==> x in c.connections && x.fromNode != id && x.toNode != id
    ensures r.selectedNodeId == None
    ensures r.(nodes := c.nodes, connections := c.connections, selectedNodeId := c.selectedNodeId) == c
  {
    c.(nodes := Seqs.Filter(NodeKept(id), c.nodes),
       connections := Seqs.Filter(ConnectionKept(id), c.connections),
       selectedNodeId := None)
  }

  /** `retain` keeps the survivors in their order: when the nodes and the
      connections are each split in two, the survivors of the first part
      come before those of the second. */
  lemma DeleteKeepsOrder(c: Canvas, id: string, a: seq<StoryNode>, b: seq<StoryNode>,
                         ca: seq<Connection>, cb: seq<Connection>)
    requires c.nodes == a + b && c.connections == ca + cb
    ensures DeleteNode(c, id).nodes
            == DeleteNode(c.(nodes := a), id).nodes + DeleteNode(c.(nodes := b), id).nodes
    ensures DeleteNode(c, id).connections
            == DeleteNode(c.(connections := ca), id).connections + DeleteNode(c.(connections := cb), id).connections
  {
    Seqs.FilterAppend(NodeKept(id), a, b);
    Seqs.FilterAppend(ConnectionKept(id), ca, cb);
  }

  /** Deleting an id that no node has and no connection touches keeps
      nodes and connections as they are, in order, and only clears the
      selection. */
  lemma DeleteAbsentKeeps(c: Canvas, id: string)
    requires forall i :: 0 <= i < |c.nodes| ==> c.nodes[i].id != id
    requires forall i :: 0 <= i < |c.connections| ==> c.connections[i].fromNode != id && c.connections[i].toNode != id
    ensures DeleteNode(c, id) == c.(selectedNodeId := None)
  {
    Seqs.FilterAllPass(NodeKept(id), c.nodes);
    Seqs.FilterAllPass(ConnectionKept(id), c.connections);
  }

  /** The graph the save button sends: an empty id or title is replaced by
      a default, and nodes and connections go as they are. */
  function ToSave(c: Canvas): (g: StoryGraph)
    ensures g.id == (if c.graphId == "" then "demo_graph" else c.graphId)
    ensures g.title == (if c.graphTitle == "" then "New Story" else c.graphTitle)
    ensures g.nodes == c.nodes && g.connections == c.connections
    ensures g.id != "" && g.title != ""
  {
    StoryGraph(if c.graphId == "" then "demo_graph" else c.graphId,
               if c.graphTitle == "" then "New Story" else c.graphTitle,
               c.nodes, c.connections)
  }

  /** Saving a loaded graph with an id and a title gives it back unchanged. */
  lemma SaveAfterLoad(c: Canvas, g: StoryGraph)
    requires g.id != "" && g.title != ""
    ensures ToSave(Load(c, g)) == g
  {
  }

  /** Node ids of the canvas. */
  function NodeIds(c: Canvas): set<string> {
    set n | n in c.nodes :: n.id
  }

  /** The canvas's graph is well formed: node ids are distinct, connection
      ids are distinct, no connection is a self-loop, every connection and
      the pending source refer to nodes on the canvas. */
  ghost predicate WellFormed(c: Canvas) {
    && (forall i, j :: 0 <= i < j < |c.nodes| ==> c.nodes[i].id != c.nodes[j].id)
    && (forall i, j :: 0 <= i < j < |c.connections| ==> c.connections[i].id != c.connections[j].id)
    && (forall x :: x in c.connections ==> x.fromNode != x.toNode)
    && (forall x :: x in c.connections ==> x.fromNode in NodeIds(c) && x.toNode in NodeIds(c))
    && (c.connectingSource.Some? ==> c.connectingSource.value in NodeIds(c))
  }

  /** The events the canvas reacts to; a port event names a node on the
      canvas and each event that creates something carries a fresh id. */
  datatype Event =
    | AddNodeClick(freshId: string)
    | PortDown(nodeId: string, portType: string)
    | PortUp(nodeId: string, portType: string, freshId: string)
    | CanvasMouseUp
    | NodePress(nodeId: string)
    | EditorClose
    | EditorDelete(nodeId: string)

  function Step(c: Canvas, e: Event): Canvas {
    match e
    case AddNodeClick(id) => AddNode(c, id)
    case PortDown(n, p) => PortMouseDown(c, n, p)
    case PortUp(n, p, id) => PortMouseUp(c, n, p, id)
    case CanvasMouseUp => MouseUp(c)
    case NodePress(n) => StartDrag(c, n)
    case EditorClose => CloseEditor(c)
    case EditorDelete(n) => DeleteNode(c, n)
  }

  /** What the environment guarantees of an event: fresh ids are unused and
      port events come from nodes on the canvas. */
  ghost predicate Admissible(c: Canvas, e: Event) {
    match e
    case AddNodeClick(id) => id !in NodeIds(c)
    case PortDown(n, _) => n in NodeIds(c)
    case PortUp(n, _, id) => n in NodeIds(c) && forall x :: x in c.connections ==> x.id != id
    case _ => true
  }

  lemma AddNodeKeepsWellFormed(c: Canvas, id: string)
    requires WellFormed(c) && id !in NodeIds(c)
    ensures WellFormed(AddNode(c, id))
  {
    var r := AddNode(c, id);
    assert forall n :: n in c.nodes ==> n in r.nodes;
    assert NodeIds(c) <= NodeIds(r);
    forall i, j | 0 <= i < j < |r.nodes|
      ensures r.nodes[i].id != r.nodes[j].id
    {
      if j == |c.nodes| {
        assert r.nodes[i] == c.nodes[i];
      } else {
        assert r.nodes[i] == c.nodes[i] && r.nodes[j] == c.nodes[j];
      }
    }
  }

  lemma PortUpKeepsWellFormed(c: Canvas, n: string, p: string, id: string)
    requires WellFormed(c) && n in NodeIds(c)
    requires forall x :: x in c.connections ==> x.id != id
    ensures WellFormed(PortMouseUp(c, n, p, id))
  {
    var r := PortMouseUp(c, n, p, id);
    if r != c {
      forall i, j | 0 <= i < j < |r.connections|
        ensures r.connections[i].id != r.connections[j].id
      {
        if j == |c.connections| {
          assert r.connections[i] == c.connections[i];
        } else {
          assert r.connections[i] == c.connections[i] && r.connections[j] == c.connections[j];
        }
      }
    }
  }

  lemma DeleteKeepsWellFormed(c: Canvas, n: string)
    requires WellFormed(c)
    requires c.connectingSource.Some? ==> c.connectingSource.value != n
    ensures WellFormed(DeleteNode(c, n))
  {
    var r := DeleteNode(c, n);
    Seqs.FilterKeepsKeysDistinct(NodeKept(n), (x: StoryNode) => x.id, c.nodes);
    Seqs.FilterKeepsKeysDistinct(ConnectionKept(n), (x: Connection) => x.id, c.connections);
    forall x | x in r.connections
      ensures x.fromNode in NodeIds(r) && x.toNode in NodeIds(r)
    {
      var a :| a in c.nodes && a.id == x.fromNode;
      var b :| b in c.nodes && b.id == x.toNode;
      assert a in r.nodes && b in r.nodes;
    }
    if c.connectingSource.Some? {
      var a :| a in c.nodes && a.id == c.connectingSource.value;
      assert a in r.nodes;
    }
  }

  /** Every event an admissible environment can send keeps the canvas well
      formed, except deleting the node that is the pending connection
      source: the source then names a node no longer on the canvas. */
  lemma StepKeepsWellFormed(c: Canvas, e: Event)
    requires WellFormed(c) && Admissible(c, e)
    requires e.EditorDelete? && c.connectingSource.Some? ==> c.connectingSource.value != e.nodeId
    ensures WellFormed(Step(c, e))
  {
    match e
    case AddNodeClick(id) => AddNodeKeepsWellFormed(c, id);
    case PortUp(n, p, id) => PortUpKeepsWellFormed(c, n, p, id);
    case EditorDelete(n) => DeleteKeepsWellFormed(c, n);
    case _ =>
  }

  /** Nothing stops the same pair of nodes from being connected twice:
      two identical drags give two connections between the same nodes. */
  lemma DuplicateConnectionsAllowed(c: Canvas, a: string, b: string, id1: string, id2: string)
    requires a != b
    ensures var once := PortMouseUp(PortMouseDown(c, a, "output"), b, "input", id1);
      var twice := PortMouseUp(PortMouseDown(once, a, "output"), b, "input", id2);
      && twice.connections == c.connections + [Connection(id1, a, b), Connection(id2, a, b)]
  {
    var once := PortMouseUp(PortMouseDown(c, a, "output"), b, "input", id1);
    assert once.connections == c.connections + [Connection(id1, a, b)];
  }
}

=== FILE: persona_logic.dfy ===
/** The persona quiz scoring: the points of the chosen answers are summed
    per archetype, a highest-scoring archetype becomes the player's primary
    archetype, and its stat buffs become the player's stats. The database
    tables are sequences of rows. */
module PersonaLogic {
  import opened Wrappers
  import Seqs

  /** A row of `dilemma_choice_archetype_points`. */
  datatype PointRow = PointRow(dilemmaChoiceId: int, archetypeId: int, points: int)

  /** `Archetype`, a row of `archetypes`. */
  datatype Archetype = Archetype(id: int, name: string, description: string)

  /** A row of `archetype_stat_buffs` joined with the stat's name. */
  datatype BuffRow = BuffRow(archetypeId: int, statName: string, buffValue: int)

  /** `ArchetypeCalculationResult`. */
  datatype Calculation = Calculation(primaryArchetype: Archetype, stats: map<string, int>)

  const NoPointsMessage: string := "No archetype points found for submission"

  /** The database's answer when `fetch_one` finds no row. */
  const RowNotFoundMessage: string := "no rows returned by a query that expected to return at least one row"

  /** The point rows of the answered choices: the query's
      `dilemma_choice_id = ANY(answers.values())`. */
  function AnsweredRows(answers: map<int, int>, table: seq<PointRow>): (rows: seq<PointRow>)
    ensures forall r :: r in rows <==> r in table && r.dilemmaChoiceId in answers.Values
  {
    Seqs.Filter((r: PointRow) => r.dilemmaChoiceId in answers.Values, table)
  }

  /** An archetype's score: its points summed over the rows. */
  function Score(rows: seq<PointRow>, archetypeId: int): int {
    if rows == [] then 0
    else
      var last := rows[|rows| - 1];
      Score(rows[..|rows| - 1], archetypeId) + (if last.archetypeId == archetypeId then last.points else 0)
  }

  /** `archetype_scores`: the score of every archetype with a row. */
  function Tally(rows: seq<PointRow>): (scores: map<int, int>)
    ensures forall a :: a in scores <==> exists j :: 0 <= j < |rows| && rows[j].archetypeId == a
    ensures forall a :: a in scores ==> scores[a] == Score(rows, a)
    ensures scores == map[] <==> rows == []
  {
    if rows == [] then map[]
    else
      var init := rows[..|rows| - 1];
      var last := rows[|rows| - 1];
      var before := Tally(init);
      assert forall j :: 0 <= j < |init| ==> rows[j] == init[j];
      if last.archetypeId in before then
        before[last.archetypeId := before[last.archetypeId] + last.points]
      else
        ScoreAbsent(init, last.archetypeId);
        before[last.archetypeId := last.points]
  }

  /** Among the archetypes of non-empty rows, one scores highest. */
  lemma {:induction false} BestRowExists(score: int -> int, rows: seq<PointRow>)
    requires rows != []
    ensures exists i :: 0 <= i < |rows| &&
              forall j :: 0 <= j < |rows| ==> score(rows[j].archetypeId) <= score(rows[i].archetypeId)
  {
    var n := |rows| - 1;
    if n == 0 {
      assert forall j :: 0 <= j < |rows| ==> score(rows[j].archetypeId) <= score(rows[0].archetypeId);
    } else {
      var init := rows[..n];
      BestRowExists(score, init);
      var i :| 0 <= i < |init| &&
                forall j :: 0 <= j < |init| ==> score(init[j].archetypeId) <= score(init[i].archetypeId);
      assert forall j :: 0 <= j < n ==> rows[j] == init[j];
      if score(rows[n].archetypeId) <= score(rows[i].archetypeId) {
        assert forall j :: 0 <= j < |rows| ==> score(rows[j].archetypeId) <= score(rows[i].archetypeId);
      } else {
        assert forall j :: 0 <= j < |rows| ==> score(rows[j].archetypeId) <= score(rows[n].archetypeId);
      }
    }
  }

  lemma MessagesDiffer()
    ensures NoPointsMessage != RowNotFoundMessage
  {
    assert |NoPointsMessage| != |RowNotFoundMessage|;
  }

  /** Stats from buff rows: each name maps to its value in the last row
      carrying it, as collecting pairs into a map keeps the later one. */
  function StatsOf(rows: seq<BuffRow>): (stats: map<string, int>)
    ensures forall n :: n in stats <==> exists i :: 0 <= i < |rows| && rows[i].statName == n
  {
    if rows == [] then map[]
    else
      var init := rows[..|rows| - 1];
      var last := rows[|rows| - 1];
      var before := StatsOf(init);
      var stats := before[last.statName := last.buffValue];
      assert forall i :: 0 <= i < |init| ==> rows[i] == init[i];
      stats
  }

  /** A stat takes its value from the last row that carries it. */
  lemma {:induction false} StatsOfLast(rows: seq<BuffRow>, i: nat)
    requires i < |rows|
    requires forall j :: i < j < |rows| ==> rows[j].statName != rows[i].statName
    ensures rows[i].statName in StatsOf(rows)
    ensures StatsOf(rows)[rows[i].statName] == rows[i].buffValue
  {
    var init := rows[..|rows| - 1];
    if i < |rows| - 1 {
      assert forall j :: i < j < |init| ==> init[j] == rows[j];
      StatsOfLast(init, i);
      assert init[i] == rows[i];
    }
  }

  /** The buff rows of one archetype: the query's `asb.archetype_id = $1`. */
  function BuffsOf(table: seq<BuffRow>, archetypeId: int): (rows: seq<BuffRow>)
    ensures forall b :: b in rows <==> b in table && b.archetypeId == archetypeId
  {
    Seqs.Filter((b: BuffRow) => b.archetypeId == archetypeId, table)
  }

  /** The first archetype row with the id, as `fetch_one` on the primary key. */
  function FindArchetype(table: seq<Archetype>, id: int): (r: Option<Archetype>)
    ensures r.Some? ==> r.value in table && r.value.id == id
    ensures r.None? <==> forall i :: 0 <= i < |table| ==> table[i].id != id
  {
    if table == [] then None
    else if table[0].id == id then Some(table[0])
    else FindArchetype(table[1..], id)
  }

  /** The end of `calculate_archetype` once the archetype is chosen: its
      row is fetched, and its stat buffs become the stats. */
  function Conclude(archetypeTable: seq<Archetype>, buffTable: seq<BuffRow>, best: int): (r: Result<Calculation>)
    ensures r.Err? <==> forall i :: 0 <= i < |archetypeTable| ==> archetypeTable[i].id != best
    ensures r.Err? ==> r.error == RowNotFoundMessage
    ensures r.Ok? ==> r.value.primaryArchetype in archetypeTable && r.value.primaryArchetype.id == best
    ensures r.Ok? ==> r.value.stats == StatsOf(BuffsOf(buffTable, best))
  {
    match FindArchetype(archetypeTable, best)
    case None => Err(RowNotFoundMessage)
    case Some(archetype) => Ok(Calculation(archetype, StatsOf(BuffsOf(buffTable, best))))
  }

  /** `a` has a score, and no archetype scores more. */
  predicate Maximal(scores: map<int, int>, a: int) {
    a in scores && forall b :: b in scores ==> scores[b] <= scores[a]
  }

  /** The answer `calculate_archetype` gives once points were found: the
      chosen archetype is a maximum of the tally (so no row's archetype
      scores more), it comes from the archetype table, and its stat buffs
      are the stats; the row-not-found error happens only when a maximum of
      the tally has no archetype row, and never when all of them have one. */
  ghost predicate Chosen(rows: seq<PointRow>, archetypeTable: seq<Archetype>, buffTable: seq<BuffRow>,
                         r: Result<Calculation>) {
    && (r.Ok? ==>
          && r.value.primaryArchetype in archetypeTable
          && Maximal(Tally(rows), r.value.primaryArchetype.id)
          && (forall i :: 0 <= i < |rows| ==> Score(rows, rows[i].archetypeId) <= Score(rows, r.value.primaryArchetype.id))
          && r.value.stats == StatsOf(BuffsOf(buffTable, r.value.primaryArchetype.id)))
    && (r.Err? ==>
          && r == Err(RowNotFoundMessage)
          && exists a :: Maximal(Tally(rows), a) && FindArchetype(archetypeTable, a).None?)
    && ((forall a :: Maximal(Tally(rows), a) ==> FindArchetype(archetypeTable, a).Some?) ==> r.Ok?)
  }

  /** `calculate_archetype`. The points of the answered choices are tallied
      per archetype; without any, the submission is refused. Otherwise an
      archetype of highest score is chosen (which one among equals depends
      on hash-map order in the source, so any of them may be picked here),
      its row is fetched (a missing row is the database's error), and its
      stat buffs become the stats. */
  method CalculateArchetype(answers: map<int, int>, pointTable: seq<PointRow>,
                            archetypeTable: seq<Archetype>, buffTable: seq<BuffRow>)
    returns (r: Result<Calculation>)
    ensures r == Err(NoPointsMessage) <==> AnsweredRows(answers, pointTable) == []
    ensures AnsweredRows(answers, pointTable) != [] ==>
              Chosen(AnsweredRows(answers, pointTable), archetypeTable, buffTable, r)
  {
    var rows := AnsweredRows(answers, pointTable);
    if rows == [] {
      return Err(NoPointsMessage);
    }
    BestRowExists((a: int) => Score(rows, a), rows);
    var top :| 0 <= top < |rows| &&
                forall j :: 0 <= j < |rows| ==> Score(rows, rows[j].archetypeId) <= Score(rows, rows[top].archetypeId);
    ConcludeTopRow(rows, top, archetypeTable, buffTable);
    r := Conclude(archetypeTable, buffTable, rows[top].archetypeId);
  }

  /** Concluding with the archetype of a highest-scoring row gives the
      answer `Chosen` describes, which is never the no-points error. */
  lemma ConcludeTopRow(rows: seq<PointRow>, top: nat, archetypeTable: seq<Archetype>, buffTable: seq<BuffRow>)
    requires top < |rows|
    requires forall j :: 0 <= j < |rows| ==> Score(rows, rows[j].archetypeId) <= Score(rows, rows[top].archetypeId)
    ensures Chosen(rows, archetypeTable, buffTable, Conclude(archetypeTable, buffTable, rows[top].archetypeId))
    ensures Conclude(archetypeTable, buffTable, rows[top].archetypeId) != Err(NoPointsMessage)
  {
    MessagesDiffer();
    TopRowIsMaximal(rows, top);
  }

  /** The archetype of a row scoring highest among the rows scores highest
      in the tally. */
  lemma TopRowIsMaximal(rows: seq<PointRow>, top: nat)
    requires top < |rows|
    requires forall j :: 0 <= j < |rows| ==> Score(rows, rows[j].archetypeId) <= Score(rows, rows[top].archetypeId)
    ensures Maximal(Tally(rows), rows[top].archetypeId)
  {
    var scores := Tally(rows);
    forall b | b in scores
      ensures scores[b] <= scores[rows[top].archetypeId]
    {
      var j :| 0 <= j < |rows| && rows[j].archetypeId == b;
    }
  }

  /** An archetype without rows scores nothing. */
  lemma {:induction false} ScoreAbsent(rows: seq<PointRow>, a: int)
    requires forall j :: 0 <= j < |rows| ==> rows[j].archetypeId != a
    ensures Score(rows, a) == 0
  {
    if rows != [] {
      ScoreAbsent(rows[..|rows| - 1], a);
    }
  }

  /** Scores add up over concatenated rows, so an archetype's score is the
      same however the rows are split between queries. */
  lemma {:induction false} ScoreAppend(a: seq<PointRow>, b: seq<PointRow>, id: int)
    ensures Score(a + b, id) == Score(a, id) + Score(b, id)
    decreases |b|
  {
    if b != [] {
      var b' := b[..|b| - 1];
      assert (a + b)[..|a + b| - 1] == a + b';
      ScoreAppend(a, b', id);
    } else {
      assert a + b == a;
    }
  }
}

=== FILE: prompt_examples.dfy ===
/** Strategy selection on concrete learner inputs: the cases the source's
    own unit tests fix, and an input showing that the phrase "now I see" is
    never recognised as written. Each input is given as its list of words;
    the input itself is those words joined by single spaces, so its word
    count and lowercase form follow word by word. */
module PromptExamples {
  import Text
  import Prompts

  /** "I don't know" */
  const ShortInput: seq<string> := ["I", "don't", "know"]
  /** "I finally understand what you mean!" */
  const BreakthroughInput: seq<string> := ["I", "finally", "understand", "what", "you", "mean!"]
  /** "I think it relates to my earlier experiences with learning" */
  const ModerateInput: seq<string> :=
    ["I", "think", "it", "relates", "to", "my", "earlier", "experiences", "with", "learning"]
  /** "now i see" */
  const NowISeeInput: seq<string> := ["now", "i", "see"]

  function Sentence(ws: seq<string>): string {
    Text.Join(ws, " ")
  }

  /** Lowercasing words joined by spaces, word by word. */
  lemma LowerWords(ws: seq<string>, lw: seq<string>)
    requires |ws| == |lw|
    requires forall i :: 0 <= i < |ws| ==> Text.ToLower(ws[i]) == lw[i]
    ensures Text.ToLower(Sentence(ws)) == Sentence(lw)
  {
    Text.ToLowerJoin(ws, lw);
  }

  /** Lowercasing a sentence whose only capital is a leading "I". */
  lemma LowerLeadingI(ws: seq<string>)
    requires |ws| > 0 && ws[0] == "I"
    requires forall i :: 1 <= i < |ws| ==> Text.NoUpper(ws[i])
    ensures Text.ToLower(Sentence(ws)) == Sentence(["i"] + ws[1..])
  {
    var lw := ["i"] + ws[1..];
    forall i | 0 <= i < |ws| ensures Text.ToLower(ws[i]) == lw[i] {
      if i > 0 {
        Text.ToLowerNoUpper(ws[i]);
      }
    }
    LowerWords(ws, lw);
  }

  /** A character other than the space found in none of the words is not
      in the words joined by spaces. */
  lemma {:induction false} CharNotInSentence(ws: seq<string>, c: char)
    requires c != ' '
    requires forall i :: 0 <= i < |ws| ==> c !in ws[i]
    ensures c !in Sentence(ws)
  {
    if |ws| > 1 {
      CharNotInSentence(ws[1..], c);
      assert Sentence(ws) == ws[0] + " " + Sentence(ws[1..]);
    }
  }

  /** A phrase one of whose letters appears in none of the words does not
      occur in the words joined by spaces. */
  lemma AbsentByLetter(ws: seq<string>, p: string, k: nat)
    requires k < |p| && p[k] != ' '
    requires forall i :: 0 <= i < |ws| ==> p[k] !in ws[i]
    ensures !Text.Contains(Sentence(ws), p)
  {
    CharNotInSentence(ws, p[k]);
    Text.NotContainsByChar(Sentence(ws), p, k);
  }

  /** A whitespace-free phrase that each word misses one letter of does not
      occur in the words joined by spaces; `ks[i]` names the letter word `i`
      misses. */
  lemma AbsentByLetters(ws: seq<string>, p: string, ks: seq<nat>)
    requires |p| > 0
    requires forall c :: 0 <= c < |p| ==> !Text.IsSpace(p[c])
    requires |ks| == |ws|
    requires forall i :: 0 <= i < |ws| ==> ks[i] < |p| && p[ks[i]] !in ws[i]
    ensures !Text.Contains(Sentence(ws), p)
  {
    forall i | 0 <= i < |ws| ensures !Text.Contains(ws[i], p) {
      Text.NotContainsByChar(ws[i], p, ks[i]);
    }
    Text.NotContainsJoin(ws, p);
  }

  /** Text without "now" cannot hold "now i see". */
  lemma NoNowNoPhrase(low: string)
    requires !Text.Contains(low, "now")
    ensures !Text.Contains(low, "now i see")
  {
    if Text.Contains(low, "now i see") {
      Text.ContainsPrefix(low, "now i see", 3);
    }
  }

  /** Lowercased text free of the five phrases has no breakthrough, for
      either phrase list. */
  lemma NoBreakthrough(input: string)
    requires var low := Text.ToLower(input);
      && !Text.Contains(low, "finally") && !Text.Contains(low, "realize")
      && !Text.Contains(low, "understand") && !Text.Contains(low, "aha")
      && !Text.Contains(low, "now i see")
    ensures !Prompts.HasPhrase(Prompts.BreakthroughWords, input)
    ensures !Prompts.HasPhrase(Prompts.BreakthroughWordsAsWritten, input)
  {
    NoBreakthroughAsWritten(input);
  }

  /** As written, only the four one-word phrases can ever be found. */
  lemma NoBreakthroughAsWritten(input: string)
    requires var low := Text.ToLower(input);
      && !Text.Contains(low, "finally") && !Text.Contains(low, "realize")
      && !Text.Contains(low, "understand") && !Text.Contains(low, "aha")
    ensures !Prompts.HasPhrase(Prompts.BreakthroughWordsAsWritten, input)
  {
    Prompts.NowISeeNeverMatches(input);
  }

  /** Each input word is a whitespace-free non-empty word. */
  lemma ShortWordsAreWords()
    ensures forall i :: 0 <= i < |ShortInput| ==> Text.IsWord(ShortInput[i])
  {
  }

  lemma ModerateWordsAreWords()
    ensures forall i :: 0 <= i < |ModerateInput| ==> Text.IsWord(ModerateInput[i])
  {
  }

  lemma NowISeeWordsAreWords()
    ensures forall i :: 0 <= i < |NowISeeInput| ==> Text.IsWord(NowISeeInput[i])
  {
  }

  // "I don't know"

  /** The lowercase input lacks the 'f', 'z', 'u', 'h' and 's' that the
      phrases need. */
  lemma ShortInputLacksPhrases(lw: seq<string>)
    requires lw == ["i"] + ShortInput[1..]
    ensures !Text.Contains(Sentence(lw), "finally") && !Text.Contains(Sentence(lw), "realize")
    ensures !Text.Contains(Sentence(lw), "understand") && !Text.Contains(Sentence(lw), "aha")
    ensures !Text.Contains(Sentence(lw), "now i see")
  {
    AbsentByLetter(lw, "finally", 0);
    AbsentByLetter(lw, "realize", 5);
    AbsentByLetter(lw, "understand", 0);
    AbsentByLetter(lw, "aha", 1);
    AbsentByLetter(lw, "now i see", 6);
  }

  lemma ShortInputNoPhrase()
    ensures !Prompts.HasPhrase(Prompts.BreakthroughWords, Sentence(ShortInput))
    ensures !Prompts.HasPhrase(Prompts.BreakthroughWordsAsWritten, Sentence(ShortInput))
  {
    LowerLeadingI(ShortInput);
    ShortInputLacksPhrases(["i"] + ShortInput[1..]);
    NoBreakthrough(Sentence(ShortInput));
  }

  /** A three-word answer, `I don't know`, is met with Scaffolding, by the
      selection as written and by the corrected one. */
  lemma ShortInputScaffolds()
    ensures Prompts.SelectStrategyAsWritten(Sentence(ShortInput), []) == Prompts.Scaffolding
    ensures Prompts.SelectStrategy(Sentence(ShortInput), []) == Prompts.Scaffolding
  {
    ShortWordsAreWords();
    Text.WordsOfJoin(ShortInput);
    ShortInputNoPhrase();
  }

  // "I finally understand what you mean!"

  /** `I finally understand what you mean!` is a breakthrough, by the
      selection as written and by the corrected one. */
  lemma BreakthroughAffirms()
    ensures Prompts.SelectStrategyAsWritten(Sentence(BreakthroughInput), []) == Prompts.Affirming
    ensures Prompts.SelectStrategy(Sentence(BreakthroughInput), []) == Prompts.Affirming
  {
    LowerLeadingI(BreakthroughInput);
    HasFinally(["i"] + BreakthroughInput[1..]);
    assert Prompts.BreakthroughWords[0] == "finally";
    assert Prompts.BreakthroughWordsAsWritten[0] == "finally";
  }

  /** "finally" follows the leading "i " of the lowercased input. */
  lemma HasFinally(lw: seq<string>)
    requires |lw| > 2 && lw[0] == "i" && lw[1] == "finally"
    ensures Text.Contains(Sentence(lw), "finally")
  {
    var rest := Sentence(lw[2..]);
    var low := Sentence(lw);
    assert Sentence(lw[1..]) == "finally" + " " + rest;
    assert low == "i" + " " + ("finally" + " " + rest);
    assert low[2..9] == "finally";
    Text.OccursAtContains(low, "finally", 2);
  }

  // "I think it relates to my earlier experiences with learning"

  lemma ModerateLower(lw: seq<string>)
    requires lw == ["i"] + ModerateInput[1..]
    ensures Text.ToLower(Sentence(ModerateInput)) == Sentence(lw)
  {
    forall i | 1 <= i < |ModerateInput| ensures Text.NoUpper(ModerateInput[i]) {
      ModerateWordsLower(ModerateInput[i]);
    }
    LowerLeadingI(ModerateInput);
  }

  lemma ModerateWordsLower(w: string)
    requires w in ModerateInput[1..]
    ensures Text.NoUpper(w)
  {
  }

  lemma ModerateNoLongPhrase(lw: seq<string>)
    requires lw == ["i"] + ModerateInput[1..]
    ensures !Text.Contains(Sentence(lw), "finally")
    ensures !Text.Contains(Sentence(lw), "realize")
    ensures !Text.Contains(Sentence(lw), "understand")
  {
    ModerateLacksLetter(lw, "finally", 0);
    ModerateLacksLetter(lw, "realize", 5);
    ModerateLacksLetter(lw, "understand", 0);
  }

  /** A letter found in none of the lowercase words rules the phrase out. */
  lemma ModerateLacksLetter(lw: seq<string>, p: string, k: nat)
    requires lw == ["i"] + ModerateInput[1..]
    requires k < |p| && p[k] in "fzu"
    ensures !Text.Contains(Sentence(lw), p)
  {
    AbsentByLetter(lw, p, k);
  }

  /** Every word lacks the 'a' or the 'h' of "aha", and one of the letters
      of "now". */
  lemma ModerateNoShortPhrase(lw: seq<string>)
    requires lw == ["i"] + ModerateInput[1..]
    ensures !Text.Contains(Sentence(lw), "aha")
    ensures !Text.Contains(Sentence(lw), "now i see")
  {
    AbsentByLetters(lw, "aha", [0, 0, 0, 1, 0, 0, 1, 1, 0, 1]);
    AbsentByLetters(lw, "now", [0, 1, 0, 0, 0, 0, 0, 1, 0, 1]);
    NoNowNoPhrase(Sentence(lw));
  }

  /** A ten-word reflection without a breakthrough phrase is mirrored, by
      the selection as written and by the corrected one. */
  lemma ModerateInputMirrors()
    ensures Prompts.SelectStrategyAsWritten(Sentence(ModerateInput), []) == Prompts.Mirroring
    ensures Prompts.SelectStrategy(Sentence(ModerateInput), []) == Prompts.Mirroring
  {
    ModerateWordsAreWords();
    Text.WordsOfJoin(ModerateInput);
    var lw := ["i"] + ModerateInput[1..];
    ModerateLower(lw);
    ModerateNoLongPhrase(lw);
    ModerateNoShortPhrase(lw);
    NoBreakthrough(Sentence(ModerateInput));
  }

  // "now i see"

  lemma NowISeeText()
    ensures Sentence(NowISeeInput) == "now i see"
  {
  }

  /** The input is already lowercase. */
  lemma NowISeeLower()
    ensures Text.ToLower(Sentence(NowISeeInput)) == Sentence(NowISeeInput)
  {
    forall i | 0 <= i < |NowISeeInput|
      ensures Text.ToLower(NowISeeInput[i]) == NowISeeInput[i]
    {
      Text.ToLowerNoUpper(NowISeeInput[i]);
    }
    LowerWords(NowISeeInput, NowISeeInput);
  }

  lemma NowISeeWords()
    ensures Text.WordCount(Sentence(NowISeeInput)) == 3
  {
    NowISeeWordsAreWords();
    Text.WordsOfJoin(NowISeeInput);
  }

  /** "now i see" lacks the 'f', 'z', 'u' and 'h' of the one-word phrases. */
  lemma NowISeeLacksOneWordPhrases(ws: seq<string>)
    requires ws == ["now", "i", "see"]
    ensures !Text.Contains(Sentence(ws), "finally") && !Text.Contains(Sentence(ws), "realize")
    ensures !Text.Contains(Sentence(ws), "understand") && !Text.Contains(Sentence(ws), "aha")
  {
    AbsentByLetter(ws, "finally", 0);
    AbsentByLetter(ws, "realize", 5);
    AbsentByLetter(ws, "understand", 0);
    AbsentByLetter(ws, "aha", 1);
  }

  /** As written, "now i see" is not recognised as a breakthrough: it has
      three words and is answered with Scaffolding. */
  lemma NowISeeAsWrittenMissed()
    ensures Prompts.SelectStrategyAsWritten(Sentence(NowISeeInput), []) == Prompts.Scaffolding
  {
    NowISeeWords();
    NowISeeLower();
    NowISeeLacksOneWordPhrases(NowISeeInput);
    NoBreakthroughAsWritten(Sentence(NowISeeInput));
  }

  /** With the phrase lowercased the same input is a breakthrough. */
  lemma NowISeeCorrectedFound()
    ensures Prompts.SelectStrategy(Sentence(NowISeeInput), []) == Prompts.Affirming
  {
    NowISeeLower();
    NowISeeText();
    assert Text.StartsWith("now i see", "now i see");
    assert Text.Contains("now i see", Prompts.BreakthroughWords[4]);
  }
}

=== FILE: prompts.dfy ===
/** Socratic prompting: which questioning strategy to use for a learner's
    input, and the text of the prompt handed to the language model. */
module Prompts {
  import opened Wrappers
  import Text
  import Seqs
  import ConversationMemory

  datatype Strategy = Scaffolding | Deepening | Mirroring | Challenging | Affirming

  /** What the engine knows about the session a learner is in. */
  datatype SessionContext = SessionContext(
    sessionId: ConversationMemory.Uuid,
    userId: int,
    archetype: Option<string>,
    focusArea: Option<string>)

  /** The breakthrough phrases as the source lists them. The last one holds
      a capital letter and is compared against lowercased input. */
  const BreakthroughWordsAsWritten: seq<string> :=
    ["finally", "realize", "understand", "aha", "now I see"]

  /** The breakthrough phrases with the last one lowercased, so that it can
      match lowercased input. */
  const BreakthroughWords: seq<string> :=
    ["finally", "realize", "understand", "aha", "now i see"]

  /** Some phrase of `phrases` occurs in the lowercased input. */
  predicate HasPhrase(phrases: seq<string>, input: string) {
    exists j :: 0 <= j < |phrases| && Text.Contains(Text.ToLower(input), phrases[j])
  }

  /** The selection rule for a given phrase list: a breakthrough phrase wins;
      otherwise fewer than 5 words is Scaffolding, fewer than 10 is
      Deepening, and anything longer is Mirroring. */
  function SelectWith(phrases: seq<string>, input: string): (s: Strategy)
    ensures s == Affirming <==> HasPhrase(phrases, input)
    ensures s == Scaffolding <==> !HasPhrase(phrases, input) && Text.WordCount(input) < 5
    ensures s == Deepening <==> !HasPhrase(phrases, input) && 5 <= Text.WordCount(input) < 10
    ensures s == Mirroring <==> !HasPhrase(phrases, input) && 10 <= Text.WordCount(input)
    ensures s != Challenging
  {
    if HasPhrase(phrases, input) then Affirming
    else if Text.WordCount(input) < 5 then Scaffolding
    else if Text.WordCount(input) < 10 then Deepening
    else Mirroring
  }

  /** `select_strategy` as written. The history is accepted and ignored. */
  function SelectStrategyAsWritten(input: string, history: seq<ConversationMemory.Turn>): (s: Strategy)
    ensures s == Affirming <==> HasPhrase(BreakthroughWordsAsWritten, input)
  {
    SelectWith(BreakthroughWordsAsWritten, input)
  }

  /** `select_strategy` with the breakthrough phrase "now i see" lowercased.
      The history is accepted and ignored. */
  function SelectStrategy(input: string, history: seq<ConversationMemory.Turn>): (s: Strategy)
    ensures s == Affirming <==> HasPhrase(BreakthroughWords, input)
    ensures s != Challenging
  {
    SelectWith(BreakthroughWords, input)
  }

  /** Lowercased text holds no capital letter, so the phrase "now I see" is
      never found in it. */
  lemma NowISeeNeverMatches(input: string)
    ensures !Text.Contains(Text.ToLower(input), "now I see")
  {
    var low := Text.ToLower(input);
    assert "now I see"[4] == 'I';
    Text.NotContainsByChar(low, "now I see", 4);
  }

  /** The selection as written and the corrected one disagree exactly on
      inputs whose lowercase form holds "now i see" but none of the other
      four phrases; there the corrected one answers Affirming. */
  lemma SelectAsWrittenDiffers(input: string, history: seq<ConversationMemory.Turn>)
    ensures SelectStrategyAsWritten(input, history) != SelectStrategy(input, history) <==>
              Text.Contains(Text.ToLower(input), "now i see") && !HasPhrase(BreakthroughWordsAsWritten, input)
    ensures SelectStrategyAsWritten(input, history) != SelectStrategy(input, history) ==>
              SelectStrategy(input, history) == Affirming
  {
    NowISeeNeverMatches(input);
    assert BreakthroughWords[4] == "now i see";
    assert forall j :: 0 <= j < 4 ==> BreakthroughWords[j] == BreakthroughWordsAsWritten[j];
  }

  /** Once a breakthrough phrase appears, more text after it keeps the
      answer Affirming. */
  lemma AffirmingStable(input: string, more: string, history: seq<ConversationMemory.Turn>)
    requires SelectStrategy(input, history) == Affirming
    ensures SelectStrategy(input + more, history) == Affirming
  {
    var j :| 0 <= j < |BreakthroughWords| && Text.Contains(Text.ToLower(input), BreakthroughWords[j]);
    Text.ToLowerAppend(input, more);
    Text.ContainsExtend(Text.ToLower(input), Text.ToLower(more), BreakthroughWords[j]);
  }

  /** The history never influences the choice. */
  lemma SelectIgnoresHistory(input: string, h1: seq<ConversationMemory.Turn>, h2: seq<ConversationMemory.Turn>)
    ensures SelectStrategy(input, h1) == SelectStrategy(input, h2)
  {
  }

  /** Strategies ordered by how much the learner wrote, for inputs without
      a breakthrough phrase. */
  function Rank(s: Strategy): nat {
    match s
    case Scaffolding => 0
    case Deepening => 1
    case Mirroring => 2
    case Challenging => 3
    case Affirming => 4
  }

  /** Without a breakthrough phrase, more words never select a strategy for
      a shorter answer. */
  lemma SelectMonotoneInLength(a: string, b: string, history: seq<ConversationMemory.Turn>)
    requires !HasPhrase(BreakthroughWords, a) && !HasPhrase(BreakthroughWords, b)
    requires Text.WordCount(a) <= Text.WordCount(b)
    ensures Rank(SelectStrategy(a, history)) <= Rank(SelectStrategy(b, history))
  {
  }

  /** The fixed opening of every prompt. */
  const SystemPrompt: string :=
    "You are a Socratic guide for a learner engaged in deep reflection. Your role is to:\n"
    + "1. NEVER give answers or solutions\n"
    + "2. Ask questions that help the learner discover insights themselves\n"
    + "3. Mirror their language back to reveal assumptions\n"
    + "4. Identify contradictions gently\n"
    + "5. Encourage deeper thinking without judgment\n"
    + "\n"
    + "Guidelines:\n"
    + "- Keep responses to 1-3 sentences maximum\n"
    + "- Always end with a question\n"
    + "- Use the learner's own words when possible\n"
    + "- Be warm, curious, never condescending"

  const ScaffoldingGuidance: string :=
    "The learner seems stuck or uncertain. Offer a gentle leading question that helps them see a path forward. Example: 'It sounds like you're noticing X. What might happen if...?'"
  const DeepeningGuidance: string :=
    "The learner's response is brief or superficial. Ask them to elaborate on a specific part. Example: 'You mentioned Y. What specifically do you mean by that?'"
  const MirroringGuidance: string :=
    "Reflect the learner's own words back to them to help them see connections. Example: 'You said \"A leads to B.\" How does that connect to your earlier point about C?'"
  const ChallengingGuidance: string :=
    "The learner has stated something that contradicts an earlier statement. Gently point this out. Example: 'Earlier you valued X, but now you're choosing Y. What changed for you?'"
  const AffirmingGuidance: string :=
    "The learner has reached an insight. Acknowledge it and help them deepen it. Example: 'I notice you used the word \"finally.\" What makes this moment significant for you?'"

  /** The guidance closing the prompt for each strategy. */
  function StrategyInstructions(s: Strategy): string {
    match s
    case Scaffolding => ScaffoldingGuidance
    case Deepening => DeepeningGuidance
    case Mirroring => MirroringGuidance
    case Challenging => ChallengingGuidance
    case Affirming => AffirmingGuidance
  }

  /** Each strategy's guidance has its own length, so different strategies
      give different guidance. */
  lemma InstructionsDistinct(a: Strategy, b: Strategy)
    requires a != b
    ensures |StrategyInstructions(a)| != |StrategyInstructions(b)|
    ensures StrategyInstructions(a) != StrategyInstructions(b)
  {
    assert |ScaffoldingGuidance| == 175 && |DeepeningGuidance| == 156;
    assert |MirroringGuidance| == 163 && |ChallengingGuidance| == 176;
    assert |AffirmingGuidance| == 168;
  }

  /** How a turn is shown in the prompt. */
  function SpeakerLabel(s: ConversationMemory.Speaker): string {
    match s
    case User => "Learner"
    case AI => "You (AI Guide)"
  }

  function TurnLine(t: ConversationMemory.Turn): string {
    SpeakerLabel(t.speaker) + ": " + t.content
  }

  const NoHistory: string := "No previous conversation."
  const HistoryHeader: string := "Recent conversation:\n"

  /** The conversation section of the prompt: a fixed sentence for an empty
      history, otherwise a header and one line per turn for the last three
      turns, oldest first. */
  function FormatHistory(history: seq<ConversationMemory.Turn>): (r: string)
    ensures history == [] <==> r == NoHistory
    ensures history != [] ==> Text.StartsWith(r, HistoryHeader)
    ensures history != [] ==> Text.EndsWith(r, TurnLine(history[|history| - 1]))
    ensures history != [] ==>
              var k := if |history| < 3 then |history| else 3;
              r == HistoryHeader + Text.Join(Lines(history[|history| - k..]), "\n")
  {
    if history == [] then NoHistory
    else
      var lines := Lines(Seqs.LastN(history, 3));
      HistoryShape(history, lines);
      HistoryHeader + Text.Join(lines, "\n")
  }

  /** The conversation section of a non-empty history: the header, then the
      lines of the last three turns at most, the latest turn's line last. */
  lemma HistoryShape(history: seq<ConversationMemory.Turn>, lines: seq<string>)
    requires history != []
    requires lines == Lines(Seqs.LastN(history, 3))
    ensures lines == Lines(history[|history| - (if |history| < 3 then |history| else 3)..])
    ensures var r := HistoryHeader + Text.Join(lines, "\n");
      && r != NoHistory
      && Text.StartsWith(r, HistoryHeader)
      && Text.EndsWith(r, TurnLine(history[|history| - 1]))
  {
    var last := TurnLine(history[|history| - 1]);
    assert lines[|lines| - 1] == last;
    JoinEndsWithLast(lines, "\n");
    var j := Text.Join(lines, "\n");
    var r := HistoryHeader + j;
    assert r[0] != NoHistory[0];
    assert r[..|HistoryHeader|] == HistoryHeader;
    assert r[|r| - |last|..] == j[|j| - |last|..];
  }

  /** One line per turn, in order. */
  function Lines(turns: seq<ConversationMemory.Turn>): (lines: seq<string>)
    ensures |lines| == |turns|
    ensures forall i :: 0 <= i < |turns| ==> lines[i] == TurnLine(turns[i])
  {
    seq(|turns|, i requires 0 <= i < |turns| => TurnLine(turns[i]))
  }

  /** A join ends with its last element. */
  lemma {:induction false} JoinEndsWithLast(ws: seq<string>, sep: string)
    requires ws != []
    ensures Text.EndsWith(Text.Join(ws, sep), ws[|ws| - 1])
  {
    if |ws| > 1 {
      JoinEndsWithLast(ws[1..], sep);
      var rest := Text.Join(ws[1..], sep);
      var j := Text.Join(ws, sep);
      assert j == (ws[0] + sep) + rest;
      assert j[|j| - |rest|..] == rest;
    }
  }

  /** Only the last three turns are shown. */
  lemma FormatHistoryWindow(history: seq<ConversationMemory.Turn>)
    ensures FormatHistory(history) == FormatHistory(Seqs.LastN(history, 3))
  {
  }

  /** The prompt: system text, session focus and archetype (with defaults),
      the conversation, the learner's input in quotes and the strategy's
      guidance. */
  function BuildPrompt(s: Strategy, input: string, history: seq<ConversationMemory.Turn>, ctx: SessionContext): (p: string)
    ensures Text.StartsWith(p, PromptHead)
    ensures Text.EndsWith(p, InputLabel + input + InputEnd + StrategyInstructions(s))
    ensures p == SystemPrompt
                 + FocusLabel + FocusOf(ctx)
                 + ArchetypeLabel + ArchetypeOf(ctx)
                 + BlankLine + FormatHistory(history)
                 + InputLabel + input + InputEnd
                 + StrategyInstructions(s)
  {
    var head := PromptHead;
    var mid := ContextLines(ctx, history);
    var tail := InputAndGuidance(input, s);
    PrefixSuffix(head, mid, tail);
    Regroup(SystemPrompt, FocusLabel, FocusOf(ctx), ArchetypeLabel, ArchetypeOf(ctx),
            BlankLine, FormatHistory(history), InputLabel, input, InputEnd, StrategyInstructions(s));
    head + mid + tail
  }

  /** The prompt's three parts, read as its eleven pieces in a row. */
  lemma Regroup(a: string, b: string, c: string, d: string, e: string, f: string,
                g: string, h: string, i: string, j: string, k: string)
    ensures (a + b) + (c + d + e + f + g) + (h + i + j + k) == a + b + c + d + e + f + g + h + i + j + k
  {
  }

  /** The labels between the prompt's blocks. */
  const FocusLabel: string := "\n\nContext:\n- Session Focus: "
  const ArchetypeLabel: string := "\n- Archetype: "
  const BlankLine: string := "\n\n"
  const InputLabel: string := "\n\nCurrent user input: \""
  const InputEnd: string := "\"\n\n"

  /** The system text and the start of the context lines. */
  const PromptHead: string := SystemPrompt + FocusLabel

  /** The session focus, "General reflection" when there is none. */
  function FocusOf(ctx: SessionContext): string {
    if ctx.focusArea.Some? then ctx.focusArea.value else "General reflection"
  }

  /** The archetype, "Unknown" when there is none. */
  function ArchetypeOf(ctx: SessionContext): string {
    if ctx.archetype.Some? then ctx.archetype.value else "Unknown"
  }

  /** The focus and archetype lines and the conversation. */
  function ContextLines(ctx: SessionContext, history: seq<ConversationMemory.Turn>): string {
    FocusOf(ctx) + ArchetypeLabel + ArchetypeOf(ctx) + BlankLine + FormatHistory(history)
  }

  /** The learner's input in quotes, then the strategy's guidance. */
  function InputAndGuidance(input: string, s: Strategy): string {
    InputLabel + input + InputEnd + StrategyInstructions(s)
  }

  lemma PrefixSuffix(a: string, b: string, c: string)
    ensures Text.StartsWith(a + b + c, a)
    ensures Text.EndsWith(a + b + c, c)
  {
    var s := a + b + c;
    assert s[..|a|] == a;
    assert s[|s| - |c|..] == c;
  }

  /** The prompt reveals the strategy it was built for. */
  lemma BuildPromptDeterminesStrategy(a: Strategy, b: Strategy, input: string,
                                      history: seq<ConversationMemory.Turn>, ctx: SessionContext)
    requires a != b
    ensures BuildPrompt(a, input, history, ctx) != BuildPrompt(b, input, history, ctx)
  {
    InstructionsDistinct(a, b);
    SameContextDifferentLength(a, b, input, history, ctx);
  }

  /** Prompts for two strategies differ only in the guidance at the end. */
  lemma SameContextDifferentLength(a: Strategy, b: Strategy, input: string,
                                   history: seq<ConversationMemory.Turn>, ctx: SessionContext)
    ensures |BuildPrompt(a, input, history, ctx)| - |StrategyInstructions(a)|
         == |BuildPrompt(b, input, history, ctx)| - |StrategyInstructions(b)|
  {
    assert |InputAndGuidance(input, a)| - |StrategyInstructions(a)|
        == |InputAndGuidance(input, b)| - |StrategyInstructions(b)|;
  }

  /** A missing focus area and archetype read as their defaults. */
  lemma BuildPromptDefaults(s: Strategy, input: string, history: seq<ConversationMemory.Turn>, id: ConversationMemory.Uuid, user: int)
    ensures BuildPrompt(s, input, history, SessionContext(id, user, None, None))
         == BuildPrompt(s, input, history, SessionContext(id, user, Some("Unknown"), Some("General reflection")))
  {
    var bare := SessionContext(id, user, None, None);
    var filled := SessionContext(id, user, Some("Unknown"), Some("General reflection"));
    assert FocusOf(bare) == FocusOf(filled) && ArchetypeOf(bare) == ArchetypeOf(filled);
    SameContextSamePrompt(s, input, history, bare, filled);
  }

  /** Contexts that read the same give the same prompt. */
  lemma SameContextSamePrompt(s: Strategy, input: string, history: seq<ConversationMemory.Turn>,
                              c1: SessionContext, c2: SessionContext)
    requires FocusOf(c1) == FocusOf(c2) && ArchetypeOf(c1) == ArchetypeOf(c2)
    ensures BuildPrompt(s, input, history, c1) == BuildPrompt(s, input, history, c2)
  {
    assert ContextLines(c1, history) == ContextLines(c2, history);
  }
}

=== FILE: railway.dfy ===
/** The train-car metaphor for vocabulary learning: a car carries words
    ("cargo"), each with an intrinsic cognitive load ("weight"), and refuses
    cargo that would exceed its capacity. Loads and capacities are unsigned
    8-bit integers, as in the source. */
module Railway {
  import opened Wrappers
  import Text

  /** `u8`. */
  newtype U8 = x: int | 0 <= x < 256

  /** `u8` addition as a release build computes it: modulo 256. */
  function WrappingAdd(a: U8, b: U8): (r: U8)
    ensures a as int + b as int < 256 ==> r as int == a as int + b as int
    ensures a as int + b as int >= 256 ==> r as int == a as int + b as int - 256
  {
    ((a as int + b as int) % 256) as U8
  }

  datatype VocabularyTier = Tier1 | Tier2 | Tier3

  /** A word with its weight and tier; the embedding is a placeholder vector. */
  datatype WordDefinition = WordDefinition(word: string, weight: U8, tier: VocabularyTier, embedding: seq<real>)

  /** `TrainCar`. Ids are naturals handed in from outside. */
  datatype TrainCar = TrainCar(
    id: nat,
    learningObjective: string,
    maxCognitiveCapacity: U8,
    currentLoad: U8,
    cargo: seq<WordDefinition>,
    prerequisiteCarId: Option<nat>,
    masteryThreshold: real)

  /** The total weight of a cargo list, in unbounded integers. */
  function CargoWeight(cargo: seq<WordDefinition>): nat {
    if cargo == [] then 0 else CargoWeight(cargo[..|cargo| - 1]) + cargo[|cargo| - 1].weight as nat
  }

  /** The car's invariant: the load is within capacity and is the sum of
      the cargo's weights. */
  predicate Valid(c: TrainCar) {
    c.currentLoad <= c.maxCognitiveCapacity && c.currentLoad as nat == CargoWeight(c.cargo)
  }

  /** `TrainCar::new`: empty, unlocked at 80% mastery, no prerequisite. */
  function New(id: nat, objective: string, capacity: U8): (c: TrainCar)
    ensures Valid(c)
    ensures c.id == id && c.learningObjective == objective && c.maxCognitiveCapacity == capacity
    ensures c.currentLoad == 0 && c.cargo == [] && c.prerequisiteCarId == None
    ensures c.masteryThreshold == 0.8
  {
    TrainCar(id, objective, capacity, 0, [], None, 0.8)
  }

  function OverloadMessage(c: TrainCar, w: WordDefinition): string {
    "Cargo Overload: Adding '" + w.word + "' (Weight: " + Text.NatToString(w.weight as nat)
    + ") would exceed capacity (" + Text.NatToString(c.currentLoad as nat) + "/"
    + Text.NatToString(c.maxCognitiveCapacity as nat) + ")"
  }

  /** `add_cargo` as written: the sum `current_load + weight` is taken in
      `u8`, which a release build wraps modulo 256, and so is the new load. */
  function AddCargoAsWritten(c: TrainCar, w: WordDefinition): (r: (TrainCar, Result<()>))
    ensures r.1.Err? <==> WrappingAdd(c.currentLoad, w.weight) > c.maxCognitiveCapacity
    ensures r.1.Err? ==> r.0 == c && r.1.error == OverloadMessage(c, w)
    ensures r.1.Ok? ==> && r.0.currentLoad == WrappingAdd(c.currentLoad, w.weight)
                        && r.0.cargo == c.cargo + [w]
                        && r.0 == c.(currentLoad := r.0.currentLoad, cargo := r.0.cargo)
  {
    if WrappingAdd(c.currentLoad, w.weight) > c.maxCognitiveCapacity then (c, Err(OverloadMessage(c, w)))
    else (c.(currentLoad := WrappingAdd(c.currentLoad, w.weight), cargo := c.cargo + [w]), Ok(()))
  }

  /** `add_cargo` with the sum compared in unbounded integers: the cargo is
      refused exactly when it would take the load past the capacity, and
      the car is then unchanged; otherwise the load grows by the weight and
      the word goes at the end of the cargo. */
  function AddCargo(c: TrainCar, w: WordDefinition): (r: (TrainCar, Result<()>))
    ensures r.1.Err? <==> c.currentLoad as int + w.weight as int > c.maxCognitiveCapacity as int
    ensures r.1.Err? ==> r.0 == c && r.1.error == OverloadMessage(c, w)
    ensures r.1.Ok? ==> && r.0.currentLoad as int == c.currentLoad as int + w.weight as int
                        && r.0.cargo == c.cargo + [w]
                        && r.0 == c.(currentLoad := r.0.currentLoad, cargo := r.0.cargo)
  {
    if c.currentLoad as int + w.weight as int > c.maxCognitiveCapacity as int then (c, Err(OverloadMessage(c, w)))
    else (c.(currentLoad := c.currentLoad + w.weight, cargo := c.cargo + [w]), Ok(()))
  }

  /** Adding cargo keeps the car's invariant, whether it is accepted or not. */
  lemma AddCargoValid(c: TrainCar, w: WordDefinition)
    requires Valid(c)
    ensures Valid(AddCargo(c, w).0)
  {
    var r := AddCargo(c, w);
    if r.1.Ok? {
      assert r.0.cargo[..|r.0.cargo| - 1] == c.cargo;
    }
  }

  /** Without wrap-around the two versions agree. */
  lemma AddCargoAgreesBelowWrap(c: TrainCar, w: WordDefinition)
    requires c.currentLoad as int + w.weight as int < 256
    ensures AddCargoAsWritten(c, w) == AddCargo(c, w)
  {
  }

  /** A car at load 200 of capacity 250 accepts a word of weight 100 as
      written: the sum wraps to 44, which passes the check and becomes the
      new load, so the car carries 300 units while reporting 44. */
  lemma OverflowAcceptsOverload(id: nat, w: WordDefinition)
    requires w.weight == 100
    ensures var c := TrainCar(id, "", 250, 200, [WordDefinition("", 200, Tier3, [])], None, 0.8);
      && Valid(c)
      && var r := AddCargoAsWritten(c, w);
      && r.1.Ok?
      && r.0.currentLoad == 44
      && !Valid(r.0)
      && AddCargo(c, w).1.Err?
  {
    var c := TrainCar(id, "", 250, 200, [WordDefinition("", 200, Tier3, [])], None, 0.8);
    assert CargoWeight(c.cargo) == 200;
    var r := AddCargoAsWritten(c, w);
    assert r.0.cargo[..1] == c.cargo;
    assert CargoWeight(r.0.cargo) == 300;
  }

  /** The source's test: a capacity-10 car takes a weight-5 word, refuses a
      weight-50 word, and keeps load 5, as written and corrected alike. */
  lemma CapacityExample(id: nat)
    ensures var car := New(id, "Test Objective", 10);
      var (car1, r1) := AddCargoAsWritten(car, WordDefinition("Cat", 5, Tier1, []));
      var (car2, r2) := AddCargoAsWritten(car1, WordDefinition("Photosynthesis", 50, Tier3, []));
      && r1.Ok? && car1.currentLoad == 5
      && r2.Err? && car2.currentLoad == 5
    ensures var car := New(id, "Test Objective", 10);
      var (car1, r1) := AddCargo(car, WordDefinition("Cat", 5, Tier1, []));
      var (car2, r2) := AddCargo(car1, WordDefinition("Photosynthesis", 50, Tier3, []));
      && r1.Ok? && car1.currentLoad == 5
      && r2.Err? && car2.currentLoad == 5
  {
  }
}

=== FILE: seqs.dfy ===
/** Sequence helpers used across the model: suffixes, filtering, sums and
    duplicate-freedom. */
module Seqs {

  /** The last `min(k, |s|)` elements of `s`, in their original order: the
      Rust idiom `s.iter().rev().take(k).rev()`. */
  function LastN<T>(s: seq<T>, k: nat): (r: seq<T>)
    ensures |r| == if k < |s| then k else |s|
    ensures r == s[|s| - |r|..]
  {
    if k < |s| then s[|s| - k..] else s
  }

  /** `Vec::retain` / `iter().filter()`: keep the elements satisfying `p`. */
  function Filter<T(!new)>(p: T -> bool, s: seq<T>): (r: seq<T>)
    ensures |r| <= |s|
    ensures forall x :: x in r <==> x in s && p(x)
  {
    if s == [] then []
    else (if p(s[0]) then [s[0]] else []) + Filter(p, s[1..])
  }

  /** Concatenation regroups freely. */
  lemma AppendAssoc<T>(a: seq<T>, b: seq<T>, c: seq<T>)
    ensures (a + b) + c == a + (b + c)
  {
  }

  /** Moving the head of what remains to the end of what is done keeps
      the whole. */
  lemma AppendStep<T>(done: seq<T>, x: T, rest: seq<T>, tail: seq<T>, whole: seq<T>, done': seq<T>)
    requires done + rest == whole && rest == [x] + tail
    requires done' == done + [x]
    ensures done' + tail == whole
  {
    AppendAssoc(done, [x], tail);
  }

  /** A non-empty sequence is its head in front of its tail. */
  lemma HeadTail<T>(s: seq<T>)
    requires s != []
    ensures s == [s[0]] + s[1..]
  {
  }

  /** Filtering keeps a sequence whose every element passes. */
  lemma {:induction false} FilterAllPass<T(!new)>(p: T -> bool, s: seq<T>)
    requires forall i :: 0 <= i < |s| ==> p(s[i])
    ensures Filter(p, s) == s
  {
    if s != [] {
      FilterAllPass(p, s[1..]);
    }
  }

  /** Filtering distributes over concatenation, so it keeps relative order. */
  lemma {:induction false} FilterAppend<T(!new)>(p: T -> bool, a: seq<T>, b: seq<T>)
    ensures Filter(p, a + b) == Filter(p, a) + Filter(p, b)
  {
    if a == [] {
      assert a + b == b;
    } else {
      assert (a + b)[1..] == a[1..] + b;
      FilterAppend(p, a[1..], b);
    }
  }

  /** Filtering keeps elements whose keys are pairwise different so. */
  lemma {:induction false} FilterKeepsKeysDistinct<T(!new), K>(p: T -> bool, key: T -> K, s: seq<T>)
    requires forall i, j :: 0 <= i < j < |s| ==> key(s[i]) != key(s[j])
    ensures forall i, j :: 0 <= i < j < |Filter(p, s)| ==> key(Filter(p, s)[i]) != key(Filter(p, s)[j])
  {
    if s != [] {
      assert forall i, j :: 0 <= i < j < |s[1..]| ==> key(s[1..][i]) != key(s[1..][j]) by {
        forall i, j | 0 <= i < j < |s[1..]|
          ensures key(s[1..][i]) != key(s[1..][j])
        {
          assert s[1..][i] == s[i + 1] && s[1..][j] == s[j + 1];
        }
      }
      FilterKeepsKeysDistinct(p, key, s[1..]);
      var rest := Filter(p, s[1..]);
      var r := Filter(p, s);
      if p(s[0]) {
        assert r == [s[0]] + rest;
        forall i, j | 0 <= i < j < |r|
          ensures key(r[i]) != key(r[j])
        {
          assert r[j] == rest[j - 1];
          if i == 0 {
            assert rest[j - 1] in s[1..];
            var k :| 0 <= k < |s| - 1 && s[1..][k] == rest[j - 1];
            assert s[k + 1] == r[j];
            assert key(s[0]) != key(s[k + 1]);
          } else {
            assert r[i] == rest[i - 1];
          }
        }
      } else {
        assert r == [] + rest;
        assert r == rest;
      }
    }
  }

  ghost predicate Distinct<T>(s: seq<T>) {
    forall i, j :: 0 <= i < j < |s| ==> s[i] != s[j]
  }

  /** Removing one value from a duplicate-free sequence leaves it
      duplicate-free, and shortens it by one exactly when the value was there. */
  lemma {:induction false} FilterOutDistinct<T(!new)>(s: seq<T>, k: T)
    requires Distinct(s)
    ensures Distinct(Filter(x => x != k, s))
    ensures |Filter(x => x != k, s)| == if k in s then |s| - 1 else |s|
  {
    if s != [] {
      assert Distinct(s[1..]);
      FilterOutDistinct(s[1..], k);
      var rest := Filter(x => x != k, s[1..]);
      if s[0] != k {
        var r := [s[0]] + rest;
        assert s[0] !in s[1..];
        assert s[0] !in rest;
        forall i, j | 0 <= i < j < |r| ensures r[i] != r[j] {
          if i == 0 {
            assert r[j] in rest;
          }
        }
      } else {
        assert k !in s[1..];
      }
    }
  }

  /** A duplicate-free sequence has as many distinct elements as entries. */
  lemma {:induction false} DistinctCardinality<T>(s: seq<T>)
    requires Distinct(s)
    ensures |set x | x in s| == |s|
  {
    if s != [] {
      assert Distinct(s[1..]);
      DistinctCardinality(s[1..]);
      var rest := set x | x in s[1..];
      assert s[0] !in rest;
      assert (set x | x in s) == {s[0]} + rest;
    }
  }
}

=== FILE: socratic_engine.dfy ===
/** The Socratic dialogue engine: records the learner's turn, reads the
    recent history, picks a questioning strategy, produces a reply and
    records it.

    Text generation is not modelled: the source returns a fixed placeholder
    question when a model is loaded and a fixed fallback otherwise, and so
    does `Respond`. Fresh turn ids and timestamps are parameters. */
module SocraticEngine {
  import opened Wrappers
  import Text
  import CM = ConversationMemory
  import Prompts

  /** `SocraticResponse`. */
  datatype Reply = Reply(text: string, strategy: Prompts.Strategy)

  /** `SocraticEngine`: whether a language model is loaded, and the memory. */
  datatype Engine = Engine(modelLoaded: bool, memory: CM.Memory)

  ghost predicate Valid(e: Engine) {
    CM.Valid(e.memory)
  }

  /** `SocraticEngine::new`: no model yet. */
  function New(memory: CM.Memory): (e: Engine)
    requires CM.Valid(memory)
    ensures Valid(e) && !e.modelLoaded && e.memory == memory
  {
    Engine(false, memory)
  }

  const PlaceholderReply: string :=
    "This is a placeholder Socratic question. What do you think about that?"
  const FallbackReply: string := "I'm listening. Can you tell me more about that?"

  /** The unprocessed reply: the placeholder with a model, the fallback
      without. */
  function RawReply(modelLoaded: bool): string {
    if modelLoaded then PlaceholderReply else FallbackReply
  }

  /** `post_process_response`: trim, then add a question mark unless the
      text is empty or already ends with one. */
  function PostProcess(response: string): (r: string)
    ensures r == [] <==> Text.AllSpace(response)
    ensures r != [] ==> r[|r| - 1] == '?'
    ensures Text.StartsWith(r, Text.Trim(response)) && |r| <= |Text.Trim(response)| + 1
    ensures Text.EndsWith(Text.Trim(response), "?") ==> r == Text.Trim(response)
  {
    var t := Text.Trim(response);
    if t != [] && !Text.EndsWith(t, "?") then
      var q := t + "?";
      assert q[..|t|] == t && q[|q| - 1] == '?';
      q
    else
      assert t[..|t|] == t;
      t
  }

  /** A trimmed question is left as it is. */
  lemma PostProcessKeepsQuestion(s: string)
    requires Text.IsTrimmed(s)
    requires s != [] && s[|s| - 1] == '?'
    ensures PostProcess(s) == s
  {
    Text.TrimTrimmed(s);
    assert s[|s| - 1..] == "?";
  }

  /** Post-processing twice is post-processing once. */
  lemma PostProcessIdempotent(s: string)
    ensures PostProcess(PostProcess(s)) == PostProcess(s)
  {
    PostProcessTrimmed(s);
    var r := PostProcess(s);
    if r != [] {
      PostProcessKeepsQuestion(r);
    }
  }

  /** The reply starts where the trimmed text starts and ends with its
      question mark, so it has no surrounding whitespace. */
  lemma PostProcessTrimmed(s: string)
    ensures Text.IsTrimmed(PostProcess(s))
  {
    var r := PostProcess(s);
    if r != [] {
      var t := Text.Trim(s);
      assert r[0] == t[0];
      assert r[|r| - 1] == '?';
    }
  }

  /** The learner's turn as `respond` builds it: default metadata, so that
      the memory computes it from the content. */
  function LearnerTurn(id: CM.Uuid, time: nat, input: string): CM.Turn {
    CM.Turn(id, time, CM.User, input, CM.DefaultMetadata)
  }

  function GuideTurn(id: CM.Uuid, time: nat, text: string): CM.Turn {
    CM.Turn(id, time, CM.AI, text, CM.DefaultMetadata)
  }

  /** `respond`: add the learner's turn (a failed write ends the exchange),
      read the last 10 turns (a failed read ends it), select the strategy
      with `select_strategy` as written, produce and post-process the reply,
      add the guide's turn (a failed write ends it) and return the reply
      with its strategy. The cache keeps
      every turn added before a failure: once the learner's write passes,
      both turns are cached in order, whatever the guide's write does. The
      prompt the source builds from the strategy, input, history and context
      (`Prompts.BuildPrompt`) only feeds the generation step, which returns
      fixed text, so it is not computed here. */
  function Respond(e: Engine, store: CM.Store, input: string, ctx: Prompts.SessionContext,
                   learnerId: CM.Uuid, learnerTime: nat, guideId: CM.Uuid, guideTime: nat)
    : (r: (Engine, Result<Reply>))
    requires Valid(e)
    requires learnerId != CM.NilUuid && guideId != CM.NilUuid
    ensures Valid(r.0) && r.0.modelLoaded == e.modelLoaded
    ensures store.persist(ctx.sessionId, StoredLearnerTurn(input, learnerId, learnerTime)).Pass? ==>
              CM.Cached(r.0.memory, ctx.sessionId)
                == CM.Cached(e.memory, ctx.sessionId)
                   + [StoredLearnerTurn(input, learnerId, learnerTime)]
                   + [StoredGuideTurn(e.modelLoaded, guideId, guideTime)]
  {
    var session := ctx.sessionId;
    var (m1, o1) := CM.AddTurn(e.memory, store, session, LearnerTurn(learnerId, learnerTime, input), learnerId);
    if o1.Fail? then (e.(memory := m1), Err(o1.error))
    else Answer(e, m1, store, input, session, guideId, guideTime)
  }

  /** The rest of `respond` once the learner's turn is written: read the
      history (a failed read ends the exchange), select the strategy with
      `select_strategy` as written (so "now i see" is not a breakthrough),
      produce and post-process the reply, and add the guide's turn (a
      failed write ends the exchange, the turn staying cached). */
  function Answer(e: Engine, m1: CM.Memory, store: CM.Store, input: string, session: CM.Uuid,
                  guideId: CM.Uuid, guideTime: nat): (r: (Engine, Result<Reply>))
    requires CM.Valid(m1)
    requires guideId != CM.NilUuid
    ensures Valid(r.0) && r.0.modelLoaded == e.modelLoaded
    ensures session in m1.cache.entries ==>
              CM.Cached(r.0.memory, session)
                == CM.Cached(m1, session) + [StoredGuideTurn(e.modelLoaded, guideId, guideTime)]
  {
    var (m2, history) := CM.GetRecent(m1, store, session, 10);
    match history
    case Err(err) => (e.(memory := m2), Err(err))
    case Ok(turns) =>
      var strategy := Prompts.SelectStrategyAsWritten(input, turns);
      var text := PostProcess(RawReply(e.modelLoaded));
      var (m3, o3) := CM.AddTurn(m2, store, session, GuideTurn(guideId, guideTime, text), guideId);
      if o3.Fail? then (e.(memory := m3), Err(o3.error))
      else (e.(memory := m3), Ok(Reply(text, strategy)))
  }

  /** With the session cached, the history read cannot fail: the exchange
      succeeds exactly when the guide's write passes, and answers the
      post-processed fixed reply with the strategy `select_strategy` as
      written chooses from the input alone. */
  lemma AnswerOutcome(e: Engine, m1: CM.Memory, store: CM.Store, input: string, session: CM.Uuid,
                      guideId: CM.Uuid, guideTime: nat)
    requires CM.Valid(m1)
    requires guideId != CM.NilUuid
    requires session in m1.cache.entries
    ensures var r := Answer(e, m1, store, input, session, guideId, guideTime).1;
      && (r.Ok? <==> store.persist(session, StoredGuideTurn(e.modelLoaded, guideId, guideTime)).Pass?)
      && (r.Ok? ==> r.value == Reply(PostProcess(RawReply(e.modelLoaded)), Prompts.SelectStrategyAsWritten(input, [])))
  {
    var (m2, history) := CM.GetRecent(m1, store, session, 10);
    assert history.Ok?;
    var strategy := Prompts.SelectStrategyAsWritten(input, history.value);
    var text := PostProcess(RawReply(e.modelLoaded));
    var o3 := CM.AddTurn(m2, store, session, GuideTurn(guideId, guideTime, text), guideId).1;
    assert Answer(e, m1, store, input, session, guideId, guideTime).1
             == if o3.Fail? then Err(o3.error) else Ok(Reply(text, strategy));
  }

  /** The learner's turn as the memory stores it. */
  function StoredLearnerTurn(input: string, learnerId: CM.Uuid, learnerTime: nat): CM.Turn
    requires learnerId != CM.NilUuid
  {
    CM.PrepareTurn(LearnerTurn(learnerId, learnerTime, input), learnerId)
  }

  /** The guide's turn as the memory stores it. */
  function StoredGuideTurn(modelLoaded: bool, guideId: CM.Uuid, guideTime: nat): CM.Turn
    requires guideId != CM.NilUuid
  {
    CM.PrepareTurn(GuideTurn(guideId, guideTime, PostProcess(RawReply(modelLoaded))), guideId)
  }

  /** A failed write of the learner's turn ends the exchange with that
      error; the turn stays cached. */
  lemma RespondLearnerWriteFails(e: Engine, store: CM.Store, input: string, ctx: Prompts.SessionContext,
                                 learnerId: CM.Uuid, learnerTime: nat, guideId: CM.Uuid, guideTime: nat)
    requires Valid(e)
    requires learnerId != CM.NilUuid && guideId != CM.NilUuid
    requires store.persist(ctx.sessionId, StoredLearnerTurn(input, learnerId, learnerTime)).Fail?
    ensures var r := Respond(e, store, input, ctx, learnerId, learnerTime, guideId, guideTime);
      && r.1 == Err(store.persist(ctx.sessionId, StoredLearnerTurn(input, learnerId, learnerTime)).error)
      && CM.Cached(r.0.memory, ctx.sessionId)
           == CM.Cached(e.memory, ctx.sessionId) + [StoredLearnerTurn(input, learnerId, learnerTime)]
  {
  }

  /** Once the learner's write passes, the exchange succeeds exactly when
      the guide's write passes too, and then answers the post-processed
      fixed reply with the strategy chosen from the input alone. */
  lemma RespondAnswers(e: Engine, store: CM.Store, input: string, ctx: Prompts.SessionContext,
                       learnerId: CM.Uuid, learnerTime: nat, guideId: CM.Uuid, guideTime: nat)
    requires Valid(e)
    requires learnerId != CM.NilUuid && guideId != CM.NilUuid
    requires store.persist(ctx.sessionId, StoredLearnerTurn(input, learnerId, learnerTime)).Pass?
    ensures var r := Respond(e, store, input, ctx, learnerId, learnerTime, guideId, guideTime).1;
      && (r.Ok? <==> store.persist(ctx.sessionId, StoredGuideTurn(e.modelLoaded, guideId, guideTime)).Pass?)
      && (r.Ok? ==> r.value == Reply(PostProcess(RawReply(e.modelLoaded)), Prompts.SelectStrategyAsWritten(input, [])))
  {
    var (m1, o1) := CM.AddTurn(e.memory, store, ctx.sessionId, LearnerTurn(learnerId, learnerTime, input), learnerId);
    assert o1.Pass?;
    assert Respond(e, store, input, ctx, learnerId, learnerTime, guideId, guideTime)
             == Answer(e, m1, store, input, ctx.sessionId, guideId, guideTime);
    AnswerOutcome(e, m1, store, input, ctx.sessionId, guideId, guideTime);
  }

  /** Both fixed replies come out of post-processing as questions. */
  lemma RawReplyBecomesQuestion(modelLoaded: bool)
    ensures var t := PostProcess(RawReply(modelLoaded)); t != [] && t[|t| - 1] == '?'
  {
    var raw := RawReply(modelLoaded);
    assert raw[|raw| - 1] == '?';
    assert !Text.AllSpace(raw);
  }

  /** Every successful reply is a question. */
  lemma ReplyIsQuestion(e: Engine, store: CM.Store, input: string, ctx: Prompts.SessionContext,
                        learnerId: CM.Uuid, learnerTime: nat, guideId: CM.Uuid, guideTime: nat)
    requires Valid(e)
    requires learnerId != CM.NilUuid && guideId != CM.NilUuid
    ensures var r := Respond(e, store, input, ctx, learnerId, learnerTime, guideId, guideTime).1;
      r.Ok? ==> r.value.text != [] && r.value.text[|r.value.text| - 1] == '?'
  {
    var r := Respond(e, store, input, ctx, learnerId, learnerTime, guideId, guideTime).1;
    var t := PostProcess(RawReply(e.modelLoaded));
    RawReplyBecomesQuestion(e.modelLoaded);
    if store.persist(ctx.sessionId, StoredLearnerTurn(input, learnerId, learnerTime)).Pass? {
      RespondAnswers(e, store, input, ctx, learnerId, learnerTime, guideId, guideTime);
      assert r.Ok? ==> r.value.text == t;
    } else {
      RespondLearnerWriteFails(e, store, input, ctx, learnerId, learnerTime, guideId, guideTime);
      assert r.Err?;
    }
  }

  /** With the shipped store every exchange succeeds and adds two turns. */
  lemma StubExchangeSucceeds(e: Engine, input: string, ctx: Prompts.SessionContext,
                             learnerId: CM.Uuid, learnerTime: nat, guideId: CM.Uuid, guideTime: nat)
    requires Valid(e)
    requires learnerId != CM.NilUuid && guideId != CM.NilUuid
    ensures var r := Respond(e, CM.StubStore, input, ctx, learnerId, learnerTime, guideId, guideTime);
      && r.1.Ok?
      && |CM.Cached(r.0.memory, ctx.sessionId)| == |CM.Cached(e.memory, ctx.sessionId)| + 2
  {
    RespondAnswers(e, CM.StubStore, input, ctx, learnerId, learnerTime, guideId, guideTime);
  }
}

=== FILE: text.dfy ===
/** Rust string primitives the source relies on, over `string` (a sequence of
    Unicode scalar values): `split_whitespace`, `trim`, `to_lowercase`,
    `contains`, `starts_with`/`ends_with`, `join` and the UTF-8 byte length
    `len()`. */
module Text {
  import Seqs

  /** The Unicode White_Space property, which both `split_whitespace` and
      `trim` use. */
  predicate IsSpace(c: char) {
    || c == ' '
    || ('\t' <= c <= '\r')
    || c == '\U{85}' || c == '\U{A0}' || c == '\U{1680}'
    || ('\U{2000}' <= c <= '\U{200A}')
    || c == '\U{2028}' || c == '\U{2029}' || c == '\U{202F}'
    || c == '\U{205F}' || c == '\U{3000}'
  }

  predicate AllSpace(s: string) {
    forall i :: 0 <= i < |s| ==> IsSpace(s[i])
  }

  /** A token of `split_whitespace`: non-empty, with no whitespace. */
  predicate IsWord(w: string) {
    |w| > 0 && forall i :: 0 <= i < |w| ==> !IsSpace(w[i])
  }

  /** `trim_start`: drop the leading whitespace. */
  function TrimStart(s: string): (r: string)
    ensures |r| <= |s|
    ensures r == s[|s| - |r|..]
    ensures r == [] || !IsSpace(r[0])
  {
    if s != [] && IsSpace(s[0]) then TrimStart(s[1..]) else s
  }

  /** What `trim_start` drops is whitespace. */
  lemma {:induction false} TrimStartDropsSpace(s: string)
    ensures forall k :: 0 <= k < |s| - |TrimStart(s)| ==> IsSpace(s[k])
  {
    if s != [] && IsSpace(s[0]) {
      var t := s[1..];
      TrimStartDropsSpace(t);
      assert |TrimStart(s)| == |TrimStart(t)|;
      forall k | 1 <= k < |s| - |TrimStart(s)|
        ensures IsSpace(s[k])
      {
        assert k - 1 < |t| - |TrimStart(t)|;
        assert s[k] == t[k - 1];
      }
    }
  }

  /** `trim_end`: drop the trailing whitespace. */
  function TrimEnd(s: string): (r: string)
    ensures |r| <= |s|
    ensures r == s[..|r|]
    ensures r == [] || !IsSpace(r[|r| - 1])
  {
    if s != [] && IsSpace(s[|s| - 1]) then TrimEnd(s[..|s| - 1]) else s
  }

  /** What `trim_end` drops is whitespace. */
  lemma {:induction false} TrimEndDropsSpace(s: string)
    ensures AllSpace(s[|TrimEnd(s)|..])
  {
    if s != [] && IsSpace(s[|s| - 1]) {
      var p := s[..|s| - 1];
      TrimEndDropsSpace(p);
      assert s[|TrimEnd(s)|..] == p[|TrimEnd(p)|..] + [s[|s| - 1]];
    }
  }

  predicate IsTrimmed(s: string) {
    s == [] || (!IsSpace(s[0]) && !IsSpace(s[|s| - 1]))
  }

  /** `r` occurs in `s` at `a` with only whitespace around it. */
  predicate Between(s: string, r: string, a: nat) {
    a <= |s| - |r| && OccursAt(s, r, a) && AllSpace(s[..a]) && AllSpace(s[a + |r|..])
  }

  /** `trim`: the slice of `s` between its leading and trailing whitespace. */
  function Trim(s: string): (r: string)
    ensures IsTrimmed(r)
    ensures exists a :: Between(s, r, a)
    ensures r == [] <==> AllSpace(s)
  {
    TrimSlice(s);
    TrimStart(TrimEnd(s))
  }

  /** `r`, cut from `e`, which is cut from `s`, is what lies between the
      leading and trailing whitespace of `s`. */
  predicate TrimmedFrom(s: string, e: string, r: string) {
    && |r| <= |e|
    && Between(s, r, |e| - |r|)
    && (r == [] <==> AllSpace(s))
  }

  lemma TrimSlice(s: string)
    ensures TrimmedFrom(s, TrimEnd(s), TrimStart(TrimEnd(s)))
  {
    var e := TrimEnd(s);
    var r := TrimStart(e);
    TrimStartDropsSpace(e);
    TrimEndDropsSpace(s);
    TrimSliceOf(s, e, r);
  }

  /** A suffix `r` of a prefix `e` of `s`, where both cuts drop only
      whitespace and `r` starts with non-whitespace, lies between
      whitespace and is empty only when `s` is all whitespace. */
  lemma TrimSliceOf(s: string, e: string, r: string)
    requires |r| <= |e| <= |s|
    requires e == s[..|e|] && r == e[|e| - |r|..]
    requires forall k :: 0 <= k < |e| - |r| ==> IsSpace(e[k])
    requires AllSpace(s[|e|..])
    requires r == [] || !IsSpace(r[0])
    ensures TrimmedFrom(s, e, r)
  {
    var a := |e| - |r|;
    assert s[a + |r|..] == s[|e|..];
    TrimSliceOccurs(s, e, r);
    TrimSliceSpaces(s, e, r);
    TrimSliceEmpty(s, a, r);
  }

  /** A suffix of a prefix is a slice. */
  lemma TrimSliceOccurs(s: string, e: string, r: string)
    requires |r| <= |e| <= |s|
    requires e == s[..|e|] && r == e[|e| - |r|..]
    ensures OccursAt(s, r, |e| - |r|)
  {
    var a := |e| - |r|;
    assert r == s[a..a + |r|];
  }

  /** What lies before a suffix of a prefix is whitespace when the suffix
      drops only whitespace from the prefix. */
  lemma TrimSliceSpaces(s: string, e: string, r: string)
    requires |r| <= |e| <= |s|
    requires e == s[..|e|]
    requires forall k :: 0 <= k < |e| - |r| ==> IsSpace(e[k])
    ensures AllSpace(s[..|e| - |r|])
  {
    var p := s[..|e| - |r|];
    forall k | 0 <= k < |p|
      ensures IsSpace(p[k])
    {
      assert p[k] == e[k];
    }
  }

  /** Around a slice between whitespace, the slice is empty exactly when
      the whole text is whitespace. */
  lemma TrimSliceEmpty(s: string, a: nat, r: string)
    requires OccursAt(s, r, a) && AllSpace(s[..a]) && AllSpace(s[a + |r|..])
    requires r == [] || !IsSpace(r[0])
    ensures r == [] <==> AllSpace(s)
  {
    if r == [] {
      forall i | 0 <= i < |s|
        ensures IsSpace(s[i])
      {
        if i < a {
          assert s[i] == s[..a][i];
        } else {
          assert s[i] == s[a..][i - a];
        }
      }
    } else {
      assert s[a] == s[a..a + |r|][0];
    }
  }

  /** Text that is already trimmed is its own trim. */
  lemma TrimTrimmed(s: string)
    requires IsTrimmed(s)
    ensures Trim(s) == s
  {
  }

  /** Trailing whitespace after text that ends in a non-space is exactly
      what `trim_end` drops. */
  lemma {:induction false} TrimEndPadded(p: string, y: string)
    requires p == [] || !IsSpace(p[|p| - 1])
    requires AllSpace(y)
    ensures TrimEnd(p + y) == p
    decreases |y|
  {
    if y == [] {
      assert p + y == p;
    } else {
      var y' := y[..|y| - 1];
      assert (p + y)[..|p + y| - 1] == p + y';
      TrimEndPadded(p, y');
    }
  }

  /** Leading whitespace before text that starts with a non-space is
      exactly what `trim_start` drops. */
  lemma {:induction false} TrimStartPadded(x: string, q: string)
    requires q == [] || !IsSpace(q[0])
    requires AllSpace(x)
    ensures TrimStart(x + q) == q
    decreases |x|
  {
    if x == [] {
      assert x + q == q;
    } else {
      assert (x + q)[1..] == x[1..] + q;
      TrimStartPadded(x[1..], q);
    }
  }

  /** Trimming whitespace-padded trimmed text gives the text back. */
  lemma TrimPadded(x: string, b: string, y: string)
    requires AllSpace(x) && AllSpace(y) && IsTrimmed(b)
    ensures Trim(x + b + y) == b
  {
    if b == [] {
      assert AllSpace(x + b + y);
    } else {
      assert (x + b)[|x + b| - 1] == b[|b| - 1];
      TrimEndPadded(x + b, y);
      TrimStartPadded(x, b);
    }
  }

  /** `x` is some number of copies of `p`, end to end. */
  predicate Copies(x: string, p: string)
    requires p != []
    decreases |x|
  {
    x == [] || (StartsWith(x, p) && Copies(x[|p|..], p))
  }

  /** `trim_start_matches(p)`: drop every leading copy of `p`. */
  function TrimStartMatches(s: string, p: string): (r: string)
    requires p != []
    ensures |r| <= |s| && r == s[|s| - |r|..]
    ensures !StartsWith(r, p)
    ensures Copies(s[..|s| - |r|], p)
    decreases |s|
  {
    if StartsWith(s, p) then
      var r := TrimStartMatches(s[|p|..], p);
      var x := s[..|s| - |r|];
      assert x[..|p|] == p && x[|p|..] == s[|p|..][..|s| - |p| - |r|];
      r
    else
      assert s[..|s| - |s|] == [];
      s
  }

  /** `trim_end_matches(p)`: drop every trailing copy of `p`. */
  function TrimEndMatches(s: string, p: string): (r: string)
    requires p != []
    ensures |r| <= |s| && r == s[..|r|]
    ensures !EndsWith(r, p)
    decreases |s|
  {
    if EndsWith(s, p) then TrimEndMatches(s[..|s| - |p|], p) else s
  }

  /** `split_whitespace`: the maximal runs of non-whitespace characters, in
      order. */
  function Words(s: string): (ws: seq<string>)
    ensures forall i :: 0 <= i < |ws| ==> IsWord(ws[i])
    decreases |s|
  {
    var t := TrimStart(s);
    if t == [] then []
    else
      var w := WordPrefix(t);
      var rest := Words(t[|w|..]);
      WordsCons(w, rest);
      [w] + rest
  }

  /** A word in front of words gives words. */
  lemma WordsCons(w: string, rest: seq<string>)
    requires |w| > 0 && forall i :: 0 <= i < |w| ==> !IsSpace(w[i])
    requires forall i :: 0 <= i < |rest| ==> IsWord(rest[i])
    ensures forall i :: 0 <= i < |[w] + rest| ==> IsWord(([w] + rest)[i])
  {
    forall i | 0 <= i < |[w] + rest|
      ensures IsWord(([w] + rest)[i])
    {
      if i > 0 {
        assert ([w] + rest)[i] == rest[i - 1];
      }
    }
  }

  /** The longest whitespace-free prefix of `s`. */
  function WordPrefix(s: string): (w: string)
    ensures |w| <= |s|
    ensures w == s[..|w|]
    ensures forall i :: 0 <= i < |w| ==> !IsSpace(w[i])
    ensures s != [] && !IsSpace(s[0]) ==> |w| > 0
  {
    if s != [] && !IsSpace(s[0]) then [s[0]] + WordPrefix(s[1..]) else []
  }

  /** `slice.join(sep)`. */
  function Join(ws: seq<string>, sep: string): string
  {
    if |ws| == 0 then ""
    else if |ws| == 1 then ws[0]
    else ws[0] + sep + Join(ws[1..], sep)
  }

  /** The first element, the separator, then the rest joined. */
  lemma JoinCons(ws: seq<string>, sep: string)
    requires |ws| > 1
    ensures Join(ws, sep) == ws[0] + (sep + Join(ws[1..], sep))
  {
  }

  lemma {:induction false} WordPrefixOfWord(w: string, rest: string)
    requires IsWord(w)
    requires rest == [] || IsSpace(rest[0])
    ensures WordPrefix(w + rest) == w
  {
    if |w| > 1 {
      assert (w + rest)[1..] == w[1..] + rest;
      WordPrefixOfWord(w[1..], rest);
    } else {
      assert (w + rest)[1..] == rest;
    }
  }

  /** Leading whitespace does not change the words. */
  lemma WordsSkipSpace(c: char, x: string)
    requires IsSpace(c)
    ensures Words([c] + x) == Words(x)
  {
    assert ([c] + x)[1..] == x;
    assert TrimStart([c] + x) == TrimStart(x);
  }

  /** A word followed by nothing or by whitespace is the first word. */
  lemma WordsOfWordThen(w: string, rest: string)
    requires IsWord(w)
    requires rest == [] || IsSpace(rest[0])
    ensures Words(w + rest) == [w] + Words(rest)
  {
    var s := w + rest;
    assert s[0] == w[0];
    assert TrimStart(s) == s;
    WordPrefixOfWord(w, rest);
    assert s[|w|..] == rest;
  }

  /** A single word splits into itself. */
  lemma WordsOfWord(w: string)
    requires IsWord(w)
    ensures Words(w) == [w]
  {
    WordsOfWordThen(w, []);
    assert w + [] == w;
    assert TrimStart([]) == [];
  }

  /** A word, a space and more text split into the word and the words of
      the text. */
  lemma WordsOfWordSpace(w: string, rest: string)
    requires IsWord(w)
    ensures Words(w + (" " + rest)) == [w] + Words(rest)
  {
    WordsOfWordThen(w, " " + rest);
    WordsSkipSpace(' ', rest);
  }

  /** Joining whitespace-free words with single spaces and splitting the
      result on whitespace gives the words back. */
  lemma {:induction false} WordsOfJoin(ws: seq<string>)
    requires forall i :: 0 <= i < |ws| ==> IsWord(ws[i])
    ensures Words(Join(ws, " ")) == ws
  {
    if ws == [] {
      assert TrimStart(Join(ws, " ")) == [];
    } else if |ws| == 1 {
      WordsOfWord(ws[0]);
    } else {
      assert forall i :: 0 <= i < |ws| - 1 ==> ws[1..][i] == ws[i + 1];
      WordsOfJoin(ws[1..]);
      JoinCons(ws, " ");
      WordsOfWordSpace(ws[0], Join(ws[1..], " "));
      Seqs.HeadTail(ws);
    }
  }

  /** The number of whitespace-separated tokens, `split_whitespace().count()`. */
  function WordCount(s: string): nat {
    |Words(s)|
  }

  /** ASCII case mapping of `to_lowercase` for one character. */
  function LowerChar(c: char): (r: char)
    ensures !('A' <= r <= 'Z')
  {
    if 'A' <= c <= 'Z' then (c as int + 32) as char else c
  }

  /** `to_lowercase`, restricted to the ASCII letters. */
  function ToLower(s: string): (r: string)
    ensures |r| == |s|
    ensures forall i :: 0 <= i < |r| ==> r[i] == LowerChar(s[i])
  {
    if s == [] then [] else [LowerChar(s[0])] + ToLower(s[1..])
  }

  /** No ASCII capital letter occurs in `s`. */
  predicate NoUpper(s: string) {
    forall i :: 0 <= i < |s| ==> !('A' <= s[i] <= 'Z')
  }

  /** Lowercasing changes nothing in text without capitals, and its result
      never has any. */
  lemma ToLowerNoUpper(s: string)
    ensures NoUpper(ToLower(s))
    ensures NoUpper(s) ==> ToLower(s) == s
  {
    assert forall i :: 0 <= i < |s| ==> ToLower(s)[i] == LowerChar(s[i]);
  }

  predicate StartsWith(s: string, p: string) {
    |p| <= |s| && s[..|p|] == p
  }

  predicate EndsWith(s: string, p: string) {
    |p| <= |s| && s[|s| - |p|..] == p
  }

  /** `p` occurs in `s` at offset `i`. */
  predicate OccursAt(s: string, p: string, i: nat) {
    i + |p| <= |s| && s[i..i + |p|] == p
  }

  /** `str::contains` for a string pattern. */
  predicate Contains(s: string, p: string)
    decreases |s|
  {
    StartsWith(s, p) || (s != [] && Contains(s[1..], p))
  }

  /** A contained pattern occurs at some offset of the text. */
  lemma {:induction false} ContainsAt(s: string, p: string)
    requires Contains(s, p)
    ensures exists i: nat :: OccursAt(s, p, i)
  {
    if StartsWith(s, p) {
      assert OccursAt(s, p, 0);
    } else {
      ContainsAt(s[1..], p);
      var i: nat :| OccursAt(s[1..], p, i);
      assert s[i + 1..i + 1 + |p|] == s[1..][i..i + |p|];
      assert OccursAt(s, p, i + 1);
    }
  }

  lemma OccursAtChar(s: string, p: string, i: nat, k: nat)
    requires OccursAt(s, p, i)
    requires k < |p|
    ensures s[i + k] == p[k]
  {
    assert s[i..i + |p|][k] == s[i + k];
  }

  /** An occurrence at any offset is found by `Contains`. */
  lemma {:induction false} OccursAtContains(s: string, p: string, i: nat)
    requires OccursAt(s, p, i)
    ensures Contains(s, p)
    decreases i
  {
    if i > 0 {
      assert s[1..][i - 1..i - 1 + |p|] == s[i..i + |p|];
      OccursAtContains(s[1..], p, i - 1);
    } else {
      assert StartsWith(s, p);
    }
  }

  /** Text appended after a contained pattern keeps it contained. */
  lemma ContainsExtend(a: string, b: string, p: string)
    requires Contains(a, p)
    ensures Contains(a + b, p)
  {
    ContainsAt(a, p);
    var i: nat :| OccursAt(a, p, i);
    assert (a + b)[i..i + |p|] == a[i..i + |p|];
    OccursAtContains(a + b, p, i);
  }

  /** Every character of a contained pattern occurs in the text. */
  lemma ContainsChar(s: string, p: string, k: nat)
    requires Contains(s, p)
    requires k < |p|
    ensures p[k] in s
  {
    ContainsAt(s, p);
    var i: nat :| OccursAt(s, p, i);
    assert s[i + k] == s[i..i + |p|][k];
  }

  /** A pattern lacking one of its characters in the text is not contained. */
  lemma NotContainsByChar(s: string, p: string, k: nat)
    requires k < |p| && p[k] !in s
    ensures !Contains(s, p)
  {
    if Contains(s, p) {
      ContainsChar(s, p, k);
    }
  }

  /** A prefix of a contained pattern is contained. */
  lemma ContainsPrefix(s: string, p: string, n: nat)
    requires Contains(s, p)
    requires n <= |p|
    ensures Contains(s, p[..n])
  {
    ContainsAt(s, p);
    var i: nat :| OccursAt(s, p, i);
    assert s[i..i + n] == p[..n];
    OccursAtContains(s, p[..n], i);
  }

  /** A whitespace-free pattern found in two texts glued by one whitespace
      character lies entirely inside one of them. */
  lemma ContainsSplit(a: string, c: char, b: string, p: string)
    requires IsSpace(c)
    requires forall k :: 0 <= k < |p| ==> !IsSpace(p[k])
    requires Contains(a + [c] + b, p)
    ensures Contains(a, p) || Contains(b, p)
  {
    var s := a + [c] + b;
    ContainsAt(s, p);
    var i: nat :| OccursAt(s, p, i);
    OccursSplit(a, c, b, p, i);
    if i + |p| <= |a| {
      OccursAtContains(a, p, i);
    } else {
      OccursAtContains(b, p, i - |a| - 1);
    }
  }

  /** An occurrence of a whitespace-free pattern in two texts glued by one
      whitespace character is an occurrence in one of them. */
  lemma OccursSplit(a: string, c: char, b: string, p: string, i: nat)
    requires IsSpace(c)
    requires forall k :: 0 <= k < |p| ==> !IsSpace(p[k])
    requires OccursAt(a + [c] + b, p, i)
    ensures i + |p| <= |a| ==> OccursAt(a, p, i)
    ensures i + |p| > |a| ==> i > |a| && OccursAt(b, p, i - |a| - 1)
  {
    var s := a + [c] + b;
    if i + |p| <= |a| {
      assert a[i..i + |p|] == s[i..i + |p|];
    } else if i > |a| {
      SliceRight(a, c, b, i, |p|);
    } else {
      OccursAtChar(s, p, i, |a| - i);
      assert false;
    }
  }

  /** A slice lying after the glue character is a slice of the right part. */
  lemma SliceRight(a: string, c: char, b: string, i: nat, n: nat)
    requires |a| < i && i + n <= |a| + 1 + |b|
    ensures (a + [c] + b)[i..i + n] == b[i - |a| - 1..i - |a| - 1 + n]
  {
  }

  /** A whitespace-free pattern absent from every word is absent from the
      words joined by spaces. */
  lemma {:induction false} NotContainsJoin(ws: seq<string>, p: string)
    requires |p| > 0
    requires forall k :: 0 <= k < |p| ==> !IsSpace(p[k])
    requires forall j :: 0 <= j < |ws| ==> !Contains(ws[j], p)
    ensures !Contains(Join(ws, " "), p)
  {
    if |ws| > 1 {
      NotContainsJoin(ws[1..], p);
      var rest := Join(ws[1..], " ");
      assert Join(ws, " ") == ws[0] + [' '] + rest;
      if Contains(Join(ws, " "), p) {
        ContainsSplit(ws[0], ' ', rest, p);
      }
    }
  }

  /** Lowercasing distributes over concatenation. */
  lemma ToLowerAppend(a: string, b: string)
    ensures ToLower(a + b) == ToLower(a) + ToLower(b)
  {
  }

  /** Lowercasing space-joined words lowercases each word: the result is
      the lowercased words joined by spaces. */
  lemma {:induction false} ToLowerJoin(ws: seq<string>, lw: seq<string>)
    requires |ws| == |lw|
    requires forall i :: 0 <= i < |ws| ==> ToLower(ws[i]) == lw[i]
    ensures ToLower(Join(ws, " ")) == Join(lw, " ")
  {
    if |ws| == 1 {
      assert Join(ws, " ") == ws[0] && Join(lw, " ") == lw[0];
    } else if |ws| > 1 {
      assert forall i :: 0 <= i < |ws| - 1 ==> ws[1..][i] == ws[i + 1] && lw[1..][i] == lw[i + 1];
      ToLowerJoin(ws[1..], lw[1..]);
      JoinCons(ws, " ");
      JoinCons(lw, " ");
      ToLowerJoinStep(ws[0], Join(ws[1..], " "), lw[0], Join(lw[1..], " "));
    }
  }

  /** Lowercasing a word, a space and the rest piece by piece. */
  lemma ToLowerJoinStep(w: string, rest: string, lowW: string, lowRest: string)
    requires ToLower(w) == lowW && ToLower(rest) == lowRest
    ensures ToLower(w + (" " + rest)) == lowW + (" " + lowRest)
  {
    ToLowerAppend(w, " " + rest);
    ToLowerAppend(" ", rest);
    assert ToLower(" ") == " ";
  }

  /** The number of bytes of the UTF-8 encoding of one character. */
  function Utf8Width(c: char): nat {
    if c as int < 0x80 then 1
    else if c as int < 0x800 then 2
    else if c as int < 0x10000 then 3
    else 4
  }

  /** `str::len()`: the UTF-8 byte length, which is what the source measures
      when it talks about the length of a word. */
  function Utf8Len(s: string): (n: nat)
    ensures |s| <= n <= 4 * |s|
  {
    if s == [] then 0 else Utf8Width(s[0]) + Utf8Len(s[1..])
  }

  /** The `{}` formatting of an unsigned integer: its decimal digits, most
      significant first, without leading zeros. */
  function NatToString(n: nat): (s: string)
    ensures |s| >= 1
    ensures forall i :: 0 <= i < |s| ==> '0' <= s[i] <= '9'
    decreases n
  {
    var digit := ('0' as int + n % 10) as char;
    if n < 10 then [digit] else NatToString(n / 10) + [digit]
  }
}

=== FILE: tutorial_overlay.dfy ===
/** The tutorial overlay: a step counter over a list of step texts, with
    Next and Back buttons, a label that turns into "Get Started" on the
    last step, and a close request when Next is pressed on the last step.
    The counter is a `usize` of the browser build, 32 bits wide. */
module TutorialOverlay {
  import Text

  /** The largest `usize` of the 32-bit WebAssembly target. */
  const UsizeMax: nat := 0xFFFF_FFFF

  /** `total_steps - 1` in `usize`: with no steps the subtraction wraps
      around to the largest value. */
  function LastIndex(total: nat): (r: nat)
    requires total <= UsizeMax
    ensures total > 0 ==> r + 1 == total
    ensures total == 0 ==> r == UsizeMax
  {
    if total == 0 then UsizeMax else total - 1
  }

  /** The overlay starts on the first step. */
  const InitialStep: nat := 0

  /** `go_next`: the new step and whether the tutorial asks to be closed.
      Before the last step it moves on; on the last step (or past it) it
      asks to close and stays. */
  function GoNext(step: nat, total: nat): (r: (nat, bool))
    ensures r.1 <==> step + 1 >= total
    ensures r.1 ==> r.0 == step
    ensures !r.1 ==> r.0 == step + 1 && r.0 < total
  {
    var next := step + 1;
    if next < total then (next, false) else (step, true)
  }

  /** `go_prev`: back one step, never below the first. */
  function GoPrev(step: nat): (r: nat)
    ensures step > 0 ==> r + 1 == step
    ensures step == 0 ==> r == 0
  {
    if step > 0 then step - 1 else step
  }

  /** `show_back`: the Back button shows past the first step. */
  function ShowBack(step: nat): (b: bool)
    ensures b <==> step > 0
  {
    step > 0
  }

  const GetStarted: string := "Get Started \U{1F680}"
  const NextLabel: string := "Next \U{2192}"

  /** The label of the forward button. */
  function NextButtonLabel(step: nat, total: nat): (caption: string)
    requires total <= UsizeMax
    ensures caption == GetStarted || caption == NextLabel
  {
    if step == LastIndex(total) then GetStarted else NextLabel
  }

  /** The progress heading, "Step k of n" with k counted from one. */
  function Heading(step: nat, total: nat): (h: string) {
    "Step " + Text.NatToString(step + 1) + " of " + Text.NatToString(total)
  }

  /** Whether a heading reads "Step k of n". */
  predicate Shows(h: string, k: nat, n: nat) {
    h == "Step " + Text.NatToString(k) + " of " + Text.NatToString(n)
  }

  /** Different numbers are formatted differently: the decimal text can be
      read back. */
  lemma {:induction false} NatToStringInjective(a: nat, b: nat)
    requires Text.NatToString(a) == Text.NatToString(b)
    ensures a == b
    decreases a
  {
    var s := Text.NatToString(a);
    assert s[|s| - 1] == ('0' as int + a % 10) as char == ('0' as int + b % 10) as char;
    if a >= 10 && b >= 10 {
      assert Text.NatToString(a / 10) == s[..|s| - 1] == Text.NatToString(b / 10);
      NatToStringInjective(a / 10, b / 10);
    }
  }

  /** In a heading, the first space after "Step " ends the number. */
  lemma SpaceEndsNumber(a: string, b: string, i: nat)
    requires forall j :: 0 <= j < |a| ==> '0' <= a[j] <= '9'
    requires i <= |a|
    ensures ("Step " + a + " of " + b)[5 + i] == ' ' <==> i == |a|
  {
  }

  /** Two numbers framed as a heading can be told apart again, since a
      number's digits never contain the space that follows it. */
  lemma FramedNumbers(a: string, b: string, c: string, d: string)
    requires forall i :: 0 <= i < |a| ==> '0' <= a[i] <= '9'
    requires forall i :: 0 <= i < |c| ==> '0' <= c[i] <= '9'
    requires "Step " + a + " of " + b == "Step " + c + " of " + d
    ensures a == c && b == d
  {
    var h := "Step " + a + " of " + b;
    SpaceEndsNumber(a, b, |a|);
    SpaceEndsNumber(c, d, |c|);
    if |a| <= |c| {
      SpaceEndsNumber(c, d, |a|);
    } else {
      SpaceEndsNumber(a, b, |c|);
    }
    assert a == h[5..5 + |a|] && b == h[9 + |a|..];
  }

  /** The heading shows exactly two numbers: the step counted from one,
      and the number of steps. */
  lemma HeadingReadsBack(step: nat, total: nat, k: nat, n: nat)
    ensures Shows(Heading(step, total), k, n) <==> k == step + 1 && n == total
  {
    if Shows(Heading(step, total), k, n) {
      FramedNumbers(Text.NatToString(step + 1), Text.NatToString(total), Text.NatToString(k), Text.NatToString(n));
      NatToStringInjective(step + 1, k);
      NatToStringInjective(total, n);
    }
  }

  /** The text shown for the current step; empty past the end. */
  function StepText(steps: seq<string>, step: nat): (t: string)
    ensures step < |steps| ==> t == steps[step]
    ensures step >= |steps| ==> t == ""
  {
    if step < |steps| then steps[step] else ""
  }

  /** How the progress dot of step `idx` is drawn. */
  datatype Dot = Current | Done | Upcoming

  function DotOf(idx: nat, current: nat): (d: Dot)
    ensures d == Current <==> idx == current
    ensures d == Done <==> idx < current
    ensures d == Upcoming <==> idx > current
  {
    if idx == current then Current else if idx < current then Done else Upcoming
  }

  lemma LabelsDiffer()
    ensures GetStarted != NextLabel
  {
    assert |GetStarted| != |NextLabel|;
  }

  /** With at least one step, the label reads "Get Started" exactly on the
      last step, and pressing the button there, and only there, asks to
      close the tutorial. With no steps the wrapped subtraction makes the
      label "Next" on every reachable step, though Next still closes. */
  lemma LabelMatchesClosing(step: nat, total: nat)
    requires total <= UsizeMax
    requires step < UsizeMax
    ensures 0 < total && step < total ==>
              (NextButtonLabel(step, total) == GetStarted <==> step == total - 1)
              && (NextButtonLabel(step, total) == GetStarted <==> GoNext(step, total).1)
    ensures total == 0 ==> NextButtonLabel(step, total) == NextLabel && GoNext(step, total).1
  {
    LabelsDiffer();
  }

  /** A button press on the overlay. */
  datatype Press = Next | Back

  /** The step after a run of presses; a close request leaves the step as it
      is, as the overlay stays mounted until its owner hides it. */
  function Run(step: nat, total: nat, presses: seq<Press>): nat
    decreases |presses|
  {
    if presses == [] then step
    else
      var s := if presses[0] == Next then GoNext(step, total).0 else GoPrev(step);
      Run(s, total, presses[1..])
  }

  /** With at least one step, the counter stays on a valid step under any
      run of presses from a valid step. */
  lemma {:induction false} RunStaysInRange(step: nat, total: nat, presses: seq<Press>)
    requires step < total
    ensures Run(step, total, presses) < total
    decreases |presses|
  {
    if presses != [] {
      var s := if presses[0] == Next then GoNext(step, total).0 else GoPrev(step);
      RunStaysInRange(s, total, presses[1..]);
    }
  }

  /** Starting on the first step, the counter never leaves the tutorial,
      so the text shown is always one of the steps. */
  lemma StartedTutorialStaysInRange(steps: seq<string>, presses: seq<Press>)
    requires |steps| >= 1
    ensures Run(InitialStep, |steps|, presses) < |steps|
    ensures StepText(steps, Run(InitialStep, |steps|, presses)) in steps
  {
    RunStaysInRange(InitialStep, |steps|, presses);
  }

  /** Starting on the first step, whatever is pressed, the heading shows a
      step between one and the number of steps. */
  lemma StartedHeadingInRange(steps: seq<string>, presses: seq<Press>)
    requires |steps| >= 1
    ensures var k := Run(InitialStep, |steps|, presses) + 1;
      && 1 <= k <= |steps|
      && Shows(Heading(k - 1, |steps|), k, |steps|)
  {
    RunStaysInRange(InitialStep, |steps|, presses);
  }

  /** Next then Back returns to the same step whenever Next moved on. */
  lemma NextThenBack(step: nat, total: nat)
    requires step + 1 < total
    ensures GoPrev(GoNext(step, total).0) == step
  {
  }
}

=== FILE: weigh_station.dfy ===
/** The weigh station: a length heuristic for a word's weight and tier, and
    the departure check of a train car. */
module WeighStation {
  import opened Wrappers
  import Text
  import Railway

  /** `weigh_cargo`: 0-4 bytes of UTF-8 is a light Tier 1 word (weight 5),
      5-8 bytes a Tier 2 word (weight 20), anything longer a Tier 3 word
      (weight 50). The embedding is left empty. */
  function WeighCargo(word: string): (d: Railway.WordDefinition)
    ensures d.word == word && d.embedding == []
    ensures d.tier == Railway.Tier1 <==> Text.Utf8Len(word) <= 4
    ensures d.tier == Railway.Tier2 <==> 5 <= Text.Utf8Len(word) <= 8
    ensures d.tier == Railway.Tier3 <==> 9 <= Text.Utf8Len(word)
  {
    var length := Text.Utf8Len(word);
    if length <= 4 then Railway.WordDefinition(word, 5, Railway.Tier1, [])
    else if length <= 8 then Railway.WordDefinition(word, 20, Railway.Tier2, [])
    else Railway.WordDefinition(word, 50, Railway.Tier3, [])
  }

  /** The weight of each tier. */
  function TierWeight(t: Railway.VocabularyTier): Railway.U8 {
    match t
    case Tier1 => 5
    case Tier2 => 20
    case Tier3 => 50
  }

  /** The weight is fixed by the tier, so it is 5, 20 or 50. */
  lemma WeightFollowsTier(word: string)
    ensures WeighCargo(word).weight == TierWeight(WeighCargo(word).tier)
    ensures WeighCargo(word).weight in {5, 20, 50}
  {
  }

  /** Longer words never weigh less, and no word weighs more than 50. */
  lemma WeightMonotone(a: string, b: string)
    requires Text.Utf8Len(a) <= Text.Utf8Len(b)
    ensures WeighCargo(a).weight <= WeighCargo(b).weight <= 50
  {
  }

  /** The source's tests: "Cat", "Planet" and "Photosynthesis". */
  lemma WeighExamples()
    ensures WeighCargo("Cat").weight == 5 && WeighCargo("Cat").tier == Railway.Tier1
    ensures WeighCargo("Planet").weight == 20 && WeighCargo("Planet").tier == Railway.Tier2
    ensures WeighCargo("Photosynthesis").weight == 50 && WeighCargo("Photosynthesis").tier == Railway.Tier3
  {
  }

  /** `validate_car`: an overloaded car may not depart. */
  function ValidateCar(car: Railway.TrainCar): (r: Result<bool>)
    ensures r.Err? <==> car.currentLoad > car.maxCognitiveCapacity
    ensures r.Ok? ==> r.value
    ensures r.Err? ==> r.error == "Overload detected: " + Text.NatToString(car.currentLoad as nat)
                                  + "/" + Text.NatToString(car.maxCognitiveCapacity as nat)
  {
    if car.currentLoad > car.maxCognitiveCapacity then
      Err("Overload detected: " + Text.NatToString(car.currentLoad as nat)
          + "/" + Text.NatToString(car.maxCognitiveCapacity as nat))
    else Ok(true)
  }

  /** A new car after offering it the given words one by one. */
  function Loaded(id: nat, objective: string, capacity: Railway.U8, words: seq<Railway.WordDefinition>)
    : (c: Railway.TrainCar)
    decreases |words|
  {
    if words == [] then Railway.New(id, objective, capacity)
    else Railway.AddCargo(Loaded(id, objective, capacity, words[..|words| - 1]), words[|words| - 1]).0
  }

  /** Every car built by `new` and the corrected `add_cargo` keeps its
      invariant, and so passes the departure check. */
  lemma {:induction false} LoadedCarsDepart(id: nat, objective: string, capacity: Railway.U8,
                                            words: seq<Railway.WordDefinition>)
    ensures Railway.Valid(Loaded(id, objective, capacity, words))
    ensures ValidateCar(Loaded(id, objective, capacity, words)) == Ok(true)
    decreases |words|
  {
    if words != [] {
      LoadedCarsDepart(id, objective, capacity, words[..|words| - 1]);
      Railway.AddCargoValid(Loaded(id, objective, capacity, words[..|words| - 1]), words[|words| - 1]);
    }
  }

  /** As written, the overloaded car of `Railway.OverflowAcceptsOverload`
      passes the departure check: its wrapped load 44 is within capacity
      250, while its cargo weighs 300. */
  lemma OverloadedCarDeparts(id: nat, w: Railway.WordDefinition)
    requires w.weight == 100
    ensures var c := Railway.TrainCar(id, "", 250, 200, [Railway.WordDefinition("", 200, Railway.Tier3, [])], None, 0.8);
      var r := Railway.AddCargoAsWritten(c, w).0;
      && ValidateCar(r) == Ok(true)
      && Railway.CargoWeight(r.cargo) > r.maxCognitiveCapacity as nat
  {
    Railway.OverflowAcceptsOverload(id, w);
    var c := Railway.TrainCar(id, "", 250, 200, [Railway.WordDefinition("", 200, Railway.Tier3, [])], None, 0.8);
    var r := Railway.AddCargoAsWritten(c, w).0;
    assert r.cargo[..1] == c.cargo;
  }
}

=== FILE: weigh_station_ui.dfy ===
/** The weigh-station screen: the learner types a word, weighs it, and the
    word joins the cargo list as a crate coloured by its weight. */
module WeighStationUi {
  import Text
  import Railway
  import WeighStation

  /** `VocabularyCrate`. */
  datatype VocabularyCrate = VocabularyCrate(word: string, cognitiveWeight: Railway.U8)

  /** The screen's two signals: the crates so far and the text being typed. */
  datatype Screen = Screen(cargo: seq<VocabularyCrate>, inputWord: string)

  /** The mock weighing: up to 4 bytes of UTF-8 weighs 10, 5-8 bytes 50,
      anything longer 90. */
  function CrateWeight(word: string): (w: Railway.U8)
    ensures w == 10 <==> Text.Utf8Len(word) <= 4
    ensures w == 50 <==> 5 <= Text.Utf8Len(word) <= 8
    ensures w == 90 <==> 9 <= Text.Utf8Len(word)
  {
    var length := Text.Utf8Len(word);
    if length <= 4 then 10 else if length <= 8 then 50 else 90
  }

  /** `weigh_word`: nothing happens for an empty input; otherwise one crate
      is appended and the input is cleared. */
  function WeighWord(s: Screen): (r: Screen)
    ensures s.inputWord == [] ==> r == s
    ensures s.inputWord != [] ==> && r.cargo == s.cargo + [VocabularyCrate(s.inputWord, CrateWeight(s.inputWord))]
                                  && r.inputWord == []
  {
    if s.inputWord == [] then s
    else Screen(s.cargo + [VocabularyCrate(s.inputWord, CrateWeight(s.inputWord))], "")
  }

  /** Weighing twice in a row adds one crate: the first weighing clears the
      input. */
  lemma WeighTwiceOnce(s: Screen)
    ensures WeighWord(WeighWord(s)) == WeighWord(s)
  {
  }

  datatype Colour = Green | Yellow | Red

  /** The crate's colour band: green up to 30, yellow from 31 to 70, red above. */
  function ColourOf(weight: Railway.U8): (c: Colour)
    ensures c == Green <==> weight <= 30
    ensures c == Red <==> weight > 70
  {
    if weight <= 30 then Green else if weight <= 70 then Yellow else Red
  }

  /** The bands from light to heavy. */
  function ColourRank(c: Colour): nat {
    match c
    case Green => 0
    case Yellow => 1
    case Red => 2
  }

  /** Heavier crates never get a lighter colour. */
  lemma ColourMonotone(a: Railway.U8, b: Railway.U8)
    requires a <= b
    ensures ColourRank(ColourOf(a)) <= ColourRank(ColourOf(b))
  {
  }

  /** The three weights land in the three bands, and a crate's colour is the
      tier the backend's weigh station gives the same word. */
  lemma ColourMatchesTier(word: string)
    ensures ColourOf(10) == Green && ColourOf(50) == Yellow && ColourOf(90) == Red
    ensures var c, t := ColourOf(CrateWeight(word)), WeighStation.WeighCargo(word).tier;
      && (c == Green <==> t == Railway.Tier1)
      && (c == Yellow <==> t == Railway.Tier2)
      && (c == Red <==> t == Railway.Tier3)
  {
  }
}

=== FILE: wrappers.dfy ===
/** Failure-carrying values shared by every module: the Rust `Option`,
    `Result<T, String>` and `Result<(), String>` of the source. */
module Wrappers {

  datatype Option<+T> = None | Some(value: T)

  /** An error is the human-readable message the source builds with
      `format!` or `anyhow!`; only its presence matters to the model. */
  datatype Result<+T> = Ok(value: T) | Err(error: string)

  /** `Result<(), E>`: a side-effecting step that passes or fails. */
  datatype Outcome = Pass | Fail(error: string)
}
